=== FILE: README.md ===
# easy-memo, modelled in Dafny

A model of the core of easy-memo, a small memo application with three parts:

- an Express back end with JWT authentication and user routes;
- a Next.js front end with zustand stores for authentication and memos;
- a release script that writes the changelog.

Each source file of the core is one module, with pure functions over immutable datatypes. Two shared modules model the JavaScript built-ins the code relies on:

- `Strings`: `trim` with the ECMAScript whitespace set, `toLowerCase` for the characters that lower-case to ASCII letters, the `A`-`Z` folding of a regular expression's `i` flag, `includes`, `startsWith`, `split` and `join`, decimal printing and `Number()` on digit strings.
- `Optional`: JavaScript `undefined`/`null`, as `Option`.

Everything the code gets from outside is an input to the model:

- the `fetch` outcomes and the server replies;
- `jwt.verify`, `ObjectId.isValid`, and the `User.findById` lookup of the admin check in `auth.js`. The user routes instead search a list of users, matching ids by spelling (see "Left out");
- `window` and `navigator`;
- the clock, `Math.random` digits, `git` output and file contents.

The memo store calls the server directly and keeps no queue of pending operations.

Modules:

- `Changelog` — `scripts/update-changelog.js`. Commit classification by the first matching keyword, or by inference from the wording. Bucketing into the six Keep a Changelog categories. Rendering and splicing of the new section under `[Unreleased]`. The next patch version from the last tag.
- `UserRoutes` — `backend/routes/users.js`. Get, create, update and delete a user. Covers the e-mail regular expression, the duplicate checks and the cascade delete of a user's memos.
- `AuthMiddleware` — `backend/middleware/auth.js`. `authenticateToken`, `optionalAuth`, `requireAdmin` and `authenticateAdmin`.
- `AuthStore` — `frontend/src/app/store/authStore.ts`. Login, logout, token verification and what is persisted.
- `MemoStore` — `frontend/src/app/store/memoStore.ts`. Fetch, add, update and delete memos, and the fallback UUID generator.
- `SignUp` and `PasswordReset` — the sign-up and password-reset request pages: their validation ladders and their loading/error state.
- `MemoForm` and `DeviceDetect` — the current front end's memo form, its `isDesktop` check, and `isIOSPWA`/`isSafari`.
- `LegacyMemoForm` and `LegacyMemoList` — the older root application's memo form and memo list. Covers the system information collected from the user agent and the edit/delete handlers.
- `BuildVersion` — `frontend/scripts/generate-version.js`. The `yyyy.mm.dd-hhmmss` stamp and the generated module.
- `NextConfig` — `frontend/next.config.js`. The version read from `.env`, and the development/production settings.

## Model

| member | source | states |
|---|---|---|
| Changelog.TitleIsCapitalizedKey | scripts/update-changelog.js:142 | each block title is the category key with its first letter upper-cased |
| Changelog.FirstKeywordWins | scripts/update-changelog.js:70-81 | a commit goes to the category of the first keyword of the type table found in its lower-cased text, whatever later keywords it contains |
| Changelog.NoKeywordInfers | scripts/update-changelog.js:84-97 | without any keyword the category is inferred from the lower-cased commit: Added exactly when it says add, implement or create; otherwise Fixed exactly when it says fix, resolve or bug; otherwise Removed exactly when it says remove or delete; otherwise Changed |
| Changelog.Infer | scripts/update-changelog.js:84-97 | inference never yields Deprecated or Security and follows the ladder: Added exactly when the text says add, implement or create; Fixed exactly when it does not and says fix, resolve or bug; Removed exactly when it says neither and says remove or delete; Changed exactly when it says none of them |
| Changelog.ClassifyIgnoresCase | scripts/update-changelog.js:71 | commits equal up to letter case land in the same category |
| Changelog.DeprecatedAndSecurityNeedKeyword | scripts/update-changelog.js:54-68 | Deprecated and Security are reached only through their own keywords |
| Changelog.CategorizeCommits | scripts/update-changelog.js:44-101 | each bucket holds exactly the commits of its category, in their original order |
| Changelog.BucketSizesAddUp | scripts/update-changelog.js:70-98 | the buckets together hold as many commits as were given: none lost, none duplicated |
| Changelog.EveryCommitIsBucketed | scripts/update-changelog.js:70-98 | every commit appears in the bucket of its own category |
| Changelog.BucketHoldsOnlyItsCategory | scripts/update-changelog.js:70-98 | a bucket holds only given commits of its category |
| Changelog.BucketKeepsOrder | scripts/update-changelog.js:70-98 | categorizing a prefix of the commits gives a prefix of each bucket |
| Changelog.CommitsFromLog | scripts/update-changelog.js:32-34 | the commits are non-blank single lines of the log, every non-blank line of the log is among them, and there are none exactly when every line is blank |
| Changelog.NonBlank | scripts/update-changelog.js:34 | exactly the non-blank lines are kept, none exactly when all are blank |
| Changelog.NonBlankAppend | scripts/update-changelog.js:34 | filtering a concatenation is concatenating the filtered parts, so the kept lines stay in log order |
| Changelog.NonBlankLine | scripts/update-changelog.js:34 | a single line is kept exactly when it is not blank |
| Changelog.NonBlankKeepsRepeats | scripts/update-changelog.js:34 | a non-blank line is kept as many times as it occurs in the log |
| Changelog.RenderSection | scripts/update-changelog.js:137-149 | the section starts with the version header and a blank line |
| Changelog.HeadingAt | scripts/update-changelog.js:140-147 | a non-empty category's `### Title` heading is the first line after the blocks of the categories listed before it, and its block takes at least three lines |
| Changelog.RenderedCategoryOrder | scripts/update-changelog.js:45-52 | in a rendered section, of two non-empty categories the one declared first (Added, Changed, Deprecated, Removed, Fixed, Security) has its heading on an earlier line |
| Changelog.RenderThenParse | scripts/update-changelog.js:137-149 | a rendered section parses back to its header and to exactly the given buckets; empty categories leave no block |
| Changelog.BlocksLength | scripts/update-changelog.js:140-149 | each non-empty category adds its title, its bullets and a blank line |
| Changelog.RenderedLinesAreSingle | scripts/update-changelog.js:137-149 | single-line inputs render to single lines |
| Changelog.FindUnreleased | scripts/update-changelog.js:129-134 | the index of the first line containing `[Unreleased]`, and none when no line does |
| Changelog.SpliceSection | scripts/update-changelog.js:129-152 | no splice without an `[Unreleased]` line; otherwise the section's lines are added |
| Changelog.SpliceKeepsLines | scripts/update-changelog.js:152 | the section goes two lines below `[Unreleased]`, or at the end of a shorter file, and every old line is kept in order |
| Changelog.InsertKeeps | scripts/update-changelog.js:152 | inserting keeps the lines before and after the insertion point |
| Changelog.UpdateChangelog | scripts/update-changelog.js:119-123 | a missing changelog is not written |
| Changelog.UpdatePreservesOldText | scripts/update-changelog.js:119-157 | the written text splits into the spliced lines, and removing the section gives back the old text exactly |
| Changelog.RemoveFirst | scripts/update-changelog.js:107 | `replace('v', '')` removes the first `v` and only it, keeping what is before and after; without a `v` nothing changes |
| Changelog.NoTagStartsAtOne | scripts/update-changelog.js:114 | without a tag the version is 1.0.0 |
| Changelog.NextVersionBumpsPatch | scripts/update-changelog.js:104-116 | tag `vM.m.p` gives `M.m.(p+1)` |
| Changelog.PlusOneText | scripts/update-changelog.js:111 | the patch number printed after the increment is the decimal of p+1 |
| Changelog.RunScript | scripts/update-changelog.js:160-176 | with no new commits nothing is written; otherwise the categorized commits go under the next version |
| UserRoutes.IsEmailMatchesRegex | backend/routes/users.js:51-54 | the e-mail check accepts exactly the strings matched by `^[^\s@]+@[^\s@]+\.[^\s@]+$` |
| UserRoutes.FindByEmail | backend/routes/users.js:57 | finds a user with that address, or reports that none has it |
| UserRoutes.FindById | backend/routes/users.js:134 | finds a user with that id, or reports that none has it |
| UserRoutes.GetUser | backend/routes/users.js:19-39 | 404 exactly when no user has the identifier as id (when it is a valid id) or as address; otherwise 200 with that user |
| UserRoutes.CreateUser | backend/routes/users.js:42-75 | 400 for a missing or malformed address, 409 for a taken address, otherwise 201 with the trimmed address appended as a new user; a refusal leaves the database alone |
| UserRoutes.SetEmail | backend/routes/users.js:106-110 | only the user with the id gets the new address; all other users are kept |
| UserRoutes.UpdateUser | backend/routes/users.js:78-123 | 400 for a bad id or a missing or malformed address, 409 for an address taken by another user, 404 for an unknown id, 200 otherwise; a refusal leaves the database alone |
| UserRoutes.WithoutUser | backend/routes/users.js:142 | exactly the users with another id remain |
| UserRoutes.WithoutMemosOf | backend/routes/users.js:142 | exactly the memos of other users remain |
| UserRoutes.DeleteUser | backend/routes/users.js:126-148 | 400 for a bad id, 404 for an unknown id, 204 exactly when the user exists; exactly the user and exactly their memos are removed |
| UserRoutes.CreateKeepsValid | backend/routes/users.js:42-75 | creating a user with a fresh id keeps ids and addresses unique |
| UserRoutes.UpdateKeepsValid | backend/routes/users.js:78-123 | updating keeps ids and addresses unique |
| UserRoutes.WithoutUserKeepsDistinct | backend/routes/users.js:142 | removing a user keeps the rest unique |
| UserRoutes.DeleteKeepsValid | backend/routes/users.js:126-148 | deleting keeps ids and addresses unique |
| AuthMiddleware.ExtractToken | backend/middleware/auth.js:8-9 | a token is the non-empty second space-separated field of the header |
| AuthMiddleware.BearerHeaderYieldsToken | backend/middleware/auth.js:8-9 | `Bearer <token>` yields the token |
| AuthMiddleware.DoubleSpaceHasNoToken | backend/middleware/auth.js:8-13 | two spaces after the scheme leave an empty second field, so there is no token |
| AuthMiddleware.VerifyError | backend/middleware/auth.js:15-24 | an expired token gives 401; every other verification error gives 403 |
| AuthMiddleware.AuthenticateToken | backend/middleware/auth.js:7-30 | a request passes exactly when a token is present and verifies, carrying the decoded user id; a missing token gives 401 |
| AuthMiddleware.AuthenticateStatus | backend/middleware/auth.js:10-24 | 401 exactly for a missing or expired token, 403 exactly for the other failures |
| AuthMiddleware.OptionalAuth | backend/middleware/auth.js:33-50 | the optional check never refuses |
| AuthMiddleware.OptionalAuthAgreesWithStrict | backend/middleware/auth.js:33-50 | the optional check gives the strict check's user id when the strict check passes, and leaves the request unchanged otherwise |
| AuthMiddleware.AdminEmails | backend/middleware/auth.js:64 | the configured list split at commas, and empty when unset or empty |
| AuthMiddleware.AdminEmailsOfList | backend/middleware/auth.js:64 | a comma-joined list splits back to itself |
| AuthMiddleware.UntrimmedEntryDoesNotMatch | backend/middleware/auth.js:64-65 | entries are not trimmed, so `a, b` does not admit `b` |
| AuthMiddleware.RequireAdmin | backend/middleware/auth.js:53-77 | 500 on a lookup error, 401 for a missing user, admitted exactly for the admin role or a listed address, 403 otherwise |
| AuthMiddleware.AuthenticateAdminOrder | backend/middleware/auth.js:80 | the token check runs first and its refusals are final; the admin check sees the decoded user id |
| AuthStore.InitialIsSignedOut | frontend/src/app/store/authStore.ts:39-44 | the initial state is signed out, idle, holds no credentials and has no error |
| AuthStore.LoginStart | frontend/src/app/store/authStore.ts:48 | a login sets loading and clears the error, changing nothing else |
| AuthStore.LoginError | frontend/src/app/store/authStore.ts:61-63 | the error is the server's message if it is non-empty, the thrown message if there is one, else the default |
| AuthStore.LoginFinish | frontend/src/app/store/authStore.ts:65-80 | success stores the token, user id and user and signs in; failure records the error and keeps the credentials; loading always ends |
| AuthStore.FailedLoginKeepsCredentials | frontend/src/app/store/authStore.ts:75-80 | a refused login reports the server's message and changes no credential |
| AuthStore.Logout | frontend/src/app/store/authStore.ts:85-93 | logout drops every credential and the error |
| AuthStore.TokenToVerify | frontend/src/app/store/authStore.ts:97-101 | a request is sent exactly when a non-empty token is held, and carries that token |
| AuthStore.VerifyFinish | frontend/src/app/store/authStore.ts:103-133 | on the store as it is when the request settles, success merges the returned identity and keeps the rest, and any failure signs out as logout does, keeping the error |
| AuthStore.LogoutDuringVerify | frontend/src/app/store/authStore.ts:85-134 | a logout while verification is out is undone by the success merge, leaving a signed-in store without a token |
| AuthStore.VerifyToken | frontend/src/app/store/authStore.ts:96-134 | with nothing else happening meanwhile: without a token nothing changes; a verified token signs in with the returned user; a failure signs out; loading and error are untouched |
| AuthStore.FailedVerifySignsOut | frontend/src/app/store/authStore.ts:125-132 | a token that fails verification signs out as logout does |
| AuthStore.ClearError | frontend/src/app/store/authStore.ts:137-139 | only the error is cleared |
| AuthStore.SetLoading | frontend/src/app/store/authStore.ts:142-144 | only the loading flag is set |
| AuthStore.PersistedIgnoresTransientFields | frontend/src/app/store/authStore.ts:148-153 | two states persist the same exactly when their token, user id, user and signed-in flag agree |
| AuthStore.TransientChangesAreNotPersisted | frontend/src/app/store/authStore.ts:137-153 | loading, error changes and failed logins persist nothing new |
| AuthStore.LogoutPersistsInitial | frontend/src/app/store/authStore.ts:85-93 | after logout the persisted record equals the initial one |
| AuthStore.ActionsKeepSignedOutEmpty | frontend/src/app/store/authStore.ts:47-144 | no action leaves a signed-out state holding credentials |
| MemoStore.Begin | frontend/src/app/store/memoStore.ts:84 | an action sets loading and changes nothing else |
| MemoStore.UserIdOrFallback | frontend/src/app/store/memoStore.ts:91 | a missing or empty user id becomes the non-empty fallback |
| MemoStore.FetchedList | frontend/src/app/store/memoStore.ts:88-94 | one online memo per server record, in order, with the record's id, content and date, and a non-empty owner that is the record's own when it has one and `user123` otherwise |
| MemoStore.FetchFinish | frontend/src/app/store/memoStore.ts:87-100 | when the reply arrives, a successful fetch replaces whatever list is current and a failed one keeps it; loading ends either way |
| MemoStore.FetchMemos | frontend/src/app/store/memoStore.ts:83-101 | a failed fetch keeps the list, a successful one replaces it; loading ends |
| MemoStore.FetchedMemosHaveOwners | frontend/src/app/store/memoStore.ts:83-101 | after a successful fetch the store holds exactly the server's memos, one per record with its id, all online and owned, whatever it held before |
| MemoStore.AddFinish | frontend/src/app/store/memoStore.ts:114-127 | the created memo is appended to the list current when the reply arrives; a failure keeps it; loading ends |
| MemoStore.AddMemo | frontend/src/app/store/memoStore.ts:103-129 | a created memo is appended after the unchanged list; a failure keeps the list; loading ends |
| MemoStore.ReplaceById | frontend/src/app/store/memoStore.ts:143-153 | every memo with the id is replaced, and all others are kept in place |
| MemoStore.UpdateFinish | frontend/src/app/store/memoStore.ts:142-159 | the memos with the id in the list current when the reply arrives are replaced by the server's version; a failure keeps the list; loading ends |
| MemoStore.UpdateMemo | frontend/src/app/store/memoStore.ts:131-161 | a successful update replaces the memos with the id by the server's version; a failure keeps the list |
| MemoStore.ReplaceFrame | frontend/src/app/store/memoStore.ts:143-153 | memos with another id are untouched; an absent id changes nothing |
| MemoStore.ReplaceIdempotent | frontend/src/app/store/memoStore.ts:143-153 | applying the same update twice equals applying it once |
| MemoStore.WithoutId | frontend/src/app/store/memoStore.ts:170 | exactly the memos with another id remain |
| MemoStore.DeleteFinish | frontend/src/app/store/memoStore.ts:169-176 | a resolved delete removes exactly the memos with the id from the list current at that moment; a failure keeps it; loading ends |
| MemoStore.DeleteMemo | frontend/src/app/store/memoStore.ts:163-178 | a resolved delete removes exactly the memos with the id and keeps the others in order; a failure keeps the list |
| MemoStore.WithoutIdAppend | frontend/src/app/store/memoStore.ts:170 | filtering distributes over concatenation |
| MemoStore.WithoutIdIdempotent | frontend/src/app/store/memoStore.ts:170 | deleting twice equals deleting once |
| MemoStore.DeleteUndoesAdd | frontend/src/app/store/memoStore.ts:103-178 | adding a memo and deleting its id leaves what deleting alone leaves |
| MemoStore.DeleteAfterReplace | frontend/src/app/store/memoStore.ts:131-178 | deleting after an update of the same id equals deleting without it |
| MemoStore.OverlappingAddsBothLand | frontend/src/app/store/memoStore.ts:103-129 | two adds in flight together both land, in reply order, and the first to settle already clears the shared loading flag |
| MemoStore.DeleteRacesAdd | frontend/src/app/store/memoStore.ts:103-178 | a delete settling after an add of the same id removes the memo; one settling before leaves it in the list |
| MemoStore.LateFetchDiscardsAdd | frontend/src/app/store/memoStore.ts:83-129 | a fetch settling after an add replaces the list, dropping the added memo |
| MemoStore.FinishesKeepOnline | frontend/src/app/store/memoStore.ts:83-178 | every finish step keeps all memos online from any current state |
| MemoStore.ActionsKeepStoreInvariant | frontend/src/app/store/memoStore.ts:83-178 | every action keeps all memos online and ends not loading |
| MemoStore.GenerateUuid | frontend/src/app/store/memoStore.ts:46-50 | 36 characters with hyphens at 8, 13, 18 and 23, version nibble 4, variant nibble 8 to b, and lower-case hex elsewhere |
| MemoStore.UuidRecoversDigits | frontend/src/app/store/memoStore.ts:47-49 | each `x` position shows its random value; the `y` position shows its low two bits plus 8 |
| MemoStore.UuidInjective | frontend/src/app/store/memoStore.ts:46-50 | two draws give the same UUID exactly when they agree on the `x` digits and on the low bits of `y` |
| SignUp.ValidationError | frontend/src/app/signup/page.tsx:20-33 | blank fields are reported first, then a mismatched confirmation, then a password shorter than six; no error exactly when all pass |
| SignUp.SubmitEmail | frontend/src/app/signup/page.tsx:16-52 | a request is made exactly when validation passes; otherwise the error is shown and nothing is sent |
| SignUp.PostedBodyIsWellFormed | frontend/src/app/signup/page.tsx:51 | the posted address is trimmed and non-empty; the password is the confirmed one and has at least six characters |
| SignUp.Settle | frontend/src/app/signup/page.tsx:39-66 | navigation happens exactly on success; each failure shows its message; loading ends |
| SignUp.GoogleSignUp | frontend/src/app/signup/page.tsx:69-81 | Google sign-up only reports that it is not ready |
| SignUp.EnabledButtonPassesBlankCheck | frontend/src/app/signup/page.tsx:201 | the button is enabled exactly for three non-blank fields when idle, and then the blank check passes |
| PasswordReset.EditEmail | frontend/src/app/password-reset-request/page.tsx:64 | typing changes only the address |
| PasswordReset.Submit | frontend/src/app/password-reset-request/page.tsx:15-25 | submitting starts loading with the pending label; the request is sent exactly when the address has `@` |
| PasswordReset.Settle | frontend/src/app/password-reset-request/page.tsx:27-49 | success shows the sent message and the done label; a failure shows its error and restores the label; loading ends |
| PasswordReset.TransitionsKeepConsistent | frontend/src/app/password-reset-request/page.tsx:15-50 | every transition keeps the label in step with the loading flag |
| PasswordReset.LoadingEndsOnlyAfterSending | frontend/src/app/password-reset-request/page.tsx:22-25 | an address without `@` returns before loading is cleared, so the button stays disabled |
| PasswordReset.AtSignIsEnough | frontend/src/app/password-reset-request/page.tsx:22 | any address containing `@` is sent |
| DeviceDetect.IsIosPwa | frontend/src/app/utils/deviceDetect.ts:1-10 | an iOS agent that is not MSStream, running standalone or from an iOS app; false without a window |
| DeviceDetect.NoCapitalPIsNotIosPwa | frontend/src/app/utils/deviceDetect.ts:4 | the iOS pattern is case-sensitive: an agent without a capital P is never an iOS PWA |
| DeviceDetect.LowerCasedIsNotIosPwa | frontend/src/app/utils/deviceDetect.ts:4 | a lower-case agent, such as one naming only `iphone`, is never an iOS PWA |
| DeviceDetect.IsSafari | frontend/src/app/utils/deviceDetect.ts:12-17 | the lower-cased agent names Safari and not Chrome; false without a window |
| DeviceDetect.ChromeInAnyCaseIsNotSafari | frontend/src/app/utils/deviceDetect.ts:15-16 | `chrome` in any letter case rules Safari out |
| MemoForm.IsDesktop | frontend/src/app/components/MemoForm.tsx:7-21 | desktop exactly for no mobile agent, no touch and a width above 768 |
| MemoForm.Width768IsNotDesktop | frontend/src/app/components/MemoForm.tsx:17 | a window exactly 768 pixels wide counts as small |
| MemoForm.IPhoneIsNotDesktop | frontend/src/app/components/MemoForm.tsx:11 | the mobile pattern ignores ASCII letter case |
| MemoForm.KelvinBlackBerryIsDesktop | frontend/src/app/components/MemoForm.tsx:11-20 | the pattern's `i` flag folds only `A`-`Z`: a wide touchless window with agent `BLAC\u212ABERRY` is a desktop |
| MemoForm.Submit | frontend/src/app/components/MemoForm.tsx:27-35 | blank content sends nothing; otherwise the trimmed content is sent and the field cleared |
| MemoForm.KeyDown | frontend/src/app/components/MemoForm.tsx:37-42 | Ctrl or Cmd with Enter submits through the same guard |
| MemoForm.EnabledButtonSends | frontend/src/app/components/MemoForm.tsx:57 | the button is enabled exactly for non-blank content when idle, and then a press sends |
| LegacyMemoForm.SpanWhile | src/app/components/MemoForm.tsx:43 | the longest prefix of class characters, as a greedy `[...]*` takes it |
| LegacyMemoForm.Capture | src/app/components/MemoForm.tsx:43-44 | a match exactly when the marker occurs; the group is the longest run of class characters right after the first occurrence of the marker |
| LegacyMemoForm.CaptureAfterMarker | src/app/components/MemoForm.tsx:43-76 | in `pre + marker + v + rest`, with the marker first occurring after `pre`, `v` a run of class characters and `rest` starting outside the class, the group is exactly `v` |
| LegacyMemoForm.DetectOs | src/app/components/MemoForm.tsx:41-63 | the first of windows, mac os x, android, iphone/ipad and linux in the lower-cased agent decides the system, an Apple handheld being iPhone exactly when the agent names iphone; the version is the group after `Windows NT `, `Mac OS X `, `Android ` or `OS `, with `_` turned into `.` for macOS and iOS and `unknown` without a match; Linux and unknown systems keep the version unknown; the device model comes from the Android or iOS pattern only |
| LegacyMemoForm.IPhoneLikeMacIsMac | src/app/components/MemoForm.tsx:45-55 | an iPhone agent saying `like Mac OS X` is reported as macOS |
| LegacyMemoForm.NameMatchesWithoutVersion | src/app/components/MemoForm.tsx:41-44 | the name test ignores case but the version pattern does not |
| LegacyMemoForm.MacVersionIsDotted | src/app/components/MemoForm.tsx:45-48 | an agent such as `... Intel Mac OS X 10_15_7) ...` naming no windows is macOS with the digits after its first `Mac OS X `, underscores turned into dots |
| LegacyMemoForm.DetectBrowser | src/app/components/MemoForm.tsx:65-77 | crios, then chrome, then safari decide the browser; the version is the group after `CriOS/`, `Chrome/` or `Version/`, `unknown` without a match or without a known browser |
| LegacyMemoForm.ChromeBeforeSafari | src/app/components/MemoForm.tsx:65-77 | desktop Chrome, whose agent also names Safari, is reported as Chrome |
| LegacyMemoForm.ChromeVersionCaptured | src/app/components/MemoForm.tsx:69-72 | an agent naming no crios is Chrome with the version after its first `Chrome/`, whatever precedes it |
| LegacyMemoForm.AppType | src/app/components/MemoForm.tsx:26-28 | PWA exactly when standalone or referred by an Android app |
| LegacyMemoForm.CollectSystemInfo | src/app/components/MemoForm.tsx:22-88 | the collected fields are the app type (PWA exactly when standalone or opened from an Android app), the detected system, the detected browser and the raw agent |
| LegacyMemoForm.OnHydrated | src/app/components/MemoForm.tsx:19-23 | nothing is collected before hydration or without a window |
| LegacyMemoForm.UnknownAgentKeepsDefaults | src/app/components/MemoForm.tsx:35-39 | an agent naming nothing known leaves every field unknown |
| LegacyMemoForm.Submit | src/app/components/MemoForm.tsx:93-99 | content is sent as typed exactly when it is not blank and the store is hydrated |
| LegacyMemoForm.KeyDown | src/app/components/MemoForm.tsx:101-108 | Ctrl or Cmd with Enter prevents the default, and sends exactly when the content is not blank and the app is online and hydrated |
| LegacyMemoForm.KeySubmitIsSubmit | src/app/components/MemoForm.tsx:101-108 | a keyboard submission is a form submission that also needs the app online |
| LegacyMemoList.GetOsInfo | src/app/components/MemoList.tsx:12-23 | the first of win, mac, linux, android and ios/iphone/ipad in the lower-cased agent decides; unknown without a window |
| LegacyMemoList.DarwinIsWindows | src/app/components/MemoList.tsx:16 | `win` is a bare substring, so an agent naming Darwin is reported as Windows |
| LegacyMemoList.AndroidAgentIsLinux | src/app/components/MemoList.tsx:18-19 | Android agents say `Linux; Android`, and linux is tested first |
| LegacyMemoList.KeyOf | src/app/components/MemoList.tsx:43 | the server id when present and non-empty, else the client id |
| LegacyMemoList.HandleEdit | src/app/components/MemoList.tsx:42-45 | the editor opens on the memo with its content |
| LegacyMemoList.HandleSave | src/app/components/MemoList.tsx:47-52 | before hydration nothing happens; otherwise the edit is sent and the editor closes |
| LegacyMemoList.HandleCancel | src/app/components/MemoList.tsx:54-57 | the editor closes with no content |
| LegacyMemoList.EditThenCloseRoundTrip | src/app/components/MemoList.tsx:42-88 | opening and then saving or cancelling closes the editor; a save sends the memo's key with the typed content, and only non-blank content can be saved |
| LegacyMemoList.DeleteRequest | src/app/components/MemoList.tsx:121-124 | a delete happens exactly when confirmed, and uses the memo's key |
| BuildVersion.TwoDigitsIsPadded | frontend/scripts/generate-version.js:8-13 | the two digits of a month, day, hour, minute or second are its decimal form padded on the left with `0` to length two |
| BuildVersion.TwoDigitsValue | frontend/scripts/generate-version.js:8-13 | a two-digit padded field reads back as its number |
| BuildVersion.DateFieldsValue | frontend/scripts/generate-version.js:8-10 | the year, month and day fields of the stamp read back as the year, the one-based month and the day |
| BuildVersion.FourDigitYearLength | frontend/scripts/generate-version.js:14 | a four-digit year gives a 17-character stamp |
| BuildVersion.VersionStringRoundTrip | frontend/scripts/generate-version.js:5-15 | the stamp parses back to the year, the 1-based month, the day, hours, minutes and seconds |
| BuildVersion.VersionStringInjective | frontend/scripts/generate-version.js:5-15 | two clock readings give the same stamp exactly when they agree to the second |
| BuildVersion.VersionFile | frontend/scripts/generate-version.js:18-20 | the file is the header line, the export line and a final newline |
| BuildVersion.VersionFileExports | frontend/scripts/generate-version.js:18-20 | the generated module exports exactly the given version |
| NextConfig.LineEnd | frontend/next.config.js:11 | the first line ends at the first line terminator or at the end of the text |
| NextConfig.Lines | frontend/next.config.js:11 | the text is cut into lines that hold no terminator; it is one line, itself, exactly when it holds no terminator, and several otherwise |
| NextConfig.LineEndOfSingle | frontend/next.config.js:11 | a text without a terminator is one line to its end |
| NextConfig.LinesOfLineThen | frontend/next.config.js:11 | a line, a terminator and the rest give that line followed by the lines of the rest |
| NextConfig.FirstKeyedIndex | frontend/next.config.js:11 | the first line starting with the key, and none when no line does |
| NextConfig.AppVersion | frontend/next.config.js:6-16 | the trimmed value of the first line starting with the key; `unknown` without a file or a matching line |
| NextConfig.VersionFromFirstLine | frontend/next.config.js:11-13 | a first line `NEXT_PUBLIC_APP_VERSION=v` gives `v` trimmed, whatever follows |
| NextConfig.IndentedKeyDoesNotMatch | frontend/next.config.js:11 | the pattern is anchored at the start of a line |
| NextConfig.FirstKeyedLineWins | frontend/next.config.js:11 | only the first keyed line counts |
| NextConfig.MakeConfig | frontend/next.config.js:18-34 | development exactly when NODE_ENV is not `production`; each mode gets its base path, asset prefix and API URL |
| NextConfig.AssetPrefixFollowsBasePath | frontend/next.config.js:19-29 | the asset prefix is the base path, with a trailing slash in production |

## Left out

- Network and storage are not modelled. This covers `fetch`, the zustand `persist` middleware and `localStorage`, the cached user id of `memoStore.ts`, and `checkServerConnection` with its `AbortController` timeout. Replies and outcomes are inputs.
- In the user routes, Mongoose failures are passed on to `next(error)` and are not modelled. The request body's `email` is modelled as a string or absent. A truthy non-string `email` (a number, array, object or `true`) makes `email.trim()` throw a TypeError in `users.js`, which `next(error)` turns into a 500 instead of a 400; the model does not have that path. The same goes for the race in which a duplicate key error 11000 hits after the duplicate check, and for the `GET /` list route.
- In `update-changelog.js`, `git` and the file system are not modelled. The commit log and the `git describe` output are inputs. A failing `git log` simply gives an empty log. The `--tag` option that tags the release is not modelled. The date is an input instead of `toISOString`.
- The memo store's `alert` and `console.error` calls on a failed fetch, add, update or delete are not modelled. The failure steps only keep the list and end loading.
- `crypto.randomUUID` is not modelled; only the fallback generator is. The `Math.random` draws are given as digits below 16.
- `toLowerCase` is modelled for `A`-`Z` and the Kelvin sign only. Other letters keep their case. The patterns compared against lower-cased text are ASCII, so the one other letter that matters is U+0130 (capital I with dot), which JavaScript lower-cases to `i` followed by U+0307. So an agent spelling `SAFARİ` and not `chrome` is Safari in `deviceDetect.ts` and in the older memo form, but not in the model; the same holds for commit keywords. The mobile regular expression of `MemoForm.tsx` does not lower-case: its `i` flag without the `u` flag folds only `A`-`Z`, which `AsciiLower` models exactly, so there the Kelvin sign does not match `k`.
- `Number()` is modelled on plain digit strings only, with every other part giving NaN. This leaves out whitespace, signs, hexadecimal and exponents, and the rounding to a double described next.
- Changelog.NextVersionBumpsPatch: version parts are unbounded naturals. In the script `Number()` and `patch + 1` work on IEEE doubles, so a part of 2^53 or more loses precision and a value of 1e21 or more prints in exponent form; the model does not follow either.
- Lengths count code points where JavaScript counts UTF-16 units. This only matters for passwords outside the Basic Multilingual Plane.
- UserRoutes.FindById: ids are matched by their spelling. Mongoose casts a valid id to an ObjectId before querying, so in `users.js` `GET /users/507F1F77BCF86CD799439011` (upper-case hex), or a 12-character id, finds the user stored as `507f1f77bcf86cd799439011`, while the model finds nobody. The stored ids are taken to be in their canonical spelling.
- UserRoutes.GetUser, UserRoutes.UpdateUser and UserRoutes.DeleteUser: the same cast is not modelled, since they find users through `FindById` and the `_id: {$ne: id}` test compares spellings too.
- The user model is without a `role` field, so `user.role === 'admin'` is modelled by an optional role from the lookup.
- The device-model regular expressions of the older memo form are not modelled; their lazy captures are inputs.
- The list's mobile media query and the `toLocaleString` date display are not modelled.
- The login form, the password-reset form, the icon generator and the page and layout files are not modelled. They hold presentation only.
- BuildVersion.VersionFile: the split is stated only for versions without a newline, which every stamp satisfies.
- Changelog.UpdateChangelog: its own contract covers only the missing-file case. What it writes is stated by UpdatePreservesOldText and SpliceKeepsLines.

=== FILE: auth_middleware.dfy ===
/**
  The Express middleware of `backend/middleware/auth.js`. `jwt.verify` is an
  oracle from a token to a `VerifyOutcome`, and `User.findById` is a
  `Lookup` handed in by the caller. A middleware either calls `next` (with the
  request's `userId` and whether it was marked as an administrator) or answers
  with a status and a message.
 */
module AuthMiddleware {
  import opened Optional
  import opened Strings

  /** What `jwt.verify` hands its callback: a decoded payload (whose `userId`
      may be absent) or an error with its `name`. */
  datatype VerifyOutcome = Decoded(userId: Option<string>) | Failed(errorName: string)

  /** What `User.findById` produced: a user, nothing, or a thrown error. */
  datatype Lookup = Found(email: string, role: Option<string>) | NotFound | LookupError

  datatype Response =
    | Next(userId: Option<string>, isAdmin: bool)
    | Deny(status: nat, message: string)

  const MsgTokenRequired := "접근 토큰이 필요합니다."
  const MsgTokenExpired := "토큰이 만료되었습니다."
  const MsgTokenInvalid := "유효하지 않은 토큰입니다."
  const MsgVerifyFailed := "토큰 검증에 실패했습니다."
  const MsgUserMissing := "사용자를 찾을 수 없습니다."
  const MsgAdminRequired := "관리자 권한이 필요합니다."
  const MsgAdminCheckFailed := "권한 확인 중 오류가 발생했습니다."

  // ---------------------------------------------------------------------------
  // Bearer token
  // ---------------------------------------------------------------------------

  /** `authHeader && authHeader.split(' ')[1]`, with a falsy result as `None`. */
  function ExtractToken(header: Option<string>): (token: Option<string>)
    ensures token.Some? ==> header.Some? && header.value != ""
    ensures token.Some? ==> token.value != "" && ' ' !in token.value
    ensures header.Some? && ' ' !in header.value ==> token.None?
  {
    match header
    case None => None
    case Some(h) =>
      if h == "" then None
      else
        match PartAt(Split(h, ' '), 1)
        case None => None
        case Some(t) => if t == "" then None else Some(t)
  }

  /** A header made of space-free fields yields its second field as the
      token, whatever follows it. */
  lemma BearerHeaderYieldsToken(fields: seq<string>)
    requires |fields| >= 2 && fields[1] != ""
    requires forall i :: 0 <= i < |fields| ==> ' ' !in fields[i]
    ensures ExtractToken(Some(Join(fields, ' '))) == Some(fields[1])
  {
    SplitJoin(fields, ' ');
    assert Join(fields, ' ') == fields[0] + [' '] + Join(fields[1..], ' ');
  }

  /** Two spaces after the scheme leave an empty second field, so no token. */
  lemma DoubleSpaceHasNoToken(scheme: string, rest: string)
    requires ' ' !in scheme
    ensures ExtractToken(Some(scheme + "  " + rest)) == None
  {
    var h := scheme + "  " + rest;
    assert h[|scheme|] == ' ' && h[..|scheme|] == scheme;
    FindCharAt(h, ' ', |scheme|);
    var tail := h[|scheme| + 1..];
    assert tail == " " + rest;
    assert tail[0] == ' ' && tail[..0] == [];
    FindCharAt(tail, ' ', 0);
    assert Split(h, ' ')[1] == "";
  }

  // ---------------------------------------------------------------------------
  // authenticateToken and optionalAuth
  // ---------------------------------------------------------------------------

  /** The reply for a failed verification, by the error's `name`. */
  function VerifyError(name: string): (r: Response)
    ensures r.Deny?
    ensures r.status == 401 <==> name == "TokenExpiredError"
    ensures r.status == 401 || r.status == 403
  {
    if name == "TokenExpiredError" then Deny(401, MsgTokenExpired)
    else if name == "JsonWebTokenError" then Deny(403, MsgTokenInvalid)
    else Deny(403, MsgVerifyFailed)
  }

  /** `authenticateToken`: a missing token is refused before verification;
      otherwise the verification outcome decides. */
  function AuthenticateToken(header: Option<string>, verify: string -> VerifyOutcome): (r: Response)
    ensures r.Next? <==> ExtractToken(header).Some? && verify(ExtractToken(header).value).Decoded?
    ensures r.Next? ==> !r.isAdmin && r.userId == verify(ExtractToken(header).value).userId
    ensures ExtractToken(header).None? ==> r == Deny(401, MsgTokenRequired)
    ensures r.Deny? ==> r.status == 401 || r.status == 403
  {
    match ExtractToken(header)
    case None => Deny(401, MsgTokenRequired)
    case Some(token) =>
      match verify(token)
      case Failed(name) => VerifyError(name)
      case Decoded(userId) => Next(userId, false)
  }

  /** 401 exactly for a missing or expired token, 403 for every other
      verification error. */
  lemma AuthenticateStatus(header: Option<string>, verify: string -> VerifyOutcome)
    ensures var r := AuthenticateToken(header, verify);
      var t := ExtractToken(header);
      && (r.Deny? && r.status == 401 <==>
            t.None? || verify(t.value) == Failed("TokenExpiredError"))
      && (r.Deny? && r.status == 403 <==>
            t.Some? && verify(t.value).Failed? && verify(t.value).errorName != "TokenExpiredError")
  {
  }

  /** `optionalAuth`: always proceeds; `userId` (previously `current`) is
      overwritten only by a successful verification. */
  function OptionalAuth(header: Option<string>, verify: string -> VerifyOutcome, current: Option<string>): (r: Response)
    ensures r.Next? && !r.isAdmin
  {
    match ExtractToken(header)
    case None => Next(current, false)
    case Some(token) =>
      match verify(token)
      case Failed(_) => Next(current, false)
      case Decoded(userId) => Next(userId, false)
  }

  /** `optionalAuth` lets through what `authenticateToken` lets through, with
      the same `userId`, and passes everything it refuses unchanged. */
  lemma OptionalAuthAgreesWithStrict(header: Option<string>, verify: string -> VerifyOutcome, current: Option<string>)
    ensures AuthenticateToken(header, verify).Next? ==>
      OptionalAuth(header, verify, current) == AuthenticateToken(header, verify)
    ensures AuthenticateToken(header, verify).Deny? ==>
      OptionalAuth(header, verify, current) == Next(current, false)
  {
  }

  // ---------------------------------------------------------------------------
  // requireAdmin and authenticateAdmin
  // ---------------------------------------------------------------------------

  /** `ADMIN_EMAILS ? ADMIN_EMAILS.split(',') : []`; entries are not trimmed. */
  function AdminEmails(env: Option<string>): (emails: seq<string>)
    ensures env.None? || env == Some("") ==> emails == []
    ensures env.Some? && env.value != "" ==> Join(emails, ',') == env.value
    ensures forall i :: 0 <= i < |emails| ==> ',' !in emails[i]
  {
    match env
    case None => []
    case Some(v) =>
      if v == "" then []
      else
        JoinSplit(v, ',');
        Split(v, ',')
  }

  /** A non-empty comma-separated list of comma-free addresses reads back as
      that list. */
  lemma AdminEmailsOfList(list: seq<string>)
    requires |list| >= 1 && Join(list, ',') != ""
    requires forall i :: 0 <= i < |list| ==> ',' !in list[i]
    ensures AdminEmails(Some(Join(list, ','))) == list
  {
    SplitJoin(list, ',');
  }

  function IsAdmin(email: string, role: Option<string>, env: Option<string>): bool
  {
    role == Some("admin") || email in AdminEmails(env)
  }

  /** `requireAdmin`: 500 when the lookup throws, 401 for an unknown user, and
      for a known one admission iff its role is `admin` or its email equals
      one of the configured addresses exactly; otherwise 403. */
  function RequireAdmin(userId: Option<string>, lookup: Lookup, env: Option<string>): (r: Response)
    ensures lookup.LookupError? <==> r == Deny(500, MsgAdminCheckFailed)
    ensures lookup.NotFound? <==> r == Deny(401, MsgUserMissing)
    ensures r.Next? <==> lookup.Found? && IsAdmin(lookup.email, lookup.role, env)
    ensures r.Next? ==> r.userId == userId && r.isAdmin
    ensures lookup.Found? && !IsAdmin(lookup.email, lookup.role, env) ==> r == Deny(403, MsgAdminRequired)
  {
    match lookup
    case LookupError => Deny(500, MsgAdminCheckFailed)
    case NotFound => Deny(401, MsgUserMissing)
    case Found(email, role) =>
      if IsAdmin(email, role, env) then Next(userId, true)
      else Deny(403, MsgAdminRequired)
  }

  /** A configured address with surrounding blanks does not match the stored
      address it was meant for. */
  lemma UntrimmedEntryDoesNotMatch()
    ensures !IsAdmin("b@x.io", None, Some("a@x.io, b@x.io"))
  {
    var list := ["a@x.io", " b@x.io"];
    assert Join(list[1..], ',') == " b@x.io";
    assert Join(list, ',') == "a@x.io, b@x.io";
    AdminEmailsOfList(list);
  }

  /** `authenticateAdmin = [authenticateToken, requireAdmin]`: the user lookup
      is keyed by the `userId` the token yielded and runs only after the token
      is accepted. */
  function AuthenticateAdmin(header: Option<string>, verify: string -> VerifyOutcome,
                             findById: Option<string> -> Lookup, env: Option<string>): (r: Response)
  {
    match AuthenticateToken(header, verify)
    case Deny(status, message) => Deny(status, message)
    case Next(userId, _) => RequireAdmin(userId, findById(userId), env)
  }

  /** Token refusals come first and are returned untouched; the admin decision
      sees only requests whose token verified, with their decoded `userId`. */
  lemma AuthenticateAdminOrder(header: Option<string>, verify: string -> VerifyOutcome,
                               findById: Option<string> -> Lookup, env: Option<string>)
    ensures var a := AuthenticateToken(header, verify);
      && (a.Deny? ==> AuthenticateAdmin(header, verify, findById, env) == a)
      && (a.Next? ==> AuthenticateAdmin(header, verify, findById, env)
                        == RequireAdmin(a.userId, findById(a.userId), env))
    ensures AuthenticateAdmin(header, verify, findById, env).Next? ==>
      AuthenticateToken(header, verify).Next? && AuthenticateAdmin(header, verify, findById, env).isAdmin
  {
  }
}

=== FILE: auth_store.dfy ===
/**
  The client-side authentication store of `frontend/src/app/store/authStore.ts`
  as a state machine. Each asynchronous action is split at its `await`: the
  server's answer is an input outcome, and the action returns the new state
  with the boolean the promise resolves to.
 */
module AuthStore {
  import opened Optional

  datatype AuthUser = AuthUser(id: string, email: string, socialProvider: Option<string>, createdAt: string)

  datatype AuthState = AuthState(
    isAuthenticated: bool,
    token: Option<string>,
    userId: Option<string>,
    user: Option<AuthUser>,
    isLoading: bool,
    error: Option<string>)

  /** The result of an action: the state after it and the promise's value. */
  datatype Step = Step(state: AuthState, ok: bool)

  /** How the login request ended: an `ok` response with its body fields
      (each possibly absent), a non-`ok` response with its `message`, or a
      thrown value (an `Error` with its message, or something else). */
  datatype LoginOutcome =
    | Accepted(token: Option<string>, userId: Option<string>, user: Option<AuthUser>)
    | Rejected(serverMessage: Option<string>)
    | Threw(errorMessage: Option<string>)

  /** How token verification ended: an `ok` response with its body fields, or
      anything else (non-`ok` response or thrown error alike). */
  datatype VerifyOutcome = Verified(userId: Option<string>, user: Option<AuthUser>) | NotVerified

  const LoginFailed := "로그인에 실패했습니다."

  /** The store's initial state. */
  const Initial := AuthState(false, None, None, None, false, None)

  /** Signed out means no credentials are held. */
  predicate SignedOutHoldsNothing(s: AuthState)
  {
    !s.isAuthenticated ==> s.token.None? && s.userId.None? && s.user.None?
  }

  lemma InitialIsSignedOut()
    ensures !Initial.isAuthenticated && !Initial.isLoading && Initial.error.None?
    ensures SignedOutHoldsNothing(Initial)
  {
  }

  // ---------------------------------------------------------------------------
  // login
  // ---------------------------------------------------------------------------

  /** The synchronous first step of `login`, before the request is sent. */
  function LoginStart(s: AuthState): (r: AuthState)
    ensures r.isLoading && r.error.None?
    ensures r.(isLoading := s.isLoading, error := s.error) == s
  {
    s.(isLoading := true, error := None)
  }

  /** The error text a failed login shows: `data.message || default` for a
      rejection, the thrown `Error`'s message, or the default. */
  function LoginError(outcome: LoginOutcome): (msg: string)
    requires !outcome.Accepted?
    ensures outcome.Rejected? && outcome.serverMessage.Some? && outcome.serverMessage.value != "" ==>
      msg == outcome.serverMessage.value
    ensures outcome.Rejected? && (outcome.serverMessage.None? || outcome.serverMessage == Some("")) ==>
      msg == LoginFailed
    ensures outcome.Threw? && outcome.errorMessage.Some? ==> msg == outcome.errorMessage.value
    ensures outcome == Threw(None) ==> msg == LoginFailed
  {
    match outcome
    case Rejected(m) => if m.None? || m.value == "" then LoginFailed else m.value
    case Threw(m) => m.GetOr(LoginFailed)
  }

  /** The rest of `login` once the request has settled. */
  function LoginFinish(s: AuthState, outcome: LoginOutcome): (r: Step)
    ensures r.ok <==> outcome.Accepted?
    ensures !r.state.isLoading
    ensures r.ok ==> r.state == AuthState(true, outcome.token, outcome.userId, outcome.user, false, None)
    ensures !r.ok ==> r.state.error == Some(LoginError(outcome))
    ensures !r.ok ==> r.state.(isLoading := s.isLoading, error := s.error) == s
  {
    match outcome
    case Accepted(token, userId, user) => Step(AuthState(true, token, userId, user, false, None), true)
    case _ => Step(s.(isLoading := false, error := Some(LoginError(outcome))), false)
  }

  function Login(s: AuthState, outcome: LoginOutcome): (r: Step)
  {
    LoginFinish(LoginStart(s), outcome)
  }

  /** A failed login leaves the credentials exactly as they were and reports
      the server's message when it sent a non-empty one. */
  lemma FailedLoginKeepsCredentials(s: AuthState, message: string)
    requires message != ""
    ensures var r := Login(s, Rejected(Some(message)));
      && !r.ok && r.state.error == Some(message) && !r.state.isLoading
      && r.state.isAuthenticated == s.isAuthenticated && r.state.token == s.token
      && r.state.userId == s.userId && r.state.user == s.user
  {
  }

  // ---------------------------------------------------------------------------
  // logout, verifyToken, clearError, setLoading
  // ---------------------------------------------------------------------------

  function Logout(s: AuthState): (r: AuthState)
    ensures !r.isAuthenticated && r.token.None? && r.userId.None? && r.user.None? && r.error.None?
    ensures r.isLoading == s.isLoading
  {
    s.(isAuthenticated := false, token := None, userId := None, user := None, error := None)
  }

  /** The synchronous first step of `verifyToken`: the token the request
      carries, or `None` when the store holds no (non-empty) token and the
      promise resolves to `false` at once. */
  function TokenToVerify(s: AuthState): (t: Option<string>)
    ensures t.Some? <==> s.token.Some? && s.token.value != ""
    ensures t.Some? ==> t == s.token
  {
    if s.token.None? || s.token.value == "" then None else s.token
  }

  /** The rest of `verifyToken` once the request has settled, applied to the
      store as it is then, which another action may have changed meanwhile:
      success merges the returned identity, anything else signs out. */
  function VerifyFinish(current: AuthState, outcome: VerifyOutcome): (r: Step)
    ensures r.ok <==> outcome.Verified?
    ensures r.ok ==> r.state == current.(isAuthenticated := true, userId := outcome.userId, user := outcome.user)
    ensures !r.ok ==> r.state == Logout(current).(error := current.error)
    ensures r.state.isLoading == current.isLoading && r.state.error == current.error
  {
    match outcome
    case Verified(userId, user) => Step(current.(isAuthenticated := true, userId := userId, user := user), true)
    case NotVerified => Step(current.(isAuthenticated := false, token := None, userId := None, user := None), false)
  }

  /** `verifyToken` with nothing else happening while the request is out:
      without a (non-empty) token nothing happens; otherwise the request's
      outcome either refreshes the identity, keeping the token, or signs out. */
  function VerifyToken(s: AuthState, outcome: VerifyOutcome): (r: Step)
    ensures s.token.None? || s.token == Some("") ==> r == Step(s, false)
    ensures r.ok <==> s.token.Some? && s.token.value != "" && outcome.Verified?
    ensures r.ok ==> r.state == s.(isAuthenticated := true, userId := outcome.userId, user := outcome.user)
    ensures r.state.isLoading == s.isLoading && r.state.error == s.error
  {
    if TokenToVerify(s).None? then Step(s, false) else VerifyFinish(s, outcome)
  }

  /** A logout while the verification request is out does not stick: the
      success merge that follows signs the store back in, holding no token. */
  lemma LogoutDuringVerify(s: AuthState, userId: Option<string>, user: Option<AuthUser>)
    requires TokenToVerify(s).Some?
    ensures var r := VerifyFinish(Logout(s), Verified(userId, user));
      && r.ok && r.state.isAuthenticated && r.state.token.None?
      && r.state.userId == userId && r.state.user == user
  {
  }

  /** A failed verification of a held token signs out without touching the
      loading flag or the error. */
  lemma FailedVerifySignsOut(s: AuthState)
    requires s.token.Some? && s.token.value != ""
    ensures VerifyToken(s, NotVerified).state == Logout(s).(error := s.error)
  {
  }

  function ClearError(s: AuthState): (r: AuthState)
    ensures r.error.None? && r.(error := s.error) == s
  {
    s.(error := None)
  }

  function SetLoading(s: AuthState, loading: bool): (r: AuthState)
    ensures r.isLoading == loading && r.(isLoading := s.isLoading) == s
  {
    s.(isLoading := loading)
  }

  // ---------------------------------------------------------------------------
  // The persisted projection
  // ---------------------------------------------------------------------------

  datatype Persisted = Persisted(token: Option<string>, userId: Option<string>, user: Option<AuthUser>, isAuthenticated: bool)

  /** `partialize`: only the credentials and the signed-in flag are stored. */
  function Partialize(s: AuthState): Persisted
  {
    Persisted(s.token, s.userId, s.user, s.isAuthenticated)
  }

  /** The persisted record depends on nothing but the four stored fields. */
  lemma PersistedIgnoresTransientFields(s: AuthState, t: AuthState)
    ensures Partialize(s) == Partialize(t) <==>
      s.token == t.token && s.userId == t.userId && s.user == t.user && s.isAuthenticated == t.isAuthenticated
  {
  }

  /** Loading and error changes, and a failed login, never change what is
      persisted. */
  lemma TransientChangesAreNotPersisted(s: AuthState, loading: bool, outcome: LoginOutcome)
    ensures Partialize(ClearError(s)) == Partialize(s)
    ensures Partialize(SetLoading(s, loading)) == Partialize(s)
    ensures Partialize(LoginStart(s)) == Partialize(s)
    ensures !outcome.Accepted? ==> Partialize(Login(s, outcome).state) == Partialize(s)
  {
  }

  /** After logout the persisted record is the initial one. */
  lemma LogoutPersistsInitial(s: AuthState)
    ensures Partialize(Logout(s)) == Partialize(Initial)
  {
  }

  // ---------------------------------------------------------------------------
  // The signed-out invariant
  // ---------------------------------------------------------------------------

  /** Every action keeps "signed out holds no credentials". */
  lemma ActionsKeepSignedOutEmpty(s: AuthState, login: LoginOutcome, verify: VerifyOutcome, loading: bool)
    requires SignedOutHoldsNothing(s)
    ensures SignedOutHoldsNothing(Login(s, login).state)
    ensures SignedOutHoldsNothing(Logout(s))
    ensures SignedOutHoldsNothing(VerifyToken(s, verify).state)
    ensures SignedOutHoldsNothing(VerifyFinish(s, verify).state)
    ensures SignedOutHoldsNothing(ClearError(s))
    ensures SignedOutHoldsNothing(SetLoading(s, loading))
  {
  }
}

=== FILE: build_version.dfy ===
/**
  The build-time version stamp of `frontend/scripts/generate-version.js`:
  `yyyy.mm.dd-hhmmss` from the local clock, and the source file that
  exports it. The clock's fields are inputs, in the ranges `Date` returns
  them (the month counted from 0).
 */
module BuildVersion {
  import opened Optional
  import opened Strings

  /** A number below 100 as two decimal digits, tens first. */
  function TwoDigits(n: nat): (r: string)
    requires n < 100
    ensures |r| == 2 && AllDigits(r)
  {
    [DigitChar(n / 10), DigitChar(n % 10)]
  }

  /** The two digits are `String(n).padStart(2, '0')`: the decimal digits of
      `n`, with a `0` in front when there is only one. */
  lemma TwoDigitsIsPadded(n: nat)
    requires n < 100
    ensures TwoDigits(n) == PadStart(NatToString(n), 2, '0')
  {
    if n < 10 {
      assert NatToString(n) == [DigitChar(n)];
      assert PadStart(NatToString(n), 2, '0') == ['0'] + NatToString(n);
    } else {
      assert NatToString(n / 10) == [DigitChar(n / 10)];
    }
  }

  /** Two digits read back as the number. */
  lemma TwoDigitsValue(n: nat)
    requires n < 100
    ensures DigitsValue(TwoDigits(n)) == n
  {
    var r := TwoDigits(n);
    assert r[..1] == [DigitChar(n / 10)] && r[..1][..0] == [];
    assert DigitsValue(r[..1]) == n / 10;
  }

  /** The clock reading the version is built from. */
  datatype Clock = Clock(year: nat, month0: nat, day: nat, hours: nat, minutes: nat, seconds: nat)

  predicate ValidClock(c: Clock)
  {
    c.month0 < 12 && 1 <= c.day <= 31 && c.hours < 24 && c.minutes < 60 && c.seconds < 60
  }

  function DatePart(c: Clock): (d: string)
    requires ValidClock(c)
    ensures '-' !in d && '\n' !in d
  {
    var yy, mm, dd := NatToString(c.year), TwoDigits(c.month0 + 1), TwoDigits(c.day);
    NoCharInDigits(yy, '-');
    NoCharInDigits(mm, '-');
    NoCharInDigits(dd, '-');
    NoCharInDigits(yy, '\n');
    NoCharInDigits(mm, '\n');
    NoCharInDigits(dd, '\n');
    yy + "." + mm + "." + dd
  }

  function TimePart(c: Clock): (t: string)
    requires ValidClock(c)
    ensures |t| == 6 && AllDigits(t)
  {
    var hh, mi, ss := TwoDigits(c.hours), TwoDigits(c.minutes), TwoDigits(c.seconds);
    AllDigitsConcat(hh, mi);
    AllDigitsConcat(hh + mi, ss);
    hh + mi + ss
  }

  /** `getVersionString`: the year, the 1-based month and the day joined by
      dots, a hyphen, then hours, minutes and seconds, each of the last five
      zero-padded to two digits. */
  function VersionString(c: Clock): (v: string)
    requires ValidClock(c)
    ensures |v| == |NatToString(c.year)| + 13
    ensures '\n' !in v
  {
    NoCharInDigits(TimePart(c), '\n');
    DatePart(c) + "-" + TimePart(c)
  }

  /** A four-digit year gives the 17-character stamp. */
  lemma FourDigitYearLength(c: Clock)
    requires ValidClock(c) && 1000 <= c.year <= 9999
    ensures |VersionString(c)| == 17
  {
    assert NatToString(c.year) == NatToString(c.year / 10) + [DigitChar(c.year % 10)];
    assert NatToString(c.year / 10) == NatToString(c.year / 100) + [DigitChar(c.year / 10 % 10)];
    assert NatToString(c.year / 100) == NatToString(c.year / 1000) + [DigitChar(c.year / 100 % 10)];
  }

  /** Reads a stamp back into its clock fields (month 1-based). */
  function ParseVersion(v: string): (r: Option<(nat, nat, nat, nat, nat, nat)>)
  {
    var halves := Split(v, '-');
    if |halves| != 2 then None else ParseStamp(Split(halves[0], '.'), halves[1])
  }

  /** The values of three digit date fields and a six-digit time. */
  function ParseStamp(date: seq<string>, time: string): (r: Option<(nat, nat, nat, nat, nat, nat)>)
  {
    if |date| != 3 || |time| != 6 || !AllDigits(time)
       || !AllDigits(date[0]) || !AllDigits(date[1]) || !AllDigits(date[2]) then None
    else
      Some((DigitsValue(date[0]), DigitsValue(date[1]), DigitsValue(date[2]),
            DigitsValue(time[..2]), DigitsValue(time[2..4]), DigitsValue(time[4..])))
  }

  lemma NoCharInDigits(s: string, c: char)
    requires AllDigits(s) && !IsDigit(c)
    ensures c !in s
  {
  }

  lemma TimeFieldsValue(c: Clock)
    requires ValidClock(c)
    ensures var t := TimePart(c);
      DigitsValue(t[..2]) == c.hours && DigitsValue(t[2..4]) == c.minutes && DigitsValue(t[4..]) == c.seconds
  {
    var t := TimePart(c);
    assert t[..2] == TwoDigits(c.hours);
    assert t[2..4] == TwoDigits(c.minutes);
    assert t[4..] == TwoDigits(c.seconds);
    TwoDigitsValue(c.hours);
    TwoDigitsValue(c.minutes);
    TwoDigitsValue(c.seconds);
  }

  /** `a + [sep] + b` splits as `[a, b]` when neither holds the separator. */
  lemma SplitPair(a: string, sep: char, b: string)
    requires sep !in a && sep !in b
    ensures Split(a + [sep] + b, sep) == [a, b]
  {
    var parts := [a, b];
    assert Join(parts[1..], sep) == b;
    assert Join(parts, sep) == a + [sep] + b;
    SplitJoin(parts, sep);
  }

  /** `a + [sep] + b + [sep] + d` splits as `[a, b, d]` when none holds the
      separator. */
  lemma SplitTriple(a: string, sep: char, b: string, d: string)
    requires sep !in a && sep !in b && sep !in d
    ensures Split(a + [sep] + b + [sep] + d, sep) == [a, b, d]
  {
    var parts := [a, b, d];
    assert Join(parts[2..], sep) == d;
    assert Join(parts[1..], sep) == b + [sep] + d;
    assert a + [sep] + b + [sep] + d == a + [sep] + (b + [sep] + d);
    SplitJoin(parts, sep);
  }

  lemma DateFields(c: Clock)
    requires ValidClock(c)
    ensures Split(DatePart(c), '.') == [NatToString(c.year), TwoDigits(c.month0 + 1), TwoDigits(c.day)]
  {
    var yy, mm, dd := NatToString(c.year), TwoDigits(c.month0 + 1), TwoDigits(c.day);
    NoCharInDigits(yy, '.');
    NoCharInDigits(mm, '.');
    NoCharInDigits(dd, '.');
    assert DatePart(c) == yy + ['.'] + mm + ['.'] + dd;
    SplitTriple(yy, '.', mm, dd);
  }

  lemma ParseVersionOfSplits(v: string, date: string, time: string, yy: string, mm: string, dd: string)
    requires Split(v, '-') == [date, time] && Split(date, '.') == [yy, mm, dd]
    ensures ParseVersion(v) == ParseStamp([yy, mm, dd], time)
  {
  }

  lemma ParseStampOfDigits(yy: string, mm: string, dd: string, time: string)
    requires AllDigits(yy) && AllDigits(mm) && AllDigits(dd) && AllDigits(time) && |time| == 6
    ensures ParseStamp([yy, mm, dd], time) ==
      Some((DigitsValue(yy), DigitsValue(mm), DigitsValue(dd),
            DigitsValue(time[..2]), DigitsValue(time[2..4]), DigitsValue(time[4..])))
  {
  }

  /** Parsing a stamp assembled from digit fields gives the fields' values. */
  lemma ParseFields(yy: string, mm: string, dd: string, time: string)
    requires AllDigits(yy) && AllDigits(mm) && AllDigits(dd) && AllDigits(time) && |time| == 6
    ensures ParseVersion(yy + "." + mm + "." + dd + "-" + time) ==
      Some((DigitsValue(yy), DigitsValue(mm), DigitsValue(dd),
            DigitsValue(time[..2]), DigitsValue(time[2..4]), DigitsValue(time[4..])))
  {
    NoCharInDigits(yy, '.');
    NoCharInDigits(mm, '.');
    NoCharInDigits(dd, '.');
    NoCharInDigits(yy, '-');
    NoCharInDigits(mm, '-');
    NoCharInDigits(dd, '-');
    NoCharInDigits(time, '-');
    var date := yy + ['.'] + mm + ['.'] + dd;
    assert '-' !in date;
    SplitTriple(yy, '.', mm, dd);
    SplitPair(date, '-', time);
    var v := yy + "." + mm + "." + dd + "-" + time;
    assert v == date + ['-'] + time;
    ParseVersionOfSplits(v, date, time, yy, mm, dd);
    ParseStampOfDigits(yy, mm, dd, time);
  }

  /** The stamp determines the clock reading it was made from, to the
      second. */
  lemma VersionStringRoundTrip(c: Clock)
    requires ValidClock(c)
    ensures ParseVersion(VersionString(c)) == Some((c.year, c.month0 + 1, c.day, c.hours, c.minutes, c.seconds))
  {
    var yy, mm, dd, time := NatToString(c.year), TwoDigits(c.month0 + 1), TwoDigits(c.day), TimePart(c);
    VersionStringFields(c);
    ParseFields(yy, mm, dd, time);
    DateFieldsValue(c);
    TimeFieldsValue(c);
  }

  /** The stamp is the date fields and the time, joined. */
  lemma VersionStringFields(c: Clock)
    requires ValidClock(c)
    ensures VersionString(c) ==
      NatToString(c.year) + "." + TwoDigits(c.month0 + 1) + "." + TwoDigits(c.day) + "-" + TimePart(c)
  {
  }

  /** The date fields read back as the year, the 1-based month and the day. */
  lemma DateFieldsValue(c: Clock)
    requires ValidClock(c)
    ensures DigitsValue(NatToString(c.year)) == c.year
    ensures DigitsValue(TwoDigits(c.month0 + 1)) == c.month0 + 1
    ensures DigitsValue(TwoDigits(c.day)) == c.day
  {
    DigitsValueOfNatToString(c.year);
    TwoDigitsValue(c.month0 + 1);
    TwoDigitsValue(c.day);
  }

  /** Distinct clock readings (to the second) give distinct stamps. */
  lemma VersionStringInjective(a: Clock, b: Clock)
    requires ValidClock(a) && ValidClock(b)
    ensures VersionString(a) == VersionString(b) <==> a == b
  {
    VersionStringRoundTrip(a);
    VersionStringRoundTrip(b);
  }

  // ---------------------------------------------------------------------------
  // The generated module
  // ---------------------------------------------------------------------------

  const GeneratedHeader := "// 자동 생성 파일 (빌드시)"
  const ExportPrefix := "export const APP_VERSION = '"
  const ExportSuffix := "';"

  /** The text written to `src/app/version.ts`. */
  function VersionFile(version: string): (text: string)
    ensures Split(text, '\n') == [GeneratedHeader, ExportPrefix + version + ExportSuffix, ""] <== '\n' !in version
  {
    var text := GeneratedHeader + "\n" + ExportPrefix + version + ExportSuffix + "\n";
    if '\n' !in version then
      var lines := [GeneratedHeader, ExportPrefix + version + ExportSuffix, ""];
      assert forall i :: 0 <= i < |lines| ==> '\n' !in lines[i];
      assert Join(lines[2..], '\n') == "";
      assert Join(lines[1..], '\n') == ExportPrefix + version + ExportSuffix + "\n";
      assert Join(lines, '\n') == text;
      SplitJoin(lines, '\n');
      text
    else text
  }

  /** The exported constant as it appears in the file's second line. */
  function ExportedVersion(text: string): (r: Option<string>)
  {
    match PartAt(Split(text, '\n'), 1)
    case None => None
    case Some(line) =>
      if |line| >= |ExportPrefix| + |ExportSuffix| && StartsWith(line, ExportPrefix)
         && line[|line| - |ExportSuffix|..] == ExportSuffix
      then Some(line[|ExportPrefix|..|line| - |ExportSuffix|])
      else None
  }

  /** The generated file exports exactly the version it was given, for any
      single-line version and so for every stamp. */
  lemma VersionFileExports(version: string)
    requires '\n' !in version
    ensures ExportedVersion(VersionFile(version)) == Some(version)
  {
    var line := ExportPrefix + version + ExportSuffix;
    assert Split(VersionFile(version), '\n')[1] == line;
    assert line[..|ExportPrefix|] == ExportPrefix;
    assert line[|line| - |ExportSuffix|..] == ExportSuffix;
    assert line[|ExportPrefix|..|line| - |ExportSuffix|] == version;
  }
}

=== FILE: changelog.dfy ===
/**
  The changelog generator of `scripts/update-changelog.js`: commit messages
  are sorted into six Keep-a-Changelog categories by keyword, a version
  section is rendered from the categories, and the section is spliced into
  the lines of CHANGELOG.md two lines below the `[Unreleased]` line. The next
  version is the last git tag with its patch number incremented.

  Git and the file system are inputs: the commit log text, the output of
  `git describe` (absent when it fails), the date and the file contents
  (absent when the file does not exist).
 */
module Changelog {
  import opened Optional
  import opened Strings

  // ---------------------------------------------------------------------------
  // Categories
  // ---------------------------------------------------------------------------

  datatype Category = Added | Changed | Deprecated | Removed | Fixed | Security

  /** The order the `categories` object declares its properties in; sections
      are rendered in this order. */
  const CategoryOrder: seq<Category> := [Added, Changed, Deprecated, Removed, Fixed, Security]

  /** The property name of a category in the `categories` object. */
  function Key(c: Category): string
  {
    match c
    case Added => "added"
    case Changed => "changed"
    case Deprecated => "deprecated"
    case Removed => "removed"
    case Fixed => "fixed"
    case Security => "security"
  }

  /** `toUpperCase` on one character (ASCII letters only). */
  function UpperChar(c: char): char
  {
    if 'a' <= c <= 'z' then (c as int - 32) as char else c
  }

  /** `category.charAt(0).toUpperCase() + category.slice(1)`. */
  function Capitalize(s: string): string
  {
    if |s| == 0 then "" else [UpperChar(s[0])] + s[1..]
  }

  /** The `### ` heading text of a category. */
  function Title(c: Category): (t: string)
    ensures |t| > 0 && '\n' !in t
  {
    match c
    case Added => "Added"
    case Changed => "Changed"
    case Deprecated => "Deprecated"
    case Removed => "Removed"
    case Fixed => "Fixed"
    case Security => "Security"
  }

  /** A text that is `k` with its lower-case initial made upper-case is `Capitalize(k)`. */
  lemma CapitalizeInitial(k: string, t: string)
    requires |k| > 0 && 'a' <= k[0] <= 'z' && |t| == |k|
    requires t[0] == (k[0] as int - 32) as char && t[1..] == k[1..]
    ensures t == Capitalize(k)
  {
    assert t == [t[0]] + t[1..];
  }

  /** The heading text is the category's key, capitalised. */
  lemma TitleIsCapitalizedKey(c: Category)
    ensures Title(c) == Capitalize(Key(c))
  {
    CapitalizeInitial(Key(c), Title(c));
  }

  /** `typeMapping` in declaration order: keyword and the category it selects. */
  const TypeMapping: seq<(string, Category)> := [
    ("feat", Added), ("add", Added), ("feature", Added),
    ("fix", Fixed), ("bugfix", Fixed),
    ("change", Changed), ("update", Changed), ("refactor", Changed),
    ("remove", Removed), ("delete", Removed),
    ("deprecate", Deprecated),
    ("security", Security), ("sec", Security)
  ]

  /** A lower-cased message starts with the keyword or contains `keyword(`. */
  predicate KeywordMatches(lower: string, keyword: string)
  {
    StartsWith(lower, keyword) || Contains(lower, keyword + "(")
  }

  /** The first entry of `TypeMapping`, from position `from` on, whose keyword matches. */
  function FirstKeyword(lower: string, from: nat): (r: Option<nat>)
    requires from <= |TypeMapping|
    ensures r.Some? ==> from <= r.value < |TypeMapping| && KeywordMatches(lower, TypeMapping[r.value].0)
    ensures r.Some? ==> forall j :: from <= j < r.value ==> !KeywordMatches(lower, TypeMapping[j].0)
    ensures r.None? ==> forall j :: from <= j < |TypeMapping| ==> !KeywordMatches(lower, TypeMapping[j].0)
    decreases |TypeMapping| - from
  {
    if from == |TypeMapping| then None
    else if KeywordMatches(lower, TypeMapping[from].0) then Some(from)
    else FirstKeyword(lower, from + 1)
  }

  predicate SaysAdded(lower: string)
  {
    Contains(lower, "add") || Contains(lower, "implement") || Contains(lower, "create")
  }

  predicate SaysFixed(lower: string)
  {
    Contains(lower, "fix") || Contains(lower, "resolve") || Contains(lower, "bug")
  }

  predicate SaysRemoved(lower: string)
  {
    Contains(lower, "remove") || Contains(lower, "delete")
  }

  /** The content-based guess used when no keyword matched: added, fixed and
      removed wording are tested in that order, and everything else is a
      change. */
  function Infer(lower: string): (c: Category)
    ensures c != Deprecated && c != Security
    ensures c == Added <==> SaysAdded(lower)
    ensures c == Fixed <==> !SaysAdded(lower) && SaysFixed(lower)
    ensures c == Removed <==> !SaysAdded(lower) && !SaysFixed(lower) && SaysRemoved(lower)
    ensures c == Changed <==> !SaysAdded(lower) && !SaysFixed(lower) && !SaysRemoved(lower)
  {
    if Contains(lower, "add") || Contains(lower, "implement") || Contains(lower, "create") then Added
    else if Contains(lower, "fix") || Contains(lower, "resolve") || Contains(lower, "bug") then Fixed
    else if Contains(lower, "remove") || Contains(lower, "delete") then Removed
    else if Contains(lower, "update") || Contains(lower, "change") || Contains(lower, "modify") then Changed
    else Changed
  }

  /** The category one commit message is pushed to. */
  function Classify(commit: string): Category
  {
    var lower := ToLower(commit);
    match FirstKeyword(lower, 0)
    case Some(i) => TypeMapping[i].1
    case None => Infer(lower)
  }

  /** The first matching keyword, in mapping order, decides the category. */
  lemma FirstKeywordWins(commit: string, i: nat)
    requires i < |TypeMapping|
    requires KeywordMatches(ToLower(commit), TypeMapping[i].0)
    requires forall j :: 0 <= j < i ==> !KeywordMatches(ToLower(commit), TypeMapping[j].0)
    ensures Classify(commit) == TypeMapping[i].1
  {
    var r := FirstKeyword(ToLower(commit), 0);
    assert r.Some?;
  }

  /** With no keyword match the substring guesses apply, in the order added,
      fixed, removed, changed, with changed as the default. */
  lemma NoKeywordInfers(commit: string)
    requires forall j :: 0 <= j < |TypeMapping| ==> !KeywordMatches(ToLower(commit), TypeMapping[j].0)
    ensures Classify(commit) == Infer(ToLower(commit))
    ensures Classify(commit) in {Added, Fixed, Removed, Changed}
    ensures var lower := ToLower(commit);
      && (Classify(commit) == Added <==> SaysAdded(lower))
      && (Classify(commit) == Fixed <==> !SaysAdded(lower) && SaysFixed(lower))
      && (Classify(commit) == Removed <==> !SaysAdded(lower) && !SaysFixed(lower) && SaysRemoved(lower))
      && (Classify(commit) == Changed <==> !SaysAdded(lower) && !SaysFixed(lower) && !SaysRemoved(lower))
  {
    assert FirstKeyword(ToLower(commit), 0).None?;
  }

  /** Classification ignores letter case: messages that lower-case alike are
      classified alike, in particular a message and its lower-cased form. */
  lemma ClassifyIgnoresCase(a: string, b: string)
    requires ToLower(a) == ToLower(b)
    ensures Classify(a) == Classify(b)
    ensures Classify(a) == Classify(ToLower(a))
  {
    ToLowerIdempotent(a);
  }

  /** Only a keyword can select `deprecated` or `security`; the content guesses
      never produce them. */
  lemma DeprecatedAndSecurityNeedKeyword(commit: string)
    ensures Classify(commit) == Deprecated ==> KeywordMatches(ToLower(commit), "deprecate")
    ensures Classify(commit) == Security ==>
      KeywordMatches(ToLower(commit), "security") || KeywordMatches(ToLower(commit), "sec")
  {
    var r := FirstKeyword(ToLower(commit), 0);
    if r.Some? {
      var i := r.value;
      assert Classify(commit) == TypeMapping[i].1;
      assert TypeMapping[i].1 == Deprecated ==> i == 10;
      assert TypeMapping[i].1 == Security ==> i == 11 || i == 12;
    } else {
      assert Classify(commit) == Infer(ToLower(commit));
    }
  }

  // ---------------------------------------------------------------------------
  // The six buckets
  // ---------------------------------------------------------------------------

  datatype Buckets = Buckets(added: seq<string>, changed: seq<string>, deprecated: seq<string>,
                             removed: seq<string>, fixed: seq<string>, security: seq<string>)
  {
    function Get(c: Category): seq<string>
    {
      match c
      case Added => added
      case Changed => changed
      case Deprecated => deprecated
      case Removed => removed
      case Fixed => fixed
      case Security => security
    }

    /** The buckets with the one for `c` replaced. */
    function With(c: Category, items: seq<string>): (b: Buckets)
      ensures b.Get(c) == items
      ensures forall d :: d != c ==> b.Get(d) == Get(d)
    {
      match c
      case Added => this.(added := items)
      case Changed => this.(changed := items)
      case Deprecated => this.(deprecated := items)
      case Removed => this.(removed := items)
      case Fixed => this.(fixed := items)
      case Security => this.(security := items)
    }

    /** The number of commits over all six buckets. */
    function Total(): nat
    {
      |added| + |changed| + |deprecated| + |removed| + |fixed| + |security|
    }
  }

  const NoCommits := Buckets([], [], [], [], [], [])

  /** Buckets are equal when they agree on every category. */
  lemma BucketsExtensional(a: Buckets, b: Buckets)
    requires forall c :: a.Get(c) == b.Get(c)
    ensures a == b
  {
    assert a.Get(Added) == b.Get(Added) && a.Get(Changed) == b.Get(Changed);
    assert a.Get(Deprecated) == b.Get(Deprecated) && a.Get(Removed) == b.Get(Removed);
    assert a.Get(Fixed) == b.Get(Fixed) && a.Get(Security) == b.Get(Security);
  }

  /** The commits that `classify` puts in category `c`, in input order. */
  function FilterBy(commits: seq<string>, classify: string -> Category, c: Category): seq<string>
    decreases |commits|
  {
    if |commits| == 0 then []
    else
      var last := commits[|commits| - 1];
      FilterBy(commits[..|commits| - 1], classify, c) + (if classify(last) == c then [last] else [])
  }

  /** The six buckets `classify` gives. */
  function SortedBy(commits: seq<string>, classify: string -> Category): Buckets
  {
    Buckets(FilterBy(commits, classify, Added), FilterBy(commits, classify, Changed),
            FilterBy(commits, classify, Deprecated), FilterBy(commits, classify, Removed),
            FilterBy(commits, classify, Fixed), FilterBy(commits, classify, Security))
  }

  /** Reference definition: the commits of category `c`, in input order. */
  function InCategory(commits: seq<string>, c: Category): seq<string>
  {
    FilterBy(commits, Classify, c)
  }

  /** The buckets the reference definition gives. */
  function Sorted(commits: seq<string>): Buckets
  {
    SortedBy(commits, Classify)
  }

  /** `categorizeCommits`: each commit is pushed, in input order, onto the bucket
      of its category. */
  method CategorizeCommits(commits: seq<string>) returns (b: Buckets)
    ensures forall c :: b.Get(c) == InCategory(commits, c)
    ensures b == Sorted(commits)
  {
    b := NoCommits;
    var i := 0;
    while i < |commits|
      invariant i <= |commits|
      invariant forall c :: b.Get(c) == InCategory(commits[..i], c)
    {
      var commit := commits[i];
      var c := Classify(commit);
      assert commits[..i + 1][..i] == commits[..i];
      b := b.With(c, b.Get(c) + [commit]);
      i := i + 1;
    }
    assert commits[..i] == commits;
    BucketsExtensional(b, Sorted(commits));
  }

  lemma {:induction false} SortedBySizes(commits: seq<string>, classify: string -> Category)
    ensures SortedBy(commits, classify).Total() == |commits|
    decreases |commits|
  {
    if |commits| > 0 {
      var init := commits[..|commits| - 1];
      SortedBySizes(init, classify);
    }
  }

  /** The buckets together hold exactly as many commits as the input. */
  lemma BucketSizesAddUp(commits: seq<string>)
    ensures Sorted(commits).Total() == |commits|
  {
    SortedBySizes(commits, Classify);
  }

  lemma {:induction false} FilterByMembership(commits: seq<string>, classify: string -> Category)
    ensures forall m :: m in commits ==> m in FilterBy(commits, classify, classify(m))
    ensures forall m, c :: m in FilterBy(commits, classify, c) ==> m in commits && classify(m) == c
    decreases |commits|
  {
    if |commits| > 0 {
      var init := commits[..|commits| - 1];
      var last := commits[|commits| - 1];
      FilterByMembership(init, classify);
      assert commits == init + [last];
      forall m | m in commits ensures m in FilterBy(commits, classify, classify(m)) {
        if m != last {
          assert m in init;
        }
      }
    }
  }

  /** Every commit is in the bucket of its own category. */
  lemma EveryCommitIsBucketed(commits: seq<string>, m: string)
    requires m in commits
    ensures m in InCategory(commits, Classify(m))
  {
    FilterByMembership(commits, Classify);
  }

  /** A bucket holds only input commits of its category. */
  lemma BucketHoldsOnlyItsCategory(commits: seq<string>, m: string, c: Category)
    requires m in InCategory(commits, c)
    ensures m in commits && Classify(m) == c
  {
    FilterByMembership(commits, Classify);
  }

  lemma {:induction false} FilterByPrefix(commits: seq<string>, classify: string -> Category, c: Category, n: nat)
    requires n <= |commits|
    ensures FilterBy(commits[..n], classify, c) <= FilterBy(commits, classify, c)
    decreases |commits|
  {
    if n < |commits| {
      var init := commits[..|commits| - 1];
      assert commits[..n] == init[..n];
      FilterByPrefix(init, classify, c, n);
    } else {
      assert commits[..n] == commits;
    }
  }

  /** Commits of one category keep their relative input order: the bucket of
      a prefix of the input is a prefix of the bucket. */
  lemma BucketKeepsOrder(commits: seq<string>, c: Category, n: nat)
    requires n <= |commits|
    ensures InCategory(commits[..n], c) <= InCategory(commits, c)
  {
    FilterByPrefix(commits, Classify, c, n);
  }

  /** `getCommitsSinceLastTag`: the log output split into lines, blank lines
      dropped; a subject repeated in the log is kept as often as it occurs. */
  function CommitsFromLog(log: string): (commits: seq<string>)
    ensures forall i :: 0 <= i < |commits| ==> !IsBlank(commits[i]) && '\n' !in commits[i]
    ensures forall l :: l in Split(log, '\n') && !IsBlank(l) ==> l in commits
    ensures |commits| == 0 <==> forall i :: 0 <= i < |Split(log, '\n')| ==> IsBlank(Split(log, '\n')[i])
  {
    var lines := Split(log, '\n');
    assert forall l :: l in lines ==> '\n' !in l;
    NonBlank(lines)
  }

  /** `lines.filter(line => line.trim())`. */
  function NonBlank(lines: seq<string>): (r: seq<string>)
    ensures |r| <= |lines|
    ensures forall i :: 0 <= i < |r| ==> !IsBlank(r[i])
    ensures forall s :: s in r <==> s in lines && !IsBlank(s)
    ensures |r| == 0 <==> forall i :: 0 <= i < |lines| ==> IsBlank(lines[i])
    decreases |lines|
  {
    if |lines| == 0 then []
    else (if IsBlank(lines[0]) then [] else [lines[0]]) + NonBlank(lines[1..])
  }

  /** A non-blank line is kept as many times as it occurs: repeated subjects
      give repeated bullets. */
  lemma {:induction false} NonBlankKeepsRepeats(lines: seq<string>, l: string)
    requires !IsBlank(l)
    ensures multiset(NonBlank(lines))[l] == multiset(lines)[l]
    decreases |lines|
  {
    if |lines| > 0 {
      var h, tail := if IsBlank(lines[0]) then [] else [lines[0]], lines[1..];
      NonBlankKeepsRepeats(tail, l);
      assert NonBlank(lines) == h + NonBlank(tail);
      MultisetOfAppend(h, NonBlank(tail));
      assert [lines[0]] + tail == lines;
      MultisetOfAppend([lines[0]], tail);
      assert multiset(h)[l] == multiset([lines[0]])[l];
    }
  }

  lemma MultisetOfAppend(a: seq<string>, b: seq<string>)
    ensures multiset(a + b) == multiset(a) + multiset(b)
  {
  }

  /** The filter works line by line and keeps the log's order: filtering a
      concatenation is concatenating the filtered parts. */
  lemma {:induction false} NonBlankAppend(a: seq<string>, b: seq<string>)
    ensures NonBlank(a + b) == NonBlank(a) + NonBlank(b)
    decreases |a|
  {
    if |a| == 0 {
      assert a + b == b;
    } else {
      var h := if IsBlank(a[0]) then [] else [a[0]];
      NonBlankAppend(a[1..], b);
      AppendTail(a, b);
      AppendAssoc(h, NonBlank(a[1..]), NonBlank(b));
    }
  }

  /** A single line is kept exactly when it is not blank. */
  lemma NonBlankLine(l: string)
    ensures NonBlank([l]) == if IsBlank(l) then [] else [l]
  {
    assert [l][1..] == [];
  }

  lemma AppendTail(a: seq<string>, b: seq<string>)
    requires |a| > 0
    ensures (a + b)[0] == a[0] && (a + b)[1..] == a[1..] + b
  {
  }

  lemma AppendAssoc(a: seq<string>, b: seq<string>, c: seq<string>)
    ensures a + (b + c) == a + b + c
  {
  }

  // ---------------------------------------------------------------------------
  // Rendering a version section
  // ---------------------------------------------------------------------------

  function Header(version: string, date: string): string
  {
    "## [" + version + "] - " + date
  }

  /** One `- commit` line per commit. */
  function Bullets(items: seq<string>): (r: seq<string>)
    ensures |r| == |items|
  {
    seq(|items|, i requires 0 <= i < |items| => "- " + items[i])
  }

  /** The lines for one category: nothing when empty, otherwise the heading,
      the bullets and a blank line. */
  function Block(c: Category, items: seq<string>): seq<string>
  {
    if |items| == 0 then [] else ["### " + Title(c)] + Bullets(items) + [""]
  }

  function Blocks(b: Buckets, cats: seq<Category>): seq<string>
    decreases |cats|
  {
    if |cats| == 0 then [] else Block(cats[0], b.Get(cats[0])) + Blocks(b, cats[1..])
  }

  /** `newSection`: the version heading, a blank line, then the non-empty
      categories in declaration order. */
  function RenderSection(version: string, date: string, b: Buckets): (r: seq<string>)
    ensures |r| >= 2 && r[0] == Header(version, date) && r[1] == ""
  {
    [Header(version, date), ""] + Blocks(b, CategoryOrder)
  }

  // A reader for rendered sections, the inverse of `RenderSection`.

  /** The leading `- ` lines, with the marker removed, and the lines after them. */
  function TakeBullets(lines: seq<string>): (r: (seq<string>, seq<string>))
    ensures |r.1| <= |lines|
    decreases |lines|
  {
    if |lines| > 0 && StartsWith(lines[0], "- ") then
      var rest := TakeBullets(lines[1..]);
      ([lines[0][2..]] + rest.0, rest.1)
    else ([], lines)
  }

  /** The category whose heading text is `t`. */
  function TitleCategory(t: string): Option<Category>
  {
    if t == Title(Added) then Some(Added)
    else if t == Title(Changed) then Some(Changed)
    else if t == Title(Deprecated) then Some(Deprecated)
    else if t == Title(Removed) then Some(Removed)
    else if t == Title(Fixed) then Some(Fixed)
    else if t == Title(Security) then Some(Security)
    else None
  }

  function ParseBlocks(lines: seq<string>, acc: Buckets): Option<Buckets>
    decreases |lines|
  {
    if |lines| == 0 then Some(acc)
    else if StartsWith(lines[0], "### ") && TitleCategory(lines[0][4..]).Some? then
      var c := TitleCategory(lines[0][4..]).value;
      var (items, rest) := TakeBullets(lines[1..]);
      if |rest| > 0 && rest[0] == "" then ParseBlocks(rest[1..], acc.With(c, items)) else None
    else None
  }

  /** Reads a rendered section back into its heading line and categories. */
  function ParseSection(lines: seq<string>): Option<(string, Buckets)>
  {
    if |lines| >= 2 && lines[1] == "" then
      match ParseBlocks(lines[2..], NoCommits)
      case Some(b) => Some((lines[0], b))
      case None => None
    else None
  }

  lemma TitleCategoryOfTitle(c: Category)
    ensures TitleCategory(Title(c)) == Some(c)
  {
  }

  lemma {:induction false} TakeBulletsOfBullets(items: seq<string>, rest: seq<string>)
    requires |rest| > 0 && rest[0] == ""
    ensures TakeBullets(Bullets(items) + rest) == (items, rest)
    decreases |items|
  {
    var lines := Bullets(items) + rest;
    if |items| > 0 {
      assert lines[0] == "- " + items[0];
      assert lines[0][2..] == items[0];
      assert lines[1..] == Bullets(items[1..]) + rest;
      TakeBulletsOfBullets(items[1..], rest);
      assert [items[0]] + items[1..] == items;
    } else {
      assert lines == rest;
    }
  }

  /** One step of the reader: a heading, its bullets and the blank line after them. */
  lemma ParseBlocksStep(lines: seq<string>, acc: Buckets, c: Category, items: seq<string>, rest: seq<string>)
    requires |lines| > 0 && StartsWith(lines[0], "### ") && TitleCategory(lines[0][4..]) == Some(c)
    requires TakeBullets(lines[1..]) == (items, rest) && |rest| > 0 && rest[0] == ""
    ensures ParseBlocks(lines, acc) == ParseBlocks(rest[1..], acc.With(c, items))
  {
  }

  /** A heading naming `c`, bullets and a blank line are read back as `c`'s commits. */
  lemma ParseHeadedBlock(head: string, c: Category, items: seq<string>, tail: seq<string>, acc: Buckets)
    requires StartsWith(head, "### ") && TitleCategory(head[4..]) == Some(c)
    ensures ParseBlocks([head] + Bullets(items) + [""] + tail, acc) == ParseBlocks(tail, acc.With(c, items))
  {
    var lines := [head] + Bullets(items) + [""] + tail;
    var after := [""] + tail;
    assert lines[0] == head;
    assert lines[1..] == Bullets(items) + after;
    TakeBulletsOfBullets(items, after);
    assert after[1..] == tail;
    ParseBlocksStep(lines, acc, c, items, after);
  }

  /** One rendered block is read back as that category's commits. */
  lemma ParseOneBlock(c: Category, items: seq<string>, tail: seq<string>, acc: Buckets)
    requires |items| > 0
    ensures ParseBlocks(Block(c, items) + tail, acc) == ParseBlocks(tail, acc.With(c, items))
  {
    var head := "### " + Title(c);
    assert head[..4] == "### ";
    assert head[4..] == Title(c);
    TitleCategoryOfTitle(c);
    ParseHeadedBlock(head, c, items, tail, acc);
  }

  lemma {:induction false} ParseBlocksOfBlocks(b: Buckets, cats: seq<Category>, acc: Buckets)
    requires forall i, j :: 0 <= i < j < |cats| ==> cats[i] != cats[j]
    requires forall c :: c !in cats ==> acc.Get(c) == b.Get(c)
    requires forall c :: c in cats ==> acc.Get(c) == []
    ensures ParseBlocks(Blocks(b, cats), acc) == Some(b)
    decreases |cats|
  {
    if |cats| == 0 {
      BucketsExtensional(acc, b);
    } else {
      var c := cats[0];
      var items := b.Get(c);
      var tail := Blocks(b, cats[1..]);
      assert c !in cats[1..] by {
        forall k | 0 <= k < |cats[1..]| ensures cats[1..][k] != c {
          assert cats[1..][k] == cats[k + 1];
        }
      }
      assert Blocks(b, cats) == Block(c, items) + tail;
      if |items| == 0 {
        assert Blocks(b, cats) == tail;
        ParseBlocksOfBlocks(b, cats[1..], acc);
      } else {
        ParseOneBlock(c, items, tail, acc);
        ParseBlocksOfBlocks(b, cats[1..], acc.With(c, items));
      }
    }
  }

  /** Reading a rendered section gives back its heading and every category's
      commits, in order: the rendering loses nothing. */
  lemma RenderThenParse(version: string, date: string, b: Buckets)
    ensures ParseSection(RenderSection(version, date, b)) == Some((Header(version, date), b))
  {
    var lines := RenderSection(version, date, b);
    assert lines[2..] == Blocks(b, CategoryOrder);
    CategoryOrderIsComplete();
    ParseBlocksOfBlocks(b, CategoryOrder, NoCommits);
    assert ParseBlocks(lines[2..], NoCommits) == Some(b);
  }

  /** Every category appears in `CategoryOrder`, once. */
  lemma CategoryOrderIsComplete()
    ensures forall i, j :: 0 <= i < j < |CategoryOrder| ==> CategoryOrder[i] != CategoryOrder[j]
    ensures forall c :: c in CategoryOrder
  {
    forall c ensures c in CategoryOrder {
      match c
      case Added => assert CategoryOrder[0] == c;
      case Changed => assert CategoryOrder[1] == c;
      case Deprecated => assert CategoryOrder[2] == c;
      case Removed => assert CategoryOrder[3] == c;
      case Fixed => assert CategoryOrder[4] == c;
      case Security => assert CategoryOrder[5] == c;
    }
  }

  /** Rendered section size: two heading lines, plus a heading, one line per
      commit and a blank line for each non-empty category. */
  lemma {:induction false} BlocksLength(b: Buckets, cats: seq<Category>)
    ensures |Blocks(b, cats)| == NonEmptyLines(b, cats)
    decreases |cats|
  {
    if |cats| > 0 {
      BlocksLength(b, cats[1..]);
    }
  }

  function NonEmptyLines(b: Buckets, cats: seq<Category>): nat
    decreases |cats|
  {
    if |cats| == 0 then 0
    else (if |b.Get(cats[0])| == 0 then 0 else |b.Get(cats[0])| + 2) + NonEmptyLines(b, cats[1..])
  }

  /** Rendering the first `k` categories starts with the first category's
      block, then renders the next `k - 1`. */
  lemma PrefixBlocksUnfold(b: Buckets, cats: seq<Category>, k: nat)
    requires 0 < k <= |cats|
    ensures Blocks(b, cats[..k]) == Block(cats[0], b.Get(cats[0])) + Blocks(b, cats[1..][..k - 1])
  {
    assert cats[..k][0] == cats[0] && cats[..k][1..] == cats[1..][..k - 1];
  }

  /** The lines rendered for the categories after the first follow the first
      category's block. */
  lemma BlocksShift(b: Buckets, cats: seq<Category>, m: nat)
    requires |cats| > 0 && m < |Blocks(b, cats[1..])|
    ensures var n := |Block(cats[0], b.Get(cats[0]))|;
      n + m < |Blocks(b, cats)| && Blocks(b, cats)[n + m] == Blocks(b, cats[1..])[m]
  {
  }

  /** A non-empty category's heading sits right after the blocks of the
      categories before it, and its block takes at least three lines. */
  lemma {:induction false} HeadingAt(b: Buckets, cats: seq<Category>, k: nat)
    requires k < |cats| && |b.Get(cats[k])| > 0
    ensures |Blocks(b, cats[..k])| + 3 <= |Blocks(b, cats[..k + 1])|
    ensures |Blocks(b, cats[..k])| < |Blocks(b, cats)|
    ensures Blocks(b, cats)[|Blocks(b, cats[..k])|] == "### " + Title(cats[k])
    decreases k
  {
    PrefixBlocksUnfold(b, cats, k + 1);
    if k == 0 {
      assert cats[..0] == [] && cats[1..][..0] == [];
    } else {
      var tail := cats[1..];
      PrefixBlocksUnfold(b, cats, k);
      HeadingAt(b, tail, k - 1);
      assert tail[k - 1] == cats[k] && tail[..k - 1 + 1] == tail[..k];
      BlocksShift(b, cats, |Blocks(b, tail[..k - 1])|);
    }
  }

  /** The blocks of a shorter prefix of the categories are no longer. */
  lemma {:induction false} PrefixBlocksGrow(b: Buckets, cats: seq<Category>, i: nat, j: nat)
    requires i <= j <= |cats|
    ensures |Blocks(b, cats[..i])| <= |Blocks(b, cats[..j])|
    decreases i
  {
    if i > 0 {
      PrefixBlocksUnfold(b, cats, i);
      PrefixBlocksUnfold(b, cats, j);
      PrefixBlocksGrow(b, cats[1..], i - 1, j - 1);
    }
  }

  /** The non-empty categories appear in the fixed order Added, Changed,
      Deprecated, Removed, Fixed, Security: the heading of an earlier one is
      on an earlier line. */
  lemma RenderedCategoryOrder(version: string, date: string, b: Buckets, i: nat, j: nat)
    requires i < j < |CategoryOrder|
    requires |b.Get(CategoryOrder[i])| > 0 && |b.Get(CategoryOrder[j])| > 0
    ensures var r := RenderSection(version, date, b);
      var p := 2 + |Blocks(b, CategoryOrder[..i])|;
      var q := 2 + |Blocks(b, CategoryOrder[..j])|;
      && p < q < |r|
      && r[p] == "### " + Title(CategoryOrder[i])
      && r[q] == "### " + Title(CategoryOrder[j])
  {
    var cats, r := CategoryOrder, RenderSection(version, date, b);
    var bl := Blocks(b, cats);
    assert r == [Header(version, date), ""] + bl;
    HeadingAt(b, cats, i);
    HeadingAt(b, cats, j);
    PrefixBlocksGrow(b, cats, i + 1, j);
    assert r[2 + |Blocks(b, cats[..i])|] == bl[|Blocks(b, cats[..i])|];
    assert r[2 + |Blocks(b, cats[..j])|] == bl[|Blocks(b, cats[..j])|];
  }

  // ---------------------------------------------------------------------------
  // Splicing the section into CHANGELOG.md
  // ---------------------------------------------------------------------------

  /** `lines.findIndex(line => line.includes('[Unreleased]'))`. */
  function FindUnreleased(lines: seq<string>): (r: Option<nat>)
    ensures r.Some? ==> r.value < |lines| && Contains(lines[r.value], "[Unreleased]")
    ensures r.Some? ==> forall j :: 0 <= j < r.value ==> !Contains(lines[j], "[Unreleased]")
    ensures r.None? ==> forall j :: 0 <= j < |lines| ==> !Contains(lines[j], "[Unreleased]")
    decreases |lines|
  {
    if |lines| == 0 then None
    else if Contains(lines[0], "[Unreleased]") then Some(0)
    else match FindUnreleased(lines[1..])
      case None => None
      case Some(k) => Some(k + 1)
  }

  /** Where `lines.splice(unreleasedIndex + 2, 0, ...)` inserts: two lines below
      the `[Unreleased]` line, clamped to the end of the file as `splice` does. */
  function InsertionPoint(lines: seq<string>, unreleased: nat): nat
  {
    if unreleased + 2 <= |lines| then unreleased + 2 else |lines|
  }

  /** The new line list, or `None` (nothing written) when no line contains
      `[Unreleased]`. */
  function SpliceSection(lines: seq<string>, section: seq<string>): (r: Option<seq<string>>)
    ensures r.None? <==> forall j :: 0 <= j < |lines| ==> !Contains(lines[j], "[Unreleased]")
    ensures r.Some? ==> |r.value| == |lines| + |section|
  {
    match FindUnreleased(lines)
    case None => None
    case Some(u) =>
      var at := InsertionPoint(lines, u);
      Some(lines[..at] + section + lines[at..])
  }

  /** The splice keeps every original line in order, puts the section right
      after the line two below `[Unreleased]` (or at the end), and leaves the
      `[Unreleased]` line where it was. */
  lemma SpliceKeepsLines(lines: seq<string>, section: seq<string>)
    requires SpliceSection(lines, section).Some?
    ensures var u := FindUnreleased(lines).value;
            var at := InsertionPoint(lines, u);
            var r := SpliceSection(lines, section).value;
            && r[..at] + r[at + |section|..] == lines
            && r[at..at + |section|] == section
            && u < at && r[u] == lines[u]
            && (u + 2 <= |lines| ==> at == u + 2)
  {
    var u := FindUnreleased(lines).value;
    var at := InsertionPoint(lines, u);
    InsertKeeps(lines, at, section);
  }

  /** Inserting a block at `at` leaves the lines before and after it intact. */
  lemma InsertKeeps(lines: seq<string>, at: nat, section: seq<string>)
    requires at <= |lines|
    ensures var r := lines[..at] + section + lines[at..];
            && r[..at] + r[at + |section|..] == lines
            && r[at..at + |section|] == section
            && forall k :: 0 <= k < at ==> r[k] == lines[k]
  {
    var r := lines[..at] + section + lines[at..];
    assert r[..at] == lines[..at];
    assert r[at + |section|..] == lines[at..];
    assert lines[..at] + lines[at..] == lines;
  }

  /** `updateChangelog`: the new file text, or `None` when nothing is written
      (no CHANGELOG.md, or no `[Unreleased]` line). */
  function UpdateChangelog(file: Option<string>, b: Buckets, version: string, date: string): (r: Option<string>)
    ensures file.None? ==> r.None?
  {
    match file
    case None => None
    case Some(text) =>
      match SpliceSection(Split(text, '\n'), RenderSection(version, date, b))
      case None => None
      case Some(lines) => Some(Join(lines, '\n'))
  }

  predicate SingleLine(s: string)
  {
    '\n' !in s
  }

  lemma BlockIsSingleLines(c: Category, items: seq<string>)
    requires forall i :: 0 <= i < |items| ==> SingleLine(items[i])
    ensures forall i :: 0 <= i < |Block(c, items)| ==> SingleLine(Block(c, items)[i])
  {
    if |items| > 0 {
      var head := "### " + Title(c);
      var bullets := Bullets(items);
      var block := [head] + bullets + [""];
      assert SingleLine(head);
      forall i | 0 <= i < |bullets| ensures SingleLine(bullets[i]) {
        assert bullets[i] == "- " + items[i];
      }
      forall i | 0 <= i < |block| ensures SingleLine(block[i]) {
        if i == 0 {
          assert block[i] == head;
        } else if i <= |bullets| {
          assert block[i] == bullets[i - 1];
        } else {
          assert block[i] == "";
        }
      }
    }
  }

  lemma {:induction false} BlocksAreSingleLines(b: Buckets, cats: seq<Category>)
    requires forall c, i :: 0 <= i < |b.Get(c)| ==> SingleLine(b.Get(c)[i])
    ensures forall i :: 0 <= i < |Blocks(b, cats)| ==> SingleLine(Blocks(b, cats)[i])
    decreases |cats|
  {
    if |cats| > 0 {
      var block := Block(cats[0], b.Get(cats[0]));
      BlockIsSingleLines(cats[0], b.Get(cats[0]));
      BlocksAreSingleLines(b, cats[1..]);
      var rest := Blocks(b, cats[1..]);
      assert Blocks(b, cats) == block + rest;
      forall i | 0 <= i < |block| + |rest| ensures SingleLine((block + rest)[i]) {
        if i >= |block| {
          assert (block + rest)[i] == rest[i - |block|];
        }
      }
    }
  }

  lemma RenderedLinesAreSingle(version: string, date: string, b: Buckets)
    requires SingleLine(version) && SingleLine(date)
    requires forall c, i :: 0 <= i < |b.Get(c)| ==> SingleLine(b.Get(c)[i])
    ensures forall i :: 0 <= i < |RenderSection(version, date, b)| ==> SingleLine(RenderSection(version, date, b)[i])
  {
    BlocksAreSingleLines(b, CategoryOrder);
    HeaderIsSingleLine(version, date);
    HeadedLinesAreSingle(Header(version, date), Blocks(b, CategoryOrder));
  }

  /** A single-line heading, a blank line and single lines are single lines. */
  lemma HeadedLinesAreSingle(head: string, lines: seq<string>)
    requires SingleLine(head)
    requires forall i :: 0 <= i < |lines| ==> SingleLine(lines[i])
    ensures forall i :: 0 <= i < |[head, ""] + lines| ==> SingleLine(([head, ""] + lines)[i])
  {
    var r := [head, ""] + lines;
    forall i | 0 <= i < |r| ensures SingleLine(r[i]) {
      if i >= 2 {
        assert r[i] == lines[i - 2];
      }
    }
  }

  lemma HeaderIsSingleLine(version: string, date: string)
    requires SingleLine(version) && SingleLine(date)
    ensures SingleLine(Header(version, date))
  {
    assert '\n' !in "## [" && '\n' !in "] - ";
  }

  /** Splitting the joined text of single lines with a block inserted gives
      the lines with the block inserted. */
  lemma SplitOfInserted(lines: seq<string>, section: seq<string>, at: nat)
    requires at <= |lines|
    requires forall i :: 0 <= i < |lines| ==> SingleLine(lines[i])
    requires forall i :: 0 <= i < |section| ==> SingleLine(section[i])
    requires |lines| + |section| >= 1
    ensures var r := lines[..at] + section + lines[at..];
            Split(Join(r, '\n'), '\n') == r
  {
    var r := lines[..at] + section + lines[at..];
    forall i | 0 <= i < |r| ensures '\n' !in r[i] {
      if i < at {
        assert r[i] == lines[i];
      } else if i < at + |section| {
        assert r[i] == section[i - at];
      } else {
        assert r[i] == lines[i - |section|];
      }
    }
    SplitJoin(r, '\n');
  }

  /** When a file is written, the old text is the new text with the inserted
      section's lines removed: re-splitting the written text gives the spliced
      line list, and dropping the section from it gives the original lines. */
  lemma UpdatePreservesOldText(text: string, b: Buckets, version: string, date: string)
    requires SingleLine(version) && SingleLine(date)
    requires forall c, i :: 0 <= i < |b.Get(c)| ==> SingleLine(b.Get(c)[i])
    requires UpdateChangelog(Some(text), b, version, date).Some?
    ensures var lines := Split(text, '\n');
            var section := RenderSection(version, date, b);
            var at := InsertionPoint(lines, FindUnreleased(lines).value);
            var written := Split(UpdateChangelog(Some(text), b, version, date).value, '\n');
            && written == SpliceSection(lines, section).value
            && Join(written[..at] + written[at + |section|..], '\n') == text
  {
    var lines := Split(text, '\n');
    var section := RenderSection(version, date, b);
    RenderedLinesAreSingle(version, date, b);
    var at := InsertionPoint(lines, FindUnreleased(lines).value);
    var spliced := lines[..at] + section + lines[at..];
    assert SpliceSection(lines, section).value == spliced;
    assert UpdateChangelog(Some(text), b, version, date).value == Join(spliced, '\n');
    SplitOfInserted(lines, section, at);
    InsertKeeps(lines, at, section);
    JoinSplit(text, '\n');
  }

  // ---------------------------------------------------------------------------
  // The next version number
  // ---------------------------------------------------------------------------

  /** A JavaScript value produced by `Number(part)` on a `split` result. */
  datatype JsNumber = Num(n: nat) | NaN | Undefined

  /** `Number(part)` for a split part: digits give their value (the empty
      string gives 0); any other text gives NaN; a missing part is `undefined`. */
  function ToNumber(part: Option<string>): JsNumber
  {
    match part
    case None => Undefined
    case Some(s) => if AllDigits(s) then Num(DigitsValue(s)) else NaN
  }

  /** `x + 1`. */
  function PlusOne(x: JsNumber): JsNumber
  {
    match x
    case Num(n) => Num(n + 1)
    case _ => NaN
  }

  /** How a template literal prints the value. */
  function NumberText(x: JsNumber): string
  {
    match x
    case Num(n) => NatToString(n)
    case NaN => "NaN"
    case Undefined => "undefined"
  }

  /** `s.replace('v', '')`: removes the first `v`, wherever it is. */
  function RemoveFirst(s: string, c: char): (r: string)
    ensures c in s ==> |r| == |s| - 1
    ensures c !in s ==> r == s
    ensures c in s ==> exists i :: 0 <= i < |s| && s[i] == c && c !in s[..i] && r == s[..i] + s[i + 1..]
  {
    match FindChar(s, c)
    case None => s
    case Some(i) =>
      assert s[i] == c && c !in s[..i];
      s[..i] + s[i + 1..]
  }

  /** `getNextVersion`: `describe` is the output of `git describe --tags --abbrev=0`,
      absent when the command fails. */
  function NextVersion(describe: Option<string>): string
  {
    match describe
    case None => "1.0.0"
    case Some(out) =>
      var parts := Split(RemoveFirst(Trim(out), 'v'), '.');
      NumberText(ToNumber(PartAt(parts, 0))) + "." +
      NumberText(ToNumber(PartAt(parts, 1))) + "." +
      NumberText(PlusOne(ToNumber(PartAt(parts, 2))))
  }

  /** With no tag the first version is 1.0.0. */
  lemma NoTagStartsAtOne()
    ensures NextVersion(None) == "1.0.0"
  {
  }

  lemma DigitsHaveNoDot(a: string)
    requires AllDigits(a)
    ensures '.' !in a
  {
  }

  lemma SplitThree(a: string, b: string, c: string)
    requires '.' !in a && '.' !in b && '.' !in c
    ensures Split(a + "." + b + "." + c, '.') == [a, b, c]
  {
    assert [a, b, c][1..] == [b, c] && [b, c][1..] == [c];
    assert Join([b, c], '.') == b + ['.'] + c;
    assert Join([a, b, c], '.') == a + ['.'] + (b + ['.'] + c);
    assert Join([a, b, c], '.') == a + "." + b + "." + c;
    SplitJoin([a, b, c], '.');
  }

  lemma StripTagV(rest: string)
    requires |rest| > 0 && !IsWhitespace(rest[|rest| - 1])
    ensures RemoveFirst(Trim("v" + rest), 'v') == rest
  {
    var tag := "v" + rest;
    TrimOfTrimmed(tag);
    FindCharAt(tag, 'v', 0);
    assert tag[1..] == rest;
  }

  lemma NextVersionOfParts(out: string, a: string, b: string, c: string)
    requires Split(RemoveFirst(Trim(out), 'v'), '.') == [a, b, c]
    ensures NextVersion(Some(out)) ==
      NumberText(ToNumber(Some(a))) + "." + NumberText(ToNumber(Some(b))) + "." + NumberText(PlusOne(ToNumber(Some(c))))
  {
  }

  lemma NumberOfDigits(n: nat)
    ensures ToNumber(Some(NatToString(n))) == Num(n)
  {
    DigitsValueOfNatToString(n);
  }

  /** For a tag `vM.m.p` the next version is `M.m.(p+1)`: the `v` is stripped,
      major and minor are kept, only the patch number grows. */
  lemma NextVersionBumpsPatch(major: nat, minor: nat, patch: nat)
    ensures NextVersion(Some("v" + NatToString(major) + "." + NatToString(minor) + "." + NatToString(patch)))
         == NatToString(major) + "." + NatToString(minor) + "." + NatToString(patch + 1)
  {
    var a, b, c := NatToString(major), NatToString(minor), NatToString(patch);
    var tag := "v" + a + "." + b + "." + c;
    var rest := a + "." + b + "." + c;
    assert tag == "v" + rest;
    assert rest[|rest| - 1] == c[|c| - 1];
    StripTagV(rest);
    DigitsHaveNoDot(a);
    DigitsHaveNoDot(b);
    DigitsHaveNoDot(c);
    SplitThree(a, b, c);
    assert Split(RemoveFirst(Trim(tag), 'v'), '.') == [a, b, c];
    NextVersionOfParts(tag, a, b, c);
    NumberOfDigits(major);
    NumberOfDigits(minor);
    NumberOfDigits(patch);
    PlusOneText(patch);
  }

  lemma PlusOneText(n: nat)
    ensures NumberText(PlusOne(Num(n))) == NatToString(n + 1)
  {
  }

  // ---------------------------------------------------------------------------
  // The script as a whole
  // ---------------------------------------------------------------------------

  /** `main`: with no new commits nothing is written; otherwise the commits are
      categorized, the next version is computed and the changelog updated. */
  method RunScript(log: string, describe: Option<string>, date: string, file: Option<string>)
    returns (written: Option<string>)
    ensures |CommitsFromLog(log)| == 0 ==> written.None?
    ensures |CommitsFromLog(log)| > 0 ==>
      written == UpdateChangelog(file, Sorted(CommitsFromLog(log)), NextVersion(describe), date)
  {
    var commits := CommitsFromLog(log);
    if |commits| == 0 {
      return None;
    }
    var b := CategorizeCommits(commits);
    written := UpdateChangelog(file, b, NextVersion(describe), date);
  }
}

=== FILE: device_detect.dfy ===
/**
  The browser predicates `isIOSPWA` and `isSafari` of
  `frontend/src/app/utils/deviceDetect.ts`. The browser's `window` is an
  input, `None` when there is none (server-side rendering).
 */
module DeviceDetect {
  import opened Optional
  import opened Strings

  /** What the predicates read from `window`, `navigator` and `document`. */
  datatype Window = Window(
    userAgent: string,
    msStream: bool,
    displayStandalone: bool,
    navigatorStandalone: bool,
    referrer: string,
    hasOnTouchStart: bool,
    maxTouchPoints: nat,
    innerWidth: int)

  // ---------------------------------------------------------------------------
  // isIOSPWA and isSafari
  // ---------------------------------------------------------------------------

  /** `/iPad|iPhone|iPod/.test(ua)`: case-sensitive. */
  predicate IosAgent(ua: string)
  {
    Contains(ua, "iPad") || Contains(ua, "iPhone") || Contains(ua, "iPod")
  }

  /** `isIOSPWA`: an iOS agent (not the old IE `MSStream` impostor) that runs
      standalone. */
  function IsIosPwa(w: Option<Window>): (r: bool)
    ensures w.None? ==> !r
    ensures w.Some? ==> (r <==>
      && IosAgent(w.value.userAgent) && !w.value.msStream
      && (w.value.displayStandalone || w.value.navigatorStandalone || Contains(w.value.referrer, "ios-app://")))
  {
    match w
    case None => false
    case Some(win) =>
      var isIos := IosAgent(win.userAgent) && !win.msStream;
      var isStandalone := win.displayStandalone || win.navigatorStandalone || Contains(win.referrer, "ios-app://");
      isIos && isStandalone
  }

  /** The test is case-sensitive: an agent with no capital `P`, such as any
      lower-cased agent naming `ipad` or `iphone`, is never an iOS PWA. */
  lemma NoCapitalPIsNotIosPwa(w: Window)
    requires 'P' !in w.userAgent
    ensures !IsIosPwa(Some(w))
  {
    var words := ["iPad", "iPhone", "iPod"];
    forall k | 0 <= k < 3 ensures !Contains(w.userAgent, words[k]) {
      assert 'P' in words[k];
      if Contains(w.userAgent, words[k]) {
        ContainsKeepsChars(w.userAgent, words[k], 'P');
      }
    }
    assert words[0] == "iPad" && words[1] == "iPhone" && words[2] == "iPod";
  }

  /** A lower-cased agent has no capital `P`. */
  lemma LowerCasedIsNotIosPwa(w: Window)
    requires ToLower(w.userAgent) == w.userAgent
    ensures !IsIosPwa(Some(w))
  {
    forall i | 0 <= i < |w.userAgent| ensures w.userAgent[i] != 'P' {
      assert LowerChar(w.userAgent[i]) == w.userAgent[i];
    }
    NoCapitalPIsNotIosPwa(w);
  }

  /** `isSafari`: the lower-cased agent names Safari and not Chrome. */
  function IsSafari(w: Option<Window>): (r: bool)
    ensures w.None? ==> !r
    ensures w.Some? ==> (r <==> Contains(ToLower(w.value.userAgent), "safari") && !Contains(ToLower(w.value.userAgent), "chrome"))
  {
    match w
    case None => false
    case Some(win) =>
      var ua := ToLower(win.userAgent);
      Contains(ua, "safari") && !Contains(ua, "chrome")
  }

  /** `chrome` in any mix of cases rules Safari out. */
  lemma ChromeInAnyCaseIsNotSafari(w: Window, spelled: string)
    requires ToLower(spelled) == "chrome" && Contains(w.userAgent, spelled)
    ensures !IsSafari(Some(w))
  {
    ContainsLowered(w.userAgent, spelled);
  }
}

=== FILE: legacy_memo_form.dfy ===
/**
  The memo form of the older root application, `src/app/components/MemoForm.tsx`:
  the system information it collects from the browser once the store is
  hydrated (operating system, browser, their versions, app type), and the
  guards in front of its submit and keyboard handlers.

  Names are tested on the lower-cased user agent, versions are captured from
  the user agent as written: `ua.match(/Marker ([class]*)/)` finds the first
  occurrence of the marker and takes the longest run of class characters after
  it (possibly empty). The two device-model regular expressions are inputs.
 */
module LegacyMemoForm {
  import opened Optional
  import opened Strings

  const Unknown := "unknown"

  // ---------------------------------------------------------------------------
  // Regular-expression captures
  // ---------------------------------------------------------------------------

  /** `[0-9.]` */
  predicate VersionChar(c: char) { IsDigit(c) || c == '.' }

  /** `[0-9_.]` */
  predicate MacVersionChar(c: char) { IsDigit(c) || c == '_' || c == '.' }

  /** `[0-9_]` */
  predicate IosVersionChar(c: char) { IsDigit(c) || c == '_' }

  /** The longest prefix of `s` made of `allowed` characters (a greedy `*`). */
  function SpanWhile(s: string, allowed: char -> bool): (r: string)
    ensures |r| <= |s| && r == s[..|r|]
    ensures forall i :: 0 <= i < |r| ==> allowed(r[i])
    ensures |r| < |s| ==> !allowed(s[|r|])
    decreases |s|
  {
    if |s| == 0 || !allowed(s[0]) then "" else [s[0]] + SpanWhile(s[1..], allowed)
  }

  /** `t` occurs in `s` at offset `i` and at no earlier offset. */
  predicate FirstAt(s: string, t: string, i: nat)
  {
    i + |t| <= |s| && StartsWith(s[i..], t) && forall j :: 0 <= j < i ==> !StartsWith(s[j..], t)
  }

  /** The group of `/marker([allowed]*)/` matched against `s`, or `None` when
      there is no match: the longest run of class characters after the first
      occurrence of the marker. */
  function Capture(s: string, marker: string, allowed: char -> bool): (r: Option<string>)
    ensures r.None? <==> !Contains(s, marker)
    ensures r.Some? ==> forall i :: 0 <= i < |r.value| ==> allowed(r.value[i])
    ensures forall i: nat :: FirstAt(s, marker, i) ==> r == Some(SpanWhile(s[i + |marker|..], allowed))
  {
    match IndexOf(s, marker)
    case None =>
      assert forall k: nat :: k <= |s| ==> !StartsWith(s[k..], marker) by {
        forall k: nat | k <= |s|
          ensures !StartsWith(s[k..], marker)
        {
          NotContainsAt(s, marker, k);
        }
      }
      None
    case Some(i) =>
      assert forall k: nat :: FirstAt(s, marker, k) ==> k == i;
      Some(SpanWhile(s[i + |marker|..], allowed))
  }

  /** When the marker does not occur in `pre` (nor straddle its end), its first
      occurrence in `pre + marker + tail` is the appended one. */
  lemma FirstAfterPrefix(pre: string, marker: string, tail: string)
    requires IndexOf(pre + marker, marker) == Some(|pre|)
    ensures FirstAt(pre + marker + tail, marker, |pre|)
  {
    var s, p := pre + marker + tail, pre + marker;
    assert s[|pre|..][..|marker|] == marker;
    forall j | 0 <= j < |pre|
      ensures !StartsWith(s[j..], marker)
    {
      assert s[j..][..|marker|] == p[j..][..|marker|];
    }
  }

  /** A run of class characters after the first occurrence of the marker,
      ended by a character outside the class or by the end of the string, is
      captured exactly, whatever comes before the marker. */
  lemma CaptureAfterMarker(pre: string, marker: string, v: string, rest: string, allowed: char -> bool)
    requires IndexOf(pre + marker, marker) == Some(|pre|)
    requires forall i :: 0 <= i < |v| ==> allowed(v[i])
    requires rest == "" || !allowed(rest[0])
    ensures Capture(pre + marker + v + rest, marker, allowed) == Some(v)
  {
    var s := pre + marker + v + rest;
    assert s == pre + marker + (v + rest);
    FirstAfterPrefix(pre, marker, v + rest);
    assert s[|pre| + |marker|..] == v + rest;
    SpanOfRun(v, rest, allowed);
  }

  lemma {:induction false} SpanOfRun(v: string, rest: string, allowed: char -> bool)
    requires forall i :: 0 <= i < |v| ==> allowed(v[i])
    requires rest == "" || !allowed(rest[0])
    ensures SpanWhile(v + rest, allowed) == v
    decreases |v|
  {
    if |v| > 0 {
      assert (v + rest)[1..] == v[1..] + rest;
      SpanOfRun(v[1..], rest, allowed);
    } else {
      assert v + rest == rest;
    }
  }

  // ---------------------------------------------------------------------------
  // Operating system
  // ---------------------------------------------------------------------------

  datatype OsInfo = OsInfo(os: string, osVersion: string, deviceModel: string)

  /** A captured version with every `_` turned into `.`, or `unknown`. */
  function Dotted(v: Option<string>): (r: string)
    ensures '_' !in r
    ensures v.None? ==> r == Unknown
    ensures v.Some? ==> |r| == |v.value| && forall i :: 0 <= i < |r| ==> r[i] == (if v.value[i] == '_' then '.' else v.value[i])
  {
    match v
    case None => Unknown
    case Some(s) => ReplaceAll(s, '_', '.')
  }

  /** The operating-system cascade: windows, mac os x, android, iphone or
      ipad, linux, else unknown; the first name found decides. */
  function DetectOs(ua: string, androidDevice: Option<string>, iosDevice: Option<string>): (r: OsInfo)
    ensures var lower := ToLower(ua);
      && (r.os == "Windows" <==> Contains(lower, "windows"))
      && (r.os == "macOS" <==> !Contains(lower, "windows") && Contains(lower, "mac os x"))
      && (r.os == "Android" <==>
            !Contains(lower, "windows") && !Contains(lower, "mac os x") && Contains(lower, "android"))
      && (r.os in {"iPhone", "iPad"} <==>
            && !Contains(lower, "windows") && !Contains(lower, "mac os x") && !Contains(lower, "android")
            && (Contains(lower, "iphone") || Contains(lower, "ipad")))
      && (r.os in {"iPhone", "iPad"} ==> (r.os == "iPhone" <==> Contains(lower, "iphone")))
      && (r.os == "Linux" <==>
            && !Contains(lower, "windows") && !Contains(lower, "mac os x") && !Contains(lower, "android")
            && !Contains(lower, "iphone") && !Contains(lower, "ipad") && Contains(lower, "linux"))
      && r.os in {"Windows", "macOS", "Android", "iPhone", "iPad", "Linux", Unknown}
    ensures r.os in {"macOS", "iPhone", "iPad"} ==> '_' !in r.osVersion
    ensures r.os == "Windows" ==> r.osVersion == Capture(ua, "Windows NT ", VersionChar).GetOr(Unknown)
    ensures r.os == "macOS" ==> r.osVersion == Dotted(Capture(ua, "Mac OS X ", MacVersionChar))
    ensures r.os == "Android" ==> r.osVersion == Capture(ua, "Android ", VersionChar).GetOr(Unknown)
    ensures r.os in {"iPhone", "iPad"} ==> r.osVersion == Dotted(Capture(ua, "OS ", IosVersionChar))
    ensures r.os == "Android" ==> r.deviceModel == androidDevice.GetOr(Unknown)
    ensures r.os in {"iPhone", "iPad"} ==> r.deviceModel == iosDevice.GetOr(Unknown)
    ensures r.os in {"Linux", Unknown} ==> r.osVersion == Unknown
    ensures r.os !in {"Android", "iPhone", "iPad"} ==> r.deviceModel == Unknown
  {
    var lower := ToLower(ua);
    if Contains(lower, "windows") then
      OsInfo("Windows", Capture(ua, "Windows NT ", VersionChar).GetOr(Unknown), Unknown)
    else if Contains(lower, "mac os x") then
      OsInfo("macOS", Dotted(Capture(ua, "Mac OS X ", MacVersionChar)), Unknown)
    else if Contains(lower, "android") then
      OsInfo("Android", Capture(ua, "Android ", VersionChar).GetOr(Unknown), androidDevice.GetOr(Unknown))
    else if Contains(lower, "iphone") || Contains(lower, "ipad") then
      OsInfo(if Contains(lower, "iphone") then "iPhone" else "iPad",
             Dotted(Capture(ua, "OS ", IosVersionChar)), iosDevice.GetOr(Unknown))
    else if Contains(lower, "linux") then
      OsInfo("Linux", Unknown, Unknown)
    else
      OsInfo(Unknown, Unknown, Unknown)
  }

  /** An iPhone user agent that also says `Mac OS X` (as Safari on iOS does,
      "like Mac OS X") is reported as macOS. */
  lemma IPhoneLikeMacIsMac(ua: string, androidDevice: Option<string>, iosDevice: Option<string>)
    requires Contains(ToLower(ua), "iphone") && Contains(ToLower(ua), "mac os x")
    requires !Contains(ToLower(ua), "windows")
    ensures DetectOs(ua, androidDevice, iosDevice).os == "macOS"
  {
  }

  /** The name test ignores case but the version capture does not: a user
      agent that says `windows` without the exact `Windows NT ` keeps the
      version unknown. */
  lemma NameMatchesWithoutVersion(ua: string, androidDevice: Option<string>, iosDevice: Option<string>)
    requires Contains(ToLower(ua), "windows") && !Contains(ua, "Windows NT ")
    ensures DetectOs(ua, androidDevice, iosDevice) == OsInfo("Windows", Unknown, Unknown)
  {
  }

  /** A text holding a marker names, in any case, every word at the start of
      the lower-cased marker. */
  lemma NamesWord(pre: string, marker: string, v: string, rest: string, word: string)
    requires StartsWith(ToLower(marker), word)
    ensures Contains(ToLower(pre + marker + v + rest), word)
  {
    var s := pre + marker + v + rest;
    assert s[|pre|..][..|marker|] == marker;
    assert ToLower(s)[|pre|..][..|word|] == ToLower(marker)[..|word|];
    ContainsAt(ToLower(s), word, |pre|);
  }

  lemma MarkersNameTheirWords()
    ensures StartsWith(ToLower("Mac OS X "), "mac os x")
    ensures StartsWith(ToLower("Chrome/"), "chrome")
  {
  }

  /** A macOS agent reports the version after its first `Mac OS X `, written
      with dots for underscores, as in
      `Mozilla/5.0 (Macintosh; Intel Mac OS X 10_15_7) ...`. */
  lemma MacVersionIsDotted(pre: string, v: string, rest: string, androidDevice: Option<string>, iosDevice: Option<string>)
    requires IndexOf(pre + "Mac OS X ", "Mac OS X ") == Some(|pre|)
    requires !Contains(ToLower(pre + "Mac OS X " + v + rest), "windows")
    requires forall i :: 0 <= i < |v| ==> MacVersionChar(v[i])
    requires rest == "" || !MacVersionChar(rest[0])
    ensures DetectOs(pre + "Mac OS X " + v + rest, androidDevice, iosDevice)
      == OsInfo("macOS", ReplaceAll(v, '_', '.'), Unknown)
  {
    MarkersNameTheirWords();
    NamesWord(pre, "Mac OS X ", v, rest, "mac os x");
    CaptureAfterMarker(pre, "Mac OS X ", v, rest, MacVersionChar);
  }

  // ---------------------------------------------------------------------------
  // Browser
  // ---------------------------------------------------------------------------

  datatype BrowserInfo = BrowserInfo(browser: string, browserVersion: string)

  /** The browser cascade: crios, chrome, safari, else unknown. */
  function DetectBrowser(ua: string): (r: BrowserInfo)
    ensures var lower := ToLower(ua);
      && (r.browser == "Chrome iOS" <==> Contains(lower, "crios"))
      && (r.browser == "Chrome" <==> !Contains(lower, "crios") && Contains(lower, "chrome"))
      && (r.browser == "Safari" <==>
            !Contains(lower, "crios") && !Contains(lower, "chrome") && Contains(lower, "safari"))
      && (r.browser == Unknown <==>
            !Contains(lower, "crios") && !Contains(lower, "chrome") && !Contains(lower, "safari"))
    ensures r.browser == Unknown ==> r.browserVersion == Unknown
    ensures r.browser == "Chrome iOS" ==> r.browserVersion == Capture(ua, "CriOS/", VersionChar).GetOr(Unknown)
    ensures r.browser == "Chrome" ==> r.browserVersion == Capture(ua, "Chrome/", VersionChar).GetOr(Unknown)
    ensures r.browser == "Safari" ==> r.browserVersion == Capture(ua, "Version/", VersionChar).GetOr(Unknown)
    ensures r.browserVersion != Unknown ==> forall i :: 0 <= i < |r.browserVersion| ==> VersionChar(r.browserVersion[i])
  {
    var lower := ToLower(ua);
    if Contains(lower, "crios") then BrowserInfo("Chrome iOS", Capture(ua, "CriOS/", VersionChar).GetOr(Unknown))
    else if Contains(lower, "chrome") then BrowserInfo("Chrome", Capture(ua, "Chrome/", VersionChar).GetOr(Unknown))
    else if Contains(lower, "safari") then BrowserInfo("Safari", Capture(ua, "Version/", VersionChar).GetOr(Unknown))
    else BrowserInfo(Unknown, Unknown)
  }

  /** Desktop Chrome's user agent also names Safari; Chrome is tested first
      and wins. */
  lemma ChromeBeforeSafari(ua: string)
    requires Contains(ToLower(ua), "chrome") && Contains(ToLower(ua), "safari")
    requires !Contains(ToLower(ua), "crios")
    ensures DetectBrowser(ua).browser == "Chrome"
  {
  }

  /** A Chrome agent reports the version after its first `Chrome/`, as in
      `Mozilla/5.0 (...) AppleWebKit/537.36 (KHTML, like Gecko) Chrome/120.0.0.0 Safari/537.36`. */
  lemma ChromeVersionCaptured(pre: string, v: string, rest: string)
    requires IndexOf(pre + "Chrome/", "Chrome/") == Some(|pre|)
    requires !Contains(ToLower(pre + "Chrome/" + v + rest), "crios")
    requires forall i :: 0 <= i < |v| ==> VersionChar(v[i])
    requires rest == "" || !VersionChar(rest[0])
    ensures DetectBrowser(pre + "Chrome/" + v + rest) == BrowserInfo("Chrome", v)
  {
    MarkersNameTheirWords();
    NamesWord(pre, "Chrome/", v, rest, "chrome");
    CaptureAfterMarker(pre, "Chrome/", v, rest, VersionChar);
  }

  // ---------------------------------------------------------------------------
  // collectSystemInfo
  // ---------------------------------------------------------------------------

  /** What the effect reads from the browser. The two device models are the
      results of the lazy device-model regular expressions. */
  datatype BrowserEnv = BrowserEnv(
    userAgent: string,
    displayStandalone: bool,
    navigatorStandalone: bool,
    referrer: string,
    androidDevice: Option<string>,
    iosDevice: Option<string>)

  datatype SystemInfo = SystemInfo(
    appType: string, os: string, osVersion: string, browser: string,
    browserVersion: string, deviceModel: string, userAgent: string)

  /** The state before collection. */
  const Blank := SystemInfo("", "", "", "", "", "", "")

  function AppType(env: BrowserEnv): (t: string)
    ensures t == "PWA" <==>
      env.displayStandalone || env.navigatorStandalone || Contains(env.referrer, "android-app://")
    ensures t in {"PWA", "Web"}
  {
    if env.displayStandalone || env.navigatorStandalone || Contains(env.referrer, "android-app://") then "PWA"
    else "Web"
  }

  function CollectSystemInfo(env: BrowserEnv): (r: SystemInfo)
    ensures r.userAgent == env.userAgent && r.appType in {"PWA", "Web"}
    ensures r.appType == AppType(env)
    ensures var o := DetectOs(env.userAgent, env.androidDevice, env.iosDevice);
      r.os == o.os && r.osVersion == o.osVersion && r.deviceModel == o.deviceModel
    ensures var b := DetectBrowser(env.userAgent);
      r.browser == b.browser && r.browserVersion == b.browserVersion
  {
    var o := DetectOs(env.userAgent, env.androidDevice, env.iosDevice);
    var b := DetectBrowser(env.userAgent);
    SystemInfo(AppType(env), o.os, o.osVersion, b.browser, b.browserVersion, o.deviceModel, env.userAgent)
  }

  /** The effect: nothing happens before hydration or without a window. */
  function OnHydrated(current: SystemInfo, isHydrated: bool, env: Option<BrowserEnv>): (r: SystemInfo)
    ensures !isHydrated || env.None? ==> r == current
    ensures isHydrated && env.Some? ==> r == CollectSystemInfo(env.value)
  {
    if !isHydrated || env.None? then current else CollectSystemInfo(env.value)
  }

  /** A user agent naming no known system or browser leaves every field but
      the app type and the user agent at `unknown`. */
  lemma UnknownAgentKeepsDefaults(env: BrowserEnv)
    requires var lower := ToLower(env.userAgent);
      && !Contains(lower, "windows") && !Contains(lower, "mac os x") && !Contains(lower, "android")
      && !Contains(lower, "iphone") && !Contains(lower, "ipad") && !Contains(lower, "linux")
      && !Contains(lower, "crios") && !Contains(lower, "chrome") && !Contains(lower, "safari")
    ensures CollectSystemInfo(env) == SystemInfo(AppType(env), Unknown, Unknown, Unknown, Unknown, Unknown, env.userAgent)
  {
  }

  // ---------------------------------------------------------------------------
  // Submit and keyboard guards
  // ---------------------------------------------------------------------------

  /** The textarea after a handler, and the content handed to `addMemo`. */
  datatype FormStep = FormStep(content: string, sent: Option<string>)

  /** `handleSubmit`: blank content or an unhydrated store does nothing;
      otherwise the content is sent as typed and the field is cleared. */
  function Submit(content: string, isHydrated: bool): (r: FormStep)
    ensures r.sent.Some? <==> !IsBlank(content) && isHydrated
    ensures r.sent.Some? ==> r == FormStep("", Some(content))
    ensures r.sent.None? ==> r.content == content
  {
    BlankIffTrimEmpty(content);
    if Trim(content) == "" || !isHydrated then FormStep(content, None) else FormStep("", Some(content))
  }

  /** The keyboard handler's result: whether it prevented the default action,
      and the form afterwards. */
  datatype KeyStep = KeyStep(preventDefault: bool, form: FormStep)

  /** `handleKeyDown`: Ctrl or Cmd with Enter submits when the content is not
      blank and the app is online and hydrated. */
  function KeyDown(ctrl: bool, meta: bool, key: string, content: string, isOnline: bool, isHydrated: bool): (r: KeyStep)
    ensures r.preventDefault <==> (ctrl || meta) && key == "Enter"
    ensures r.form.sent.Some? <==>
      (ctrl || meta) && key == "Enter" && !IsBlank(content) && isOnline && isHydrated
  {
    BlankIffTrimEmpty(content);
    if (ctrl || meta) && key == "Enter" then
      if Trim(content) != "" && isOnline && isHydrated then KeyStep(true, Submit(content, isHydrated))
      else KeyStep(true, FormStep(content, None))
    else KeyStep(false, FormStep(content, None))
  }

  /** A keyboard submission is a form submission with the same content, and
      it additionally needs the app to be online. */
  lemma KeySubmitIsSubmit(ctrl: bool, meta: bool, key: string, content: string, isOnline: bool, isHydrated: bool)
    ensures var k := KeyDown(ctrl, meta, key, content, isOnline, isHydrated);
      k.form.sent.Some? ==> k.form == Submit(content, isHydrated) && isOnline
    ensures !isOnline ==> KeyDown(ctrl, meta, key, content, isOnline, isHydrated).form.sent.None?
  {
  }
}

=== FILE: legacy_memo_list.dfy ===
/**
  The memo list of the older root application, `src/app/components/MemoList.tsx`:
  the operating-system label it shows, and the edit and delete handlers'
  state. The store actions it calls are reported as requests.
 */
module LegacyMemoList {
  import opened Optional
  import opened Strings

  // ---------------------------------------------------------------------------
  // getOSInfo
  // ---------------------------------------------------------------------------

  const OsLabels := {"Windows", "macOS", "Linux", "Android", "iOS", "unknown"}

  /** `getOSInfo`: `unknown` without a window, otherwise the first of win,
      mac, linux, android, ios/iphone/ipad found in the lower-cased user
      agent. */
  function GetOsInfo(userAgent: Option<string>): (r: string)
    ensures r in OsLabels
    ensures userAgent.None? ==> r == "unknown"
    ensures userAgent.Some? ==> var lower := ToLower(userAgent.value);
      && (r == "Windows" <==> Contains(lower, "win"))
      && (r == "macOS" <==> !Contains(lower, "win") && Contains(lower, "mac"))
      && (r == "Linux" <==> !Contains(lower, "win") && !Contains(lower, "mac") && Contains(lower, "linux"))
      && (r == "Android" <==>
            !Contains(lower, "win") && !Contains(lower, "mac") && !Contains(lower, "linux") && Contains(lower, "android"))
      && (r == "iOS" <==>
            && !Contains(lower, "win") && !Contains(lower, "mac") && !Contains(lower, "linux") && !Contains(lower, "android")
            && (Contains(lower, "ios") || Contains(lower, "iphone") || Contains(lower, "ipad")))
  {
    match userAgent
    case None => "unknown"
    case Some(ua) =>
      var lower := ToLower(ua);
      if Contains(lower, "win") then "Windows"
      else if Contains(lower, "mac") then "macOS"
      else if Contains(lower, "linux") then "Linux"
      else if Contains(lower, "android") then "Android"
      else if Contains(lower, "ios") || Contains(lower, "iphone") || Contains(lower, "ipad") then "iOS"
      else "unknown"
  }

  /** An occurrence of `a + t + b` contains an occurrence of `t`. */
  lemma ContainsPart(s: string, a: string, t: string, b: string)
    requires Contains(s, a + t + b)
    ensures Contains(s, t)
  {
    ContainsIffOccurs(s, a + t + b);
    var i :| 0 <= i <= |s| && StartsWith(s[i..], a + t + b);
    assert s[i + |a|..][..|t|] == (a + t + b)[|a|..|a| + |t|] == t;
    ContainsAt(s, t, i + |a|);
  }

  /** `win` is a bare substring test: a user agent naming Darwin is
      reported as Windows. */
  lemma DarwinIsWindows(ua: string)
    requires Contains(ToLower(ua), "darwin")
    ensures GetOsInfo(Some(ua)) == "Windows"
  {
    assert "darwin" == "dar" + "win" + "";
    ContainsPart(ToLower(ua), "dar", "win", "");
  }

  /** `linux` is tested before `android`, and Android user agents say
      `Linux; Android`: such an agent is reported as Linux. */
  lemma AndroidAgentIsLinux(ua: string)
    requires Contains(ToLower(ua), "linux; android")
    requires !Contains(ToLower(ua), "win") && !Contains(ToLower(ua), "mac")
    ensures GetOsInfo(Some(ua)) == "Linux"
  {
    assert "linux; android" == "" + "linux" + "; android";
    ContainsPart(ToLower(ua), "", "linux", "; android");
  }

  // ---------------------------------------------------------------------------
  // Editing
  // ---------------------------------------------------------------------------

  /** A listed memo: the server's `_id` (possibly absent or empty) and the
      client `id`. */
  datatype ListedMemo = ListedMemo(serverId: Option<string>, id: string, content: string)

  datatype EditState = EditState(editingId: Option<string>, editContent: string)

  const Closed := EditState(None, "")

  /** `memo._id || memo.id`. */
  function KeyOf(m: ListedMemo): (k: string)
    ensures m.serverId.Some? && m.serverId.value != "" ==> k == m.serverId.value
    ensures m.serverId.None? || m.serverId == Some("") ==> k == m.id
  {
    if m.serverId.Some? && m.serverId.value != "" then m.serverId.value else m.id
  }

  /** Whether the list shows the editor for `m`. */
  predicate IsEditing(s: EditState, m: ListedMemo)
  {
    s.editingId == Some(KeyOf(m))
  }

  /** `handleEdit`: the editor opens on the memo with its content. */
  function HandleEdit(m: ListedMemo): (r: EditState)
    ensures IsEditing(r, m) && r.editContent == m.content
  {
    EditState(Some(KeyOf(m)), m.content)
  }

  /** The state after a handler and the `updateMemo(id, content)` call it
      made, if any. */
  datatype SaveStep = SaveStep(state: EditState, update: Option<(string, string)>)

  /** `handleSave`: before hydration nothing happens; otherwise the edited
      content is sent for `id` and the editor closes. */
  function HandleSave(s: EditState, id: string, isHydrated: bool): (r: SaveStep)
    ensures !isHydrated ==> r == SaveStep(s, None)
    ensures isHydrated ==> r.state == Closed && r.update == Some((id, s.editContent))
  {
    if !isHydrated then SaveStep(s, None) else SaveStep(Closed, Some((id, s.editContent)))
  }

  /** `handleCancel`. */
  function HandleCancel(s: EditState): (r: EditState)
    ensures r.editingId.None? && r.editContent == ""
  {
    Closed
  }

  /** The save button's `disabled`. */
  predicate SaveDisabled(s: EditState, isLoading: bool)
  {
    Trim(s.editContent) == "" || isLoading
  }

  /** Opening the editor and then saving (once hydrated) or cancelling closes
      it again; the save sends the memo's key with the content being
      edited, and is possible through the button only for non-blank
      content. */
  lemma EditThenCloseRoundTrip(m: ListedMemo, typed: string, isLoading: bool)
    ensures var editing := HandleEdit(m).(editContent := typed);
      && HandleCancel(editing) == Closed
      && HandleSave(editing, KeyOf(m), true) == SaveStep(Closed, Some((KeyOf(m), typed)))
      && (!SaveDisabled(editing, isLoading) ==> !IsBlank(typed) && !isLoading)
  {
    BlankIffTrimEmpty(typed);
  }

  /** The delete button asks for confirmation and deletes by the memo's key. */
  function DeleteRequest(m: ListedMemo, confirmed: bool): (r: Option<string>)
    ensures r.Some? <==> confirmed
    ensures r.Some? ==> r.value == KeyOf(m)
  {
    if confirmed then Some(KeyOf(m)) else None
  }
}

=== FILE: memo_form.dfy ===
/**
  The memo form of the current front end, `frontend/src/app/components/MemoForm.tsx`:
  the `isDesktop` predicate that picks its placeholder, and the guards in
  front of its submit and keyboard handlers.
 */
module MemoForm {
  import opened Optional
  import opened Strings
  import opened DeviceDetect

  // ---------------------------------------------------------------------------
  // isDesktop
  // ---------------------------------------------------------------------------

  /** The alternatives of the mobile regular expression, lower-cased. The
      expression has the `i` flag but not the `u` flag, so it folds only
      `A`-`Z`: see `AsciiLower`. */
  const MobileWords := ["android", "webos", "iphone", "ipad", "ipod", "blackberry", "iemobile", "opera mini"]

  /** `/Android|webOS|iPhone|iPad|iPod|BlackBerry|IEMobile|Opera Mini/i.test(ua)`. */
  predicate MobileAgent(ua: string)
  {
    exists k :: 0 <= k < |MobileWords| && Contains(AsciiLower(ua), MobileWords[k])
  }

  /** Widths up to 768 pixels count as small. */
  const SmallScreenMax := 768

  /** `isDesktop`: no mobile agent, no touch support, and wider than 768. */
  function IsDesktop(w: Option<Window>): (r: bool)
    ensures w.None? ==> !r
    ensures w.Some? ==> (r <==>
      && !MobileAgent(w.value.userAgent)
      && !w.value.hasOnTouchStart && w.value.maxTouchPoints == 0
      && w.value.innerWidth > SmallScreenMax)
  {
    match w
    case None => false
    case Some(win) =>
      var isMobileAgent := MobileAgent(win.userAgent);
      var hasTouch := win.hasOnTouchStart || win.maxTouchPoints > 0;
      var isSmall := win.innerWidth <= SmallScreenMax;
      !isMobileAgent && !hasTouch && !isSmall
  }

  /** A window exactly 768 pixels wide is a small screen. */
  lemma Width768IsNotDesktop(w: Window)
    requires w.innerWidth == 768
    ensures !IsDesktop(Some(w))
  {
  }

  /** An agent naming the iPhone in any mix of ASCII cases is mobile, so
      never desktop. */
  lemma IPhoneIsNotDesktop(w: Window, spelled: string)
    requires AsciiLower(spelled) == "iphone" && Contains(w.userAgent, spelled)
    ensures !IsDesktop(Some(w))
  {
    ContainsAsciiLowered(w.userAgent, spelled);
    assert MobileWords[2] == "iphone";
  }

  /** The Kelvin sign U+212A does not stand for `k`: a wide touchless window
      whose agent is `BLAC\u212ABERRY` is a desktop. */
  lemma KelvinBlackBerryIsDesktop(w: Window)
    requires w.userAgent == "BLAC\U{212A}BERRY"
    requires !w.hasOnTouchStart && w.maxTouchPoints == 0 && w.innerWidth > SmallScreenMax
    ensures IsDesktop(Some(w))
  {
    var ua := AsciiLower(w.userAgent);
    assert ua == "blac\U{212A}berry";
    /** A character of each word that the folded agent lacks. */
    var missing := ['n', 'w', 'i', 'i', 'i', 'k', 'i', 'o'];
    forall k | 0 <= k < |MobileWords| ensures !Contains(ua, MobileWords[k]) {
      assert missing[k] in MobileWords[k] && missing[k] !in ua;
      if Contains(ua, MobileWords[k]) {
        ContainsKeepsChars(ua, MobileWords[k], missing[k]);
      }
    }
  }

  // ---------------------------------------------------------------------------
  // The memo form's submit guards
  // ---------------------------------------------------------------------------

  /** The textarea after a handler, and the memo body handed to `addMemo`. */
  datatype FormStep = FormStep(content: string, sent: Option<string>)

  /** `handleSubmit`: blank content does nothing; otherwise the trimmed
      content is sent and the field is cleared. */
  function Submit(content: string): (r: FormStep)
    ensures r.sent.None? <==> IsBlank(content)
    ensures r.sent.None? ==> r.content == content
    ensures r.sent.Some? ==>
      (r.content == "" && r.sent.value == Trim(content) && r.sent.value != "" && Trim(r.sent.value) == r.sent.value)
  {
    BlankIffTrimEmpty(content);
    TrimIdempotent(content);
    if Trim(content) == "" then FormStep(content, None) else FormStep("", Some(Trim(content)))
  }

  /** `handleKeyDown`: Ctrl or Cmd with Enter prevents the default and goes
      through the same submit guard; any other key does nothing. */
  function KeyDown(ctrl: bool, meta: bool, key: string, content: string): (r: (bool, FormStep))
    ensures r.0 <==> (ctrl || meta) && key == "Enter"
    ensures r.0 ==> r.1 == Submit(content)
    ensures !r.0 ==> r.1 == FormStep(content, None)
  {
    if (ctrl || meta) && key == "Enter" then (true, Submit(content)) else (false, FormStep(content, None))
  }

  /** The submit button's `disabled`. */
  predicate SubmitDisabled(content: string, isLoading: bool)
  {
    Trim(content) == "" || isLoading
  }

  /** Whenever the button is enabled, pressing it sends something, and it is
      enabled exactly for non-blank content when idle. */
  lemma EnabledButtonSends(content: string, isLoading: bool)
    ensures !SubmitDisabled(content, isLoading) <==> !IsBlank(content) && !isLoading
    ensures !SubmitDisabled(content, isLoading) ==> Submit(content).sent.Some?
  {
    BlankIffTrimEmpty(content);
  }
}

=== FILE: memo_store.dfy ===
/**
  The memo list store of `frontend/src/app/store/memoStore.ts`. Every action
  sets `isLoading` (`Begin`), awaits one request, and then edits whatever
  state is current when the response arrives and clears `isLoading` in a
  `finally` (the `...Finish` steps). Requests may overlap: other steps can
  run between an action's `Begin` and its finish, and the one shared
  `isLoading` flag is cleared by whichever request settles first. There is
  no queue and no retry: a request that throws leaves the list as it was.
  The server's JSON answer is an input (`None` when the request or the JSON
  parse threw). `FetchMemos`, `AddMemo`, `UpdateMemo` and `DeleteMemo` are
  the actions run alone, with nothing in between.
 */
module MemoStore {
  import opened Optional
  import opened Strings

  /** A memo as the server sends it; any field may be missing. */
  datatype ServerMemo = ServerMemo(id: Option<string>, content: Option<string>, userId: Option<string>, createdAt: Option<string>)

  /** A memo as the store holds it. */
  datatype Memo = Memo(id: Option<string>, content: Option<string>, userId: Option<string>, createdAt: Option<string>, isOffline: bool)

  datatype StoreState = StoreState(memos: seq<Memo>, isLoading: bool, isHydrated: bool)

  const Initial := StoreState([], false, true)

  /** The user id `fetchMemos` falls back to for a memo without one. */
  const FallbackUserId := "user123"

  /** The store's copy of a server memo, always marked online. */
  function FromServer(m: ServerMemo): Memo
  {
    Memo(m.id, m.content, m.userId, m.createdAt, false)
  }

  /** No memo in the store is ever marked offline. */
  predicate AllOnline(memos: seq<Memo>)
  {
    forall i :: 0 <= i < |memos| ==> !memos[i].isOffline
  }

  /** The synchronous first step of every action. */
  function Begin(s: StoreState): (r: StoreState)
    ensures r.isLoading && r.(isLoading := s.isLoading) == s
  {
    s.(isLoading := true)
  }

  // ---------------------------------------------------------------------------
  // fetchMemos
  // ---------------------------------------------------------------------------

  /** `memo.userId || 'user123'`. */
  function UserIdOrFallback(userId: Option<string>): (r: string)
    ensures r != ""
    ensures userId.Some? && userId.value != "" ==> r == userId.value
  {
    if userId.None? || userId.value == "" then FallbackUserId else userId.value
  }

  /** The list `fetchMemos` stores for a response body: one online memo per
      record, in order, with the record's id, content and date, and an owner
      that is never empty: the record's own when it has a non-empty one, the
      fallback otherwise. */
  function FetchedList(data: seq<ServerMemo>): (r: seq<Memo>)
    ensures |r| == |data|
    ensures forall i :: 0 <= i < |r| ==>
      && !r[i].isOffline
      && r[i].id == data[i].id && r[i].content == data[i].content && r[i].createdAt == data[i].createdAt
      && r[i].userId.Some? && r[i].userId.value != ""
      && (data[i].userId.Some? && data[i].userId.value != "" ==> r[i].userId == data[i].userId)
      && (data[i].userId.None? || data[i].userId == Some("") ==> r[i].userId == Some(FallbackUserId))
  {
    seq(|data|, i requires 0 <= i < |data| => FromServer(data[i]).(userId := Some(UserIdOrFallback(data[i].userId))))
  }

  /** The end of `fetchMemos`: the current list is replaced by the response,
      or kept when the request threw; `isLoading` is cleared either way. */
  function FetchFinish(current: StoreState, reply: Option<seq<ServerMemo>>): (r: StoreState)
    ensures !r.isLoading && r.isHydrated == current.isHydrated
    ensures reply.None? ==> r.memos == current.memos
    ensures reply.Some? ==> r.memos == FetchedList(reply.value)
  {
    match reply
    case None => current.(isLoading := false)
    case Some(data) => current.(memos := FetchedList(data), isLoading := false)
  }

  /** `fetchMemos` run alone. */
  function FetchMemos(s: StoreState, reply: Option<seq<ServerMemo>>): (r: StoreState)
    ensures !r.isLoading && r.isHydrated == s.isHydrated
    ensures reply.None? ==> r.memos == s.memos
    ensures reply.Some? ==> r.memos == FetchedList(reply.value)
  {
    FetchFinish(Begin(s), reply)
  }

  /** After a successful fetch the store holds exactly the server's memos, in
      order, every one online and with an owner, whatever it held before. */
  lemma FetchedMemosHaveOwners(s: StoreState, data: seq<ServerMemo>)
    ensures var r := FetchMemos(s, Some(data)).memos;
      && |r| == |data| && AllOnline(r)
      && (forall i :: 0 <= i < |r| ==> r[i].id == data[i].id && r[i].userId.Some? && r[i].userId.value != "")
      && (forall t: StoreState :: FetchMemos(t, Some(data)).memos == r)
  {
  }

  // ---------------------------------------------------------------------------
  // addMemo
  // ---------------------------------------------------------------------------

  /** The end of `addMemo`: whatever JSON the server answered with is
      appended to the current list; a thrown request leaves it unchanged. */
  function AddFinish(current: StoreState, reply: Option<ServerMemo>): (r: StoreState)
    ensures !r.isLoading && r.isHydrated == current.isHydrated
    ensures reply.None? ==> r.memos == current.memos
    ensures reply.Some? ==> (|r.memos| == |current.memos| + 1 && r.memos[..|current.memos|] == current.memos
      && r.memos[|current.memos|] == FromServer(reply.value))
  {
    match reply
    case None => current.(isLoading := false)
    case Some(m) => current.(memos := current.memos + [FromServer(m)], isLoading := false)
  }

  /** `addMemo` run alone. */
  function AddMemo(s: StoreState, reply: Option<ServerMemo>): (r: StoreState)
    ensures !r.isLoading && r.isHydrated == s.isHydrated
    ensures reply.None? ==> r.memos == s.memos
    ensures reply.Some? ==> (|r.memos| == |s.memos| + 1 && r.memos[..|s.memos|] == s.memos
      && r.memos[|s.memos|] == FromServer(reply.value))
  {
    AddFinish(Begin(s), reply)
  }

  // ---------------------------------------------------------------------------
  // updateMemo
  // ---------------------------------------------------------------------------

  /** `memos.map(m => m.id === target ? replacement : m)`. */
  function ReplaceById(memos: seq<Memo>, target: Option<string>, replacement: Memo): (r: seq<Memo>)
    ensures |r| == |memos|
    ensures forall i :: 0 <= i < |r| ==> r[i] == (if memos[i].id == target then replacement else memos[i])
  {
    seq(|memos|, i requires 0 <= i < |memos| => if memos[i].id == target then replacement else memos[i])
  }

  /** The end of `updateMemo`: the current entries whose id is the edited
      memo's id are replaced by the server's answer, in place. */
  function UpdateFinish(current: StoreState, target: Option<string>, reply: Option<ServerMemo>): (r: StoreState)
    ensures !r.isLoading && r.isHydrated == current.isHydrated
    ensures reply.None? ==> r.memos == current.memos
    ensures reply.Some? ==> r.memos == ReplaceById(current.memos, target, FromServer(reply.value))
  {
    match reply
    case None => current.(isLoading := false)
    case Some(m) => current.(memos := ReplaceById(current.memos, target, FromServer(m)), isLoading := false)
  }

  /** `updateMemo` run alone. */
  function UpdateMemo(s: StoreState, target: Option<string>, reply: Option<ServerMemo>): (r: StoreState)
    ensures !r.isLoading && r.isHydrated == s.isHydrated
    ensures reply.None? ==> r.memos == s.memos
    ensures reply.Some? ==> r.memos == ReplaceById(s.memos, target, FromServer(reply.value))
  {
    UpdateFinish(Begin(s), target, reply)
  }

  /** Replacing by id leaves every other memo where it was and touches
      nothing when no memo has the id. */
  lemma ReplaceFrame(memos: seq<Memo>, target: Option<string>, replacement: Memo)
    ensures forall i :: 0 <= i < |memos| && memos[i].id != target ==> ReplaceById(memos, target, replacement)[i] == memos[i]
    ensures (forall i :: 0 <= i < |memos| ==> memos[i].id != target) ==> ReplaceById(memos, target, replacement) == memos
  {
  }

  /** When the server echoes the id, repeating the same update changes
      nothing more. */
  lemma ReplaceIdempotent(memos: seq<Memo>, target: Option<string>, replacement: Memo)
    requires replacement.id == target
    ensures ReplaceById(ReplaceById(memos, target, replacement), target, replacement) == ReplaceById(memos, target, replacement)
  {
  }

  // ---------------------------------------------------------------------------
  // deleteMemo
  // ---------------------------------------------------------------------------

  /** `memos.filter(m => m.id !== id)`. */
  function WithoutId(memos: seq<Memo>, id: Option<string>): (r: seq<Memo>)
    ensures |r| <= |memos|
    ensures forall m :: m in r <==> m in memos && m.id != id
    decreases |memos|
  {
    if |memos| == 0 then []
    else
      var rest := WithoutId(memos[..|memos| - 1], id);
      var last := memos[|memos| - 1];
      assert memos == memos[..|memos| - 1] + [last];
      if last.id == id then rest else rest + [last]
  }

  /** The end of `deleteMemo`: once the request resolves (whatever its
      status) every current memo with the id goes; a thrown request leaves
      the list unchanged. */
  function DeleteFinish(current: StoreState, id: string, resolved: bool): (r: StoreState)
    ensures !r.isLoading && r.isHydrated == current.isHydrated
    ensures !resolved ==> r.memos == current.memos
    ensures resolved ==> forall m :: m in r.memos <==> m in current.memos && m.id != Some(id)
  {
    if resolved then current.(memos := WithoutId(current.memos, Some(id)), isLoading := false)
    else current.(isLoading := false)
  }

  /** `deleteMemo` run alone. */
  function DeleteMemo(s: StoreState, id: string, resolved: bool): (r: StoreState)
    ensures !r.isLoading && r.isHydrated == s.isHydrated
    ensures !resolved ==> r.memos == s.memos
    ensures resolved ==> forall m :: m in r.memos <==> m in s.memos && m.id != Some(id)
    ensures resolved ==> r.memos == WithoutId(s.memos, Some(id))
  {
    DeleteFinish(Begin(s), id, resolved)
  }

  /** The memos that survive a delete keep their relative order: filtering
      commutes with appending. */
  lemma {:induction false} WithoutIdAppend(a: seq<Memo>, b: seq<Memo>, id: Option<string>)
    ensures WithoutId(a + b, id) == WithoutId(a, id) + WithoutId(b, id)
    decreases |b|
  {
    if |b| == 0 {
      assert a + b == a;
    } else {
      var init := b[..|b| - 1];
      var last := b[|b| - 1];
      assert (a + b)[..|a + b| - 1] == a + init;
      assert b[..|b| - 1] == init;
      WithoutIdAppend(a, init, id);
    }
  }

  /** Deleting twice is deleting once. */
  lemma {:induction false} WithoutIdIdempotent(memos: seq<Memo>, id: Option<string>)
    ensures WithoutId(WithoutId(memos, id), id) == WithoutId(memos, id)
    decreases |memos|
  {
    if |memos| > 0 {
      var init := memos[..|memos| - 1];
      var last := memos[|memos| - 1];
      WithoutIdIdempotent(init, id);
      if last.id != id {
        WithoutIdAppend(WithoutId(init, id), [last], id);
        assert WithoutId([last], id) == [last] by {
          assert [last][..0] == [];
        }
      }
    }
  }

  /** A memo that was just added is gone again after deleting its id, and
      the rest of the list is exactly what deleting would have left. */
  lemma DeleteUndoesAdd(s: StoreState, m: ServerMemo, id: string)
    requires m.id == Some(id)
    ensures DeleteMemo(AddMemo(s, Some(m)), id, true).memos == DeleteMemo(s, id, true).memos
  {
    var added := s.memos + [FromServer(m)];
    WithoutIdAppend(s.memos, [FromServer(m)], Some(id));
    assert WithoutId([FromServer(m)], Some(id)) == [] by {
      assert [FromServer(m)][..0] == [];
    }
  }

  /** Deleting an id after updating it is deleting it outright, when the
      server echoes the id. */
  lemma {:induction false} DeleteAfterReplace(memos: seq<Memo>, target: Option<string>, replacement: Memo)
    requires replacement.id == target
    ensures WithoutId(ReplaceById(memos, target, replacement), target) == WithoutId(memos, target)
    decreases |memos|
  {
    if |memos| > 0 {
      var init := memos[..|memos| - 1];
      var replaced := ReplaceById(memos, target, replacement);
      assert replaced[..|replaced| - 1] == ReplaceById(init, target, replacement);
      DeleteAfterReplace(init, target, replacement);
    }
  }

  // ---------------------------------------------------------------------------
  // Overlapping requests
  // ---------------------------------------------------------------------------

  /** Two adds in flight at once both land, in the order their replies
      arrive, because each appends to the list current at that moment; and
      the first to settle already clears `isLoading` while the second is
      still pending. */
  lemma OverlappingAddsBothLand(s: StoreState, first: ServerMemo, second: ServerMemo)
    ensures var mid := AddFinish(Begin(Begin(s)), Some(first));
      && !mid.isLoading
      && AddFinish(Begin(mid), Some(second)).memos == s.memos + [FromServer(first), FromServer(second)]
  {
    var mid := AddFinish(Begin(Begin(s)), Some(first));
    assert mid.memos == s.memos + [FromServer(first)];
  }

  /** A delete whose reply arrives after an add of the same id removes the
      added memo; one whose reply arrives before leaves it in the list. */
  lemma DeleteRacesAdd(s: StoreState, m: ServerMemo, id: string)
    requires m.id == Some(id)
    ensures FromServer(m) !in DeleteFinish(AddFinish(Begin(Begin(s)), Some(m)), id, true).memos
    ensures FromServer(m) in AddFinish(DeleteFinish(Begin(Begin(s)), id, true), Some(m)).memos
  {
    var late := AddFinish(DeleteFinish(Begin(Begin(s)), id, true), Some(m)).memos;
    assert late[|late| - 1] == FromServer(m);
  }

  /** A fetch that settles after an add discards it: the list is the fetched
      one whatever happened in between. */
  lemma LateFetchDiscardsAdd(s: StoreState, m: ServerMemo, data: seq<ServerMemo>)
    ensures FetchFinish(AddFinish(Begin(Begin(s)), Some(m)), Some(data)).memos == FetchedList(data)
  {
  }

  // ---------------------------------------------------------------------------
  // Invariants over all actions
  // ---------------------------------------------------------------------------

  /** Every action keeps the whole list online and ends with `isLoading`
      false, on success and failure alike. Each finish step keeps the list
      online from any current state, so the same holds when requests
      overlap. */
  lemma ActionsKeepStoreInvariant(s: StoreState, fetched: Option<seq<ServerMemo>>, added: Option<ServerMemo>,
                                  target: Option<string>, updated: Option<ServerMemo>, id: string, resolved: bool)
    requires AllOnline(s.memos)
    ensures AllOnline(FetchMemos(s, fetched).memos) && !FetchMemos(s, fetched).isLoading
    ensures AllOnline(AddMemo(s, added).memos) && !AddMemo(s, added).isLoading
    ensures AllOnline(UpdateMemo(s, target, updated).memos) && !UpdateMemo(s, target, updated).isLoading
    ensures AllOnline(DeleteMemo(s, id, resolved).memos) && !DeleteMemo(s, id, resolved).isLoading
  {
    FinishesKeepOnline(s, fetched, added, target, updated, id, resolved);
  }

  /** Each finish step, applied to any current state, keeps the list online. */
  lemma FinishesKeepOnline(current: StoreState, fetched: Option<seq<ServerMemo>>, added: Option<ServerMemo>,
                           target: Option<string>, updated: Option<ServerMemo>, id: string, resolved: bool)
    requires AllOnline(current.memos)
    ensures AllOnline(FetchFinish(current, fetched).memos)
    ensures AllOnline(AddFinish(current, added).memos)
    ensures AllOnline(UpdateFinish(current, target, updated).memos)
    ensures AllOnline(DeleteFinish(current, id, resolved).memos)
  {
    var d := DeleteFinish(current, id, resolved).memos;
    forall i | 0 <= i < |d| ensures !d[i].isOffline {
      assert d[i] in d;
    }
  }

  // ---------------------------------------------------------------------------
  // The UUID fallback
  // ---------------------------------------------------------------------------

  /** The version-4 template that `generateUUID` fills when
      `crypto.randomUUID` is unavailable. */
  const UuidTemplate := "xxxxxxxx-xxxx-4xxx-yxxx-xxxxxxxxxxxx"

  /** The template's character at each position. */
  function TemplateAt(i: nat): char
  {
    if i == 8 || i == 13 || i == 18 || i == 23 then '-' else if i == 14 then '4' else if i == 19 then 'y' else 'x'
  }

  lemma TemplateShape()
    ensures |UuidTemplate| == 36
    ensures forall i :: 0 <= i < 36 ==> UuidTemplate[i] == TemplateAt(i)
  {
  }

  /** A random value below 16 for every template position; only those at
      `x` and `y` are used. */
  predicate RandomDigits(rs: seq<nat>)
  {
    |rs| == |UuidTemplate| && forall i :: 0 <= i < |rs| ==> rs[i] < 16
  }

  /** An `x` prints the random value, a `y` prints `r & 0x3 | 0x8`, anything
      else is kept. */
  function UuidChar(t: char, r: nat): char
    requires r < 16
  {
    if t == 'x' then HexDigit(r) else if t == 'y' then HexDigit(r % 4 + 8) else t
  }

  function GenerateUuid(rs: seq<nat>): (u: string)
    requires RandomDigits(rs)
    ensures |u| == 36
    ensures u[8] == '-' && u[13] == '-' && u[18] == '-' && u[23] == '-'
    ensures u[14] == '4'
    ensures u[19] == '8' || u[19] == '9' || u[19] == 'a' || u[19] == 'b'
    ensures forall i :: 0 <= i < 36 && TemplateAt(i) != '-' ==> IsLowerHex(u[i])
  {
    TemplateShape();
    seq(|UuidTemplate|, i requires 0 <= i < |UuidTemplate| => UuidChar(UuidTemplate[i], rs[i]))
  }

  /** The random values can be read back from the UUID: each `x` position
      holds its value and the `y` position its low two bits. */
  lemma UuidRecoversDigits(rs: seq<nat>)
    requires RandomDigits(rs)
    ensures var u := GenerateUuid(rs);
      && (forall i :: 0 <= i < 36 && UuidTemplate[i] == 'x' ==> IsLowerHex(u[i]) && HexValue(u[i]) == rs[i])
      && IsLowerHex(u[19]) && HexValue(u[19]) == rs[19] % 4 + 8
  {
    var u := GenerateUuid(rs);
    TemplateShape();
  }

  /** Two draws give the same UUID exactly when they agree at every `x`
      position and in the low two bits at the `y` position. */
  lemma UuidInjective(a: seq<nat>, b: seq<nat>)
    requires RandomDigits(a) && RandomDigits(b)
    ensures GenerateUuid(a) == GenerateUuid(b) <==>
      (forall i :: 0 <= i < 36 && UuidTemplate[i] == 'x' ==> a[i] == b[i]) && a[19] % 4 == b[19] % 4
  {
    TemplateShape();
    var ua, ub := GenerateUuid(a), GenerateUuid(b);
    if ua == ub {
      UuidRecoversDigits(a);
      UuidRecoversDigits(b);
    }
    if (forall i :: 0 <= i < 36 && UuidTemplate[i] == 'x' ==> a[i] == b[i]) && a[19] % 4 == b[19] % 4 {
      forall i | 0 <= i < 36 ensures ua[i] == ub[i] {
        assert ua[i] == UuidChar(UuidTemplate[i], a[i]);
        assert ub[i] == UuidChar(UuidTemplate[i], b[i]);
      }
    }
  }
}

=== FILE: next_config.dfy ===
/**
  The Next.js configuration of `frontend/next.config.js`: the app version
  read from the `.env` file's `NEXT_PUBLIC_APP_VERSION` line, and the
  development/production choice of base path, asset prefix and API URL. The
  file's contents are an input (`None` when it is missing or unreadable), as
  is `NODE_ENV`.
 */
module NextConfig {
  import opened Optional
  import opened Strings

  // ---------------------------------------------------------------------------
  // Lines, as the `m` flag of a regular expression sees them
  // ---------------------------------------------------------------------------

  /** The ECMAScript line terminators: `^` and `$` match next to them, `.`
      does not match them. */
  predicate IsLineTerminator(c: char)
  {
    c == '\n' || c == '\r' || c == '\U{2028}' || c == '\U{2029}'
  }

  predicate SingleLine(s: string)
  {
    forall i :: 0 <= i < |s| ==> !IsLineTerminator(s[i])
  }

  /** The length of the first line. */
  function LineEnd(s: string): (n: nat)
    ensures n <= |s| && SingleLine(s[..n])
    ensures n < |s| ==> IsLineTerminator(s[n])
    decreases |s|
  {
    if |s| == 0 || IsLineTerminator(s[0]) then 0
    else
      assert s[1..][..LineEnd(s[1..])] == s[1..1 + LineEnd(s[1..])];
      1 + LineEnd(s[1..])
  }

  /** The text cut at every line terminator: a text without one is a single
      line, and a text with one gives several (`LinesOfLineThen` says which). */
  function Lines(s: string): (ls: seq<string>)
    ensures |ls| >= 1
    ensures forall i :: 0 <= i < |ls| ==> SingleLine(ls[i])
    ensures SingleLine(s) <==> ls == [s]
    ensures !SingleLine(s) ==> |ls| >= 2
    decreases |s|
  {
    var e := LineEnd(s);
    if e == |s| then [s]
    else
      assert !SingleLine(s) && s != s[..e];
      [s[..e]] + Lines(s[e + 1..])
  }

  /** A single line ends at the end of the text. */
  lemma {:induction false} LineEndOfSingle(s: string)
    requires SingleLine(s)
    ensures LineEnd(s) == |s|
    decreases |s|
  {
    if |s| > 0 {
      LineEndOfSingle(s[1..]);
    }
  }

  /** A line followed by a terminator is the first line. */
  lemma {:induction false} LinesOfLineThen(line: string, t: char, rest: string)
    requires SingleLine(line) && IsLineTerminator(t)
    ensures Lines(line + [t] + rest) == [line] + Lines(rest)
    decreases |line|
  {
    var s := line + [t] + rest;
    LineEndAt(line, t, rest);
    assert s[..|line|] == line && s[|line| + 1..] == rest;
  }

  lemma {:induction false} LineEndAt(line: string, t: char, rest: string)
    requires SingleLine(line) && IsLineTerminator(t)
    ensures LineEnd(line + [t] + rest) == |line|
    decreases |line|
  {
    var s := line + [t] + rest;
    if |line| > 0 {
      assert s[1..] == line[1..] + [t] + rest;
      LineEndAt(line[1..], t, rest);
    }
  }

  // ---------------------------------------------------------------------------
  // The app version
  // ---------------------------------------------------------------------------

  const VersionKey := "NEXT_PUBLIC_APP_VERSION="
  const UnknownVersion := "unknown"

  /** The position of the first line that begins with the key, if any. */
  function FirstKeyedIndex(lines: seq<string>, key: string): (r: Option<nat>)
    ensures r.None? <==> forall i :: 0 <= i < |lines| ==> !StartsWith(lines[i], key)
    ensures r.Some? ==> (
      && r.value < |lines| && StartsWith(lines[r.value], key)
      && forall j :: 0 <= j < r.value ==> !StartsWith(lines[j], key))
    decreases |lines|
  {
    if |lines| == 0 then None
    else if StartsWith(lines[0], key) then Some(0)
    else
      match FirstKeyedIndex(lines[1..], key)
      case None => None
      case Some(i) =>
        assert forall j :: 1 <= j < i + 1 ==> lines[j] == lines[1..][j - 1];
        Some(i + 1)
  }

  /** The rest of the first line that begins with the key, if any. */
  function FirstKeyed(lines: seq<string>, key: string): (r: Option<string>)
    ensures r.None? <==> forall i :: 0 <= i < |lines| ==> !StartsWith(lines[i], key)
    ensures r.Some? ==> exists i :: (
      && 0 <= i < |lines| && StartsWith(lines[i], key) && r.value == lines[i][|key|..]
      && forall j :: 0 <= j < i ==> !StartsWith(lines[j], key))
  {
    match FirstKeyedIndex(lines, key)
    case None => None
    case Some(i) => Some(lines[i][|key|..])
  }

  /** `envContent.match(/^NEXT_PUBLIC_APP_VERSION=(.*)$/m)[1].trim()`, or
      `unknown` when the file is absent or no line begins with the key. */
  function AppVersion(envFile: Option<string>): (v: string)
    ensures envFile.None? ==> v == UnknownVersion
    ensures envFile.Some? && FirstKeyed(Lines(envFile.value), VersionKey).None? ==> v == UnknownVersion
    ensures envFile.Some? && FirstKeyed(Lines(envFile.value), VersionKey).Some? ==>
      v == Trim(FirstKeyed(Lines(envFile.value), VersionKey).value)
  {
    match envFile
    case None => UnknownVersion
    case Some(text) =>
      match FirstKeyed(Lines(text), VersionKey)
      case None => UnknownVersion
      case Some(rest) => Trim(rest)
  }

  /** A file whose first line sets the version yields that value trimmed,
      whatever follows. */
  lemma VersionFromFirstLine(value: string, t: char, rest: string)
    requires SingleLine(value) && IsLineTerminator(t)
    ensures AppVersion(Some(VersionKey + value + [t] + rest)) == Trim(value)
  {
    var line := VersionKey + value;
    assert SingleLine(VersionKey);
    assert SingleLine(line);
    LinesOfLineThen(line, t, rest);
    assert line[..|VersionKey|] == VersionKey && line[|VersionKey|..] == value;
  }

  /** The pattern is anchored at the start of a line: a one-line file with
      blanks before the key does not set the version. */
  lemma IndentedKeyDoesNotMatch(blank: char, value: string)
    requires IsWhitespace(blank) && !IsLineTerminator(blank) && SingleLine(value)
    ensures AppVersion(Some([blank] + VersionKey + value)) == UnknownVersion
  {
    var s := [blank] + VersionKey + value;
    assert SingleLine(VersionKey);
    assert SingleLine(s);
    LineEndOfSingle(s);
    assert Lines(s) == [s];
    assert s[0] != VersionKey[0];
  }

  /** Only the first keyed line counts. */
  lemma FirstKeyedLineWins(before: seq<string>, line: string, after: seq<string>)
    requires forall i :: 0 <= i < |before| ==> !StartsWith(before[i], VersionKey)
    requires StartsWith(line, VersionKey)
    ensures FirstKeyed(before + [line] + after, VersionKey) == Some(line[|VersionKey|..])
  {
    var all := before + [line] + after;
    assert all[|before|] == line;
    assert forall j :: 0 <= j < |before| ==> all[j] == before[j];
    assert FirstKeyedIndex(all, VersionKey) == Some(|before|);
  }

  // ---------------------------------------------------------------------------
  // Development and production settings
  // ---------------------------------------------------------------------------

  datatype Config = Config(
    isDev: bool,
    basePath: string,
    assetPrefix: string,
    envBasePath: string,
    envAppVersion: string,
    envApiUrl: string)

  const ProductionBasePath := "/easy-memo"
  const DevApiUrl := "http://localhost:3005/api"
  const ProductionApiUrl := "https://junny.dyndns.org:3008/api"

  /** The exported configuration for a `NODE_ENV` and a `.env` file. */
  function MakeConfig(nodeEnv: Option<string>, envFile: Option<string>): (c: Config)
    ensures c.isDev <==> nodeEnv != Some("production")
    ensures c.isDev ==> c.basePath == "" && c.assetPrefix == "" && c.envApiUrl == DevApiUrl
    ensures !c.isDev ==>
      (c.basePath == ProductionBasePath && c.assetPrefix == ProductionBasePath + "/" && c.envApiUrl == ProductionApiUrl)
    ensures c.envBasePath == c.basePath
    ensures c.envAppVersion == AppVersion(envFile)
  {
    var isDev := nodeEnv != Some("production");
    var basePath := if isDev then "" else ProductionBasePath;
    Config(isDev, basePath, if isDev then "" else "/easy-memo/", basePath, AppVersion(envFile),
           if isDev then DevApiUrl else ProductionApiUrl)
  }

  /** The asset prefix is always the base path, plus a trailing slash in
      production. */
  lemma AssetPrefixFollowsBasePath(nodeEnv: Option<string>, envFile: Option<string>)
    ensures var c := MakeConfig(nodeEnv, envFile);
      c.assetPrefix == (if c.basePath == "" then "" else c.basePath + "/")
  {
  }
}

=== FILE: optional.dfy ===
/** The JavaScript values `undefined`/`null` versus a present value. */
module Optional {

  datatype Option<+T> = None | Some(value: T) {

    /** The present value, or `default` when absent (JavaScript's `x ?? default`). */
    function GetOr(default: T): T
    {
      match this
      case Some(v) => v
      case None => default
    }
  }
}

=== FILE: password_reset.dfy ===
/**
  The password-reset request page of
  `frontend/src/app/password-reset-request/page.tsx`: the submit handler's
  transitions of message, error, loading flag and button label. The request's
  result is an input outcome.
 */
module PasswordReset {
  import opened Optional
  import opened Strings

  datatype ResetView = ResetView(email: string, message: string, error: string, isLoading: bool, buttonText: string)

  /** How the request ended: an `ok` response, a non-`ok` response with its
      `message`, or a thrown value. */
  datatype ResetOutcome = Sent | Refused(serverMessage: Option<string>) | Threw(errorMessage: Option<string>)

  /** The view after the synchronous part of the handler, and whether it goes
      on to send the request. */
  datatype Submitted = Submitted(view: ResetView, sends: bool)

  const LabelIdle := "요청"
  const LabelPending := "요청 중..."
  const LabelDone := "요청 완료"
  const MsgBadEmail := "유효한 이메일 주소를 입력하세요."
  const MsgSent := "비밀번호 재설정 이메일이 전송되었습니다. 이메일을 확인하세요."
  const MsgRequestFailed := "비밀번호 재설정 요청에 실패했습니다."
  const MsgUnknownError := "오류가 발생했습니다."

  const Initial := ResetView("", "", "", false, LabelIdle)

  /** The button's `disabled`. */
  predicate ButtonDisabled(v: ResetView)
  {
    v.isLoading
  }

  /** Typing into the email field. */
  function EditEmail(v: ResetView, email: string): (r: ResetView)
    ensures r.email == email && r.(email := v.email) == v
  {
    v.(email := email)
  }

  /** The handler up to its `await`: message and error are cleared, loading
      starts and the label turns to pending; an email without `@` then shows
      its error and returns, still loading, so the button stays disabled. */
  function Submit(v: ResetView): (r: Submitted)
    ensures r.view.isLoading && r.view.buttonText == LabelPending && r.view.message == "" && r.view.email == v.email
    ensures r.sends <==> Contains(v.email, "@")
    ensures r.view.error == (if r.sends then "" else MsgBadEmail)
  {
    var started := v.(message := "", error := "", isLoading := true, buttonText := LabelPending);
    if !Contains(v.email, "@") then Submitted(started.(error := MsgBadEmail), false)
    else Submitted(started, true)
  }

  /** The rest of the handler: success shows the sent message and the done
      label, failure shows the error and restores the idle label, and loading
      ends either way. */
  function Settle(v: ResetView, outcome: ResetOutcome): (r: ResetView)
    ensures !r.isLoading && r.email == v.email
    ensures outcome.Sent? ==> r.message == MsgSent && r.buttonText == LabelDone && r.error == v.error
    ensures !outcome.Sent? ==> r.buttonText == LabelIdle && r.message == v.message
    ensures outcome.Refused? ==>
      (r.error == if outcome.serverMessage.None? || outcome.serverMessage == Some("") then MsgRequestFailed
                  else outcome.serverMessage.value)
    ensures outcome.Threw? ==> r.error == outcome.errorMessage.GetOr(MsgUnknownError)
  {
    var done := v.(isLoading := false);
    match outcome
    case Sent => done.(message := MsgSent, buttonText := LabelDone)
    case Refused(m) =>
      done.(error := if m.None? || m.value == "" then MsgRequestFailed else m.value, buttonText := LabelIdle)
    case Threw(m) => done.(error := m.GetOr(MsgUnknownError), buttonText := LabelIdle)
  }

  /** A complete submission: the synchronous part, then the settling when the
      request was sent. */
  function Request(v: ResetView, outcome: ResetOutcome): ResetView
  {
    var s := Submit(v);
    if s.sends then Settle(s.view, outcome) else s.view
  }

  /** The page's states: loading exactly while the label is pending, the
      label one of the three, and never a message and an error at once. */
  predicate Consistent(v: ResetView)
  {
    && (v.isLoading <==> v.buttonText == LabelPending)
    && v.buttonText in {LabelIdle, LabelPending, LabelDone}
    && (v.message == "" || v.error == "")
  }

  /** The initial page is consistent and every transition keeps it so. */
  lemma TransitionsKeepConsistent(v: ResetView, email: string, outcome: ResetOutcome)
    requires Consistent(v)
    ensures Consistent(Initial)
    ensures Consistent(EditEmail(v, email))
    ensures Consistent(Submit(v).view)
    ensures Submit(v).sends ==> Consistent(Settle(Submit(v).view, outcome))
    ensures Consistent(Request(v, outcome))
  {
  }

  /** After a request that was sent, the button is enabled again; after an
      email without `@` it is disabled, and since only that button submits,
      the page can never submit again. */
  lemma LoadingEndsOnlyAfterSending(v: ResetView, outcome: ResetOutcome)
    ensures !ButtonDisabled(Request(v, outcome)) <==> Contains(v.email, "@")
    ensures !Contains(v.email, "@") ==>
      Request(v, outcome).buttonText == LabelPending && Request(v, outcome).error == MsgBadEmail
  {
  }

  /** Whatever email was typed, an address with `@` in it is sent. */
  lemma AtSignIsEnough(local: string, domain: string)
    ensures Submit(ResetView(local + "@" + domain, "", "", false, LabelIdle)).sends
  {
    ContainsInfix(local, "@", domain);
  }
}

=== FILE: signup.dfy ===
/**
  The sign-up page of `frontend/src/app/signup/page.tsx`: the email sign-up
  handler's validation ladder and request body, how the request's outcome
  settles the form, the Google button's placeholder handler, and the submit
  button's disabled predicate. The request itself is an input outcome.
 */
module SignUp {
  import opened Optional
  import opened Strings

  datatype SignUpForm = SignUpForm(email: string, password: string, confirm: string, isLoading: bool, error: string)

  /** The JSON body posted to `/users`. */
  datatype SignUpRequest = SignUpRequest(email: string, password: string)

  /** The form right after the submit handler's synchronous part, and the body
      it goes on to post when validation passed. */
  datatype Submission = Submission(form: SignUpForm, request: Option<SignUpRequest>)

  /** How the request part ended: no API URL configured, an `ok` response, a
      non-`ok` response with its `message`, or a thrown value. */
  datatype SignUpOutcome =
    | MissingApiUrl
    | Created
    | Refused(serverMessage: Option<string>)
    | Threw(errorMessage: Option<string>)

  /** The settled form and where the router was sent, if anywhere. */
  datatype Settled = Settled(form: SignUpForm, navigateTo: Option<string>)

  const MsgBlank := "이메일과 패스워드를 입력해주세요."
  const MsgMismatch := "패스워드가 일치하지 않습니다."
  const MsgTooShort := "패스워드는 최소 6자 이상이어야 합니다."
  const MsgNoApiUrl := "API URL이 설정되지 않았습니다."
  const MsgSignUpFailed := "회원가입에 실패했습니다."
  const MsgGoogleNotReady := "구글 로그인 기능은 준비 중입니다."
  const SuccessRoute := "/?signup=success"
  const MinPasswordLength := 6

  /** The first failing check, in the handler's order. */
  function ValidationError(email: string, password: string, confirm: string): (r: Option<string>)
    ensures Trim(email) == "" || Trim(password) == "" ==> r == Some(MsgBlank)
    ensures Trim(email) != "" && Trim(password) != "" && password != confirm ==> r == Some(MsgMismatch)
    ensures Trim(email) != "" && Trim(password) != "" && password == confirm && |password| < MinPasswordLength
      ==> r == Some(MsgTooShort)
    ensures r.None? <==>
      Trim(email) != "" && Trim(password) != "" && password == confirm && |password| >= MinPasswordLength
  {
    if Trim(email) == "" || Trim(password) == "" then Some(MsgBlank)
    else if password != confirm then Some(MsgMismatch)
    else if |password| < MinPasswordLength then Some(MsgTooShort)
    else None
  }

  /** `handleEmailSignUp` up to its first `await`: the error is cleared, then
      either a check fails (its message is shown, nothing is posted, loading
      is untouched) or loading starts and the body is built from the trimmed
      email and the password as typed. */
  function SubmitEmail(f: SignUpForm): (r: Submission)
    ensures r.form.email == f.email && r.form.password == f.password && r.form.confirm == f.confirm
    ensures r.request.None? <==> ValidationError(f.email, f.password, f.confirm).Some?
    ensures r.request.None? ==>
      (r.form.isLoading == f.isLoading && r.form.error == ValidationError(f.email, f.password, f.confirm).value)
    ensures r.request.Some? ==>
      (r.form.isLoading && r.form.error == "" && r.request.value == SignUpRequest(Trim(f.email), f.password))
  {
    var cleared := f.(error := "");
    match ValidationError(f.email, f.password, f.confirm)
    case Some(msg) => Submission(cleared.(error := msg), None)
    case None => Submission(cleared.(isLoading := true), Some(SignUpRequest(Trim(f.email), f.password)))
  }

  /** A body that gets posted carries an email with no surrounding blanks,
      the password exactly as typed and confirmed, at least six characters
      long. */
  lemma PostedBodyIsWellFormed(f: SignUpForm)
    requires SubmitEmail(f).request.Some?
    ensures var body := SubmitEmail(f).request.value;
      && Trim(body.email) == body.email && body.email != ""
      && body.password == f.password == f.confirm && |body.password| >= MinPasswordLength
  {
    TrimIdempotent(f.email);
  }

  /** The rest of the handler once the request has settled: success navigates
      to the sign-in page, failure shows a message, and loading always ends. */
  function Settle(f: SignUpForm, outcome: SignUpOutcome): (r: Settled)
    ensures !r.form.isLoading
    ensures r.navigateTo.Some? <==> outcome.Created?
    ensures outcome.Created? ==> r == Settled(f.(isLoading := false), Some(SuccessRoute))
    ensures outcome.MissingApiUrl? ==> r.form.error == MsgNoApiUrl
    ensures outcome.Refused? ==>
      (r.form.error == if outcome.serverMessage.None? || outcome.serverMessage == Some("") then MsgSignUpFailed
                       else outcome.serverMessage.value)
    ensures outcome.Threw? ==> r.form.error == outcome.errorMessage.GetOr(MsgSignUpFailed)
    ensures r.form.(isLoading := f.isLoading, error := f.error) == f
  {
    var done := f.(isLoading := false);
    match outcome
    case MissingApiUrl => Settled(done.(error := MsgNoApiUrl), None)
    case Created => Settled(done, Some(SuccessRoute))
    case Refused(m) =>
      Settled(done.(error := if m.None? || m.value == "" then MsgSignUpFailed else m.value), None)
    case Threw(m) => Settled(done.(error := m.GetOr(MsgSignUpFailed)), None)
  }

  /** `handleGoogleSignUp`: loading starts, then the placeholder message is
      shown and loading ends. */
  function GoogleSignUp(f: SignUpForm): (r: SignUpForm)
    ensures r.error == MsgGoogleNotReady && !r.isLoading
    ensures r.email == f.email && r.password == f.password && r.confirm == f.confirm
  {
    var started := f.(isLoading := true, error := "");
    started.(error := MsgGoogleNotReady, isLoading := false)
  }

  /** The submit button's `disabled`. */
  predicate SubmitDisabled(f: SignUpForm)
  {
    f.isLoading || Trim(f.email) == "" || Trim(f.password) == "" || Trim(f.confirm) == ""
  }

  /** Through an enabled button the blank-field check never fires, and the
      form is idle; the button is enabled exactly for non-blank fields when
      idle. */
  lemma EnabledButtonPassesBlankCheck(f: SignUpForm)
    ensures !SubmitDisabled(f) <==>
      !f.isLoading && !IsBlank(f.email) && !IsBlank(f.password) && !IsBlank(f.confirm)
    ensures !SubmitDisabled(f) ==> SubmitEmail(f).form.error != MsgBlank
  {
    BlankIffTrimEmpty(f.email);
    BlankIffTrimEmpty(f.password);
    BlankIffTrimEmpty(f.confirm);
  }
}

=== FILE: strings.dfy ===
/**
  The JavaScript string primitives the application relies on, stated over
  `seq<char>`: `trim`, `toLowerCase`, `startsWith`, `includes`, `indexOf`,
  `split`/`join` on one separator character, `replace(/_/g, '.')`, decimal
  printing of numbers and `padStart`.
 */
module Strings {
  import opened Optional

  // ---------------------------------------------------------------------------
  // Whitespace and trimming
  // ---------------------------------------------------------------------------

  /** The characters `String.prototype.trim` strips and the regular-expression
      class `\s` matches: ECMAScript WhiteSpace plus LineTerminator. */
  predicate IsWhitespace(c: char)
  {
    || c == ' ' || c == '\t' || c == '\n' || c == '\U{000B}' || c == '\U{000C}' || c == '\r'
    || c == '\U{00A0}' || c == '\U{1680}' || ('\U{2000}' <= c <= '\U{200A}')
    || c == '\U{2028}' || c == '\U{2029}' || c == '\U{202F}' || c == '\U{205F}'
    || c == '\U{3000}' || c == '\U{FEFF}'
  }

  /** A string that is falsy once trimmed: `!s.trim()`. */
  predicate IsBlank(s: string)
  {
    forall i :: 0 <= i < |s| ==> IsWhitespace(s[i])
  }

  /** Number of leading whitespace characters. */
  function LeadingSpace(s: string): (n: nat)
    ensures n <= |s|
    ensures forall i :: 0 <= i < n ==> IsWhitespace(s[i])
    ensures n < |s| ==> !IsWhitespace(s[n])
    decreases |s|
  {
    if |s| > 0 && IsWhitespace(s[0]) then 1 + LeadingSpace(s[1..]) else 0
  }

  /** Number of trailing whitespace characters. */
  function TrailingSpace(s: string): (n: nat)
    ensures n <= |s|
    ensures forall i :: |s| - n <= i < |s| ==> IsWhitespace(s[i])
    ensures n < |s| ==> !IsWhitespace(s[|s| - n - 1])
    decreases |s|
  {
    if |s| > 0 && IsWhitespace(s[|s| - 1]) then 1 + TrailingSpace(s[..|s| - 1]) else 0
  }

  /** `s.trim()`: drops leading, then trailing whitespace. */
  function Trim(s: string): (r: string)
    ensures LeadingSpace(s) + |r| <= |s|
    ensures r == s[LeadingSpace(s)..LeadingSpace(s) + |r|]
    ensures forall i :: LeadingSpace(s) + |r| <= i < |s| ==> IsWhitespace(s[i])
    ensures |r| > 0 ==> !IsWhitespace(r[0]) && !IsWhitespace(r[|r| - 1])
  {
    var rest := s[LeadingSpace(s)..];
    rest[..|rest| - TrailingSpace(rest)]
  }

  /** A string is blank exactly when trimming empties it. */
  lemma BlankIffTrimEmpty(s: string)
    ensures IsBlank(s) <==> Trim(s) == ""
  {
    if Trim(s) == "" {
      var k := LeadingSpace(s);
      forall i | 0 <= i < |s| ensures IsWhitespace(s[i]) {
        if i >= k {
          assert k + |Trim(s)| <= i;
        }
      }
    } else {
      assert !IsWhitespace(s[LeadingSpace(s)]);
    }
  }

  /** A trimmed string is its own trim. */
  lemma TrimIdempotent(s: string)
    ensures Trim(Trim(s)) == Trim(s)
  {
    var t := Trim(s);
    if |t| > 0 {
      assert LeadingSpace(t) == 0;
      assert TrailingSpace(t) == 0;
    }
  }

  /** Trimming a string with no whitespace at either end changes nothing. */
  lemma TrimOfTrimmed(s: string)
    requires |s| > 0 ==> !IsWhitespace(s[0]) && !IsWhitespace(s[|s| - 1])
    ensures Trim(s) == s
  {
    if |s| > 0 {
      assert LeadingSpace(s) == 0;
      assert TrailingSpace(s) == 0;
    }
  }

  // ---------------------------------------------------------------------------
  // Case
  // ---------------------------------------------------------------------------

  /** `toLowerCase` on one character, for the characters whose lower case is
      a single ASCII letter: `A`-`Z`, and the Kelvin sign U+212A, which
      becomes `k`. Other letters are kept as they are. */
  function LowerChar(c: char): (r: char)
    ensures 'a' <= r <= 'z' <==> 'a' <= c <= 'z' || 'A' <= c <= 'Z' || c == '\U{212A}'
  {
    if 'A' <= c <= 'Z' then (c as int + 32) as char
    else if c == '\U{212A}' then 'k'
    else c
  }

  /** `s.toLowerCase()`. */
  function ToLower(s: string): (r: string)
    ensures |r| == |s|
    ensures forall i :: 0 <= i < |s| ==> r[i] == LowerChar(s[i])
  {
    seq(|s|, i requires 0 <= i < |s| => LowerChar(s[i]))
  }

  /** Lower-casing twice is lower-casing once. */
  lemma ToLowerIdempotent(s: string)
    ensures ToLower(ToLower(s)) == ToLower(s)
  {
  }

  /** The case folding of a JavaScript regular expression with the `i` flag
      and without the `u` flag, for an ASCII pattern: only `A`-`Z` fold, since
      a character from U+0080 up never matches an ASCII one (the Kelvin sign
      does not match `k`). */
  function AsciiLowerChar(c: char): (r: char)
    ensures 'A' <= c <= 'Z' ==> r != c && LowerChar(c) == r
    ensures !('A' <= c <= 'Z') ==> r == c
  {
    if 'A' <= c <= 'Z' then (c as int + 32) as char else c
  }

  /** `AsciiLowerChar` on every character. */
  function AsciiLower(s: string): (r: string)
    ensures |r| == |s|
    ensures forall i :: 0 <= i < |s| ==> r[i] == AsciiLowerChar(s[i])
  {
    seq(|s|, i requires 0 <= i < |s| => AsciiLowerChar(s[i]))
  }

  /** The two foldings differ only on the Kelvin sign. */
  lemma AsciiLowerAgrees(c: char)
    ensures c != '\U{212A}' <==> AsciiLowerChar(c) == LowerChar(c)
  {
  }

  // ---------------------------------------------------------------------------
  // Substrings
  // ---------------------------------------------------------------------------

  /** `s.startsWith(p)`. */
  predicate StartsWith(s: string, p: string)
  {
    |p| <= |s| && s[..|p|] == p
  }

  /** `s.includes(t)`: `t` occurs in `s` at some offset. */
  predicate Contains(s: string, t: string)
    decreases |s|
  {
    StartsWith(s, t) || (|s| > 0 && Contains(s[1..], t))
  }

  /** `s.indexOf(t)`, with `None` for -1: the first offset at which `t` occurs. */
  function IndexOf(s: string, t: string): (r: Option<nat>)
    ensures r.Some? ==> r.value + |t| <= |s| && StartsWith(s[r.value..], t)
    ensures r.Some? ==> forall j :: 0 <= j < r.value ==> !StartsWith(s[j..], t)
    ensures r.None? <==> !Contains(s, t)
    decreases |s|
  {
    if StartsWith(s, t) then Some(0)
    else if |s| == 0 then None
    else
      match IndexOf(s[1..], t)
      case None => None
      case Some(k) =>
        assert forall j :: 1 <= j <= |s| ==> s[j..] == s[1..][j - 1..];
        Some(k + 1)
  }

  /** An occurrence at any offset makes `includes` true. */
  lemma ContainsAt(s: string, t: string, i: nat)
    requires i <= |s| && StartsWith(s[i..], t)
    ensures Contains(s, t)
    decreases i
  {
    if i > 0 {
      assert s[1..][i - 1..] == s[i..];
      ContainsAt(s[1..], t, i - 1);
    }
  }

  /** When `t` does not occur in `s`, it starts at no offset of `s`. */
  lemma {:induction false} NotContainsAt(s: string, t: string, i: nat)
    requires i <= |s| && !Contains(s, t)
    ensures !StartsWith(s[i..], t)
    decreases i
  {
    if i == 0 {
      assert s[0..] == s;
    } else {
      assert s[1..][i - 1..] == s[i..];
      NotContainsAt(s[1..], t, i - 1);
    }
  }

  /** `includes` holds exactly when some offset starts an occurrence. */
  lemma ContainsIffOccurs(s: string, t: string)
    ensures Contains(s, t) <==> exists i :: 0 <= i <= |s| && StartsWith(s[i..], t)
  {
    var r := IndexOf(s, t);
    if r.Some? {
      assert StartsWith(s[r.value..], t);
    }
    forall i | 0 <= i <= |s| && StartsWith(s[i..], t) ensures Contains(s, t) {
      ContainsAt(s, t, i);
    }
  }

  /** `t` occurs in any string that has it as an infix. */
  lemma ContainsInfix(a: string, t: string, b: string)
    ensures Contains(a + t + b, t)
  {
    assert (a + t + b)[|a|..] == t + b;
    ContainsAt(a + t + b, t, |a|);
  }

  /** An occurrence survives lower-casing both strings. */
  lemma ContainsLowered(s: string, t: string)
    requires Contains(s, t)
    ensures Contains(ToLower(s), ToLower(t))
  {
    ContainsIffOccurs(s, t);
    var i :| 0 <= i <= |s| && StartsWith(s[i..], t);
    assert ToLower(s)[i..][..|t|] == ToLower(t) by {
      forall k | 0 <= k < |t| ensures ToLower(s)[i..][..|t|][k] == ToLower(t)[k] {
        assert s[i..][..|t|][k] == t[k];
      }
    }
    ContainsAt(ToLower(s), ToLower(t), i);
  }

  /** Every character of an occurring substring is a character of the string. */
  lemma {:induction false} ContainsKeepsChars(s: string, t: string, c: char)
    requires Contains(s, t) && c in t
    ensures c in s
    decreases |s|
  {
    if StartsWith(s, t) {
      var k :| 0 <= k < |t| && t[k] == c;
      assert s[k] == s[..|t|][k];
    } else {
      ContainsKeepsChars(s[1..], t, c);
      var k :| 0 <= k < |s[1..]| && s[1..][k] == c;
      assert s[k + 1] == c;
    }
  }

  /** ASCII folding also keeps substrings. */
  lemma ContainsAsciiLowered(s: string, t: string)
    requires Contains(s, t)
    ensures Contains(AsciiLower(s), AsciiLower(t))
  {
    ContainsIffOccurs(s, t);
    var i :| 0 <= i <= |s| && StartsWith(s[i..], t);
    assert AsciiLower(s)[i..][..|t|] == AsciiLower(t) by {
      forall k | 0 <= k < |t| ensures AsciiLower(s)[i..][..|t|][k] == AsciiLower(t)[k] {
        assert s[i..][..|t|][k] == t[k];
      }
    }
    ContainsAt(AsciiLower(s), AsciiLower(t), i);
  }

  // ---------------------------------------------------------------------------
  // Split and join on a separator character
  // ---------------------------------------------------------------------------

  /** The first position of character `c` in `s`. */
  function FindChar(s: string, c: char): (r: Option<nat>)
    ensures r.Some? ==> r.value < |s| && s[r.value] == c && c !in s[..r.value]
    ensures r.None? ==> c !in s
    decreases |s|
  {
    if |s| == 0 then None
    else if s[0] == c then Some(0)
    else
      match FindChar(s[1..], c)
      case None => None
      case Some(k) =>
        assert s[..k + 1] == [s[0]] + s[1..][..k];
        Some(k + 1)
  }

  /** The first occurrence of `c` is the one with no `c` before it. */
  lemma {:induction false} FindCharAt(s: string, c: char, i: nat)
    requires i < |s| && s[i] == c && c !in s[..i]
    ensures FindChar(s, c) == Some(i)
    decreases i
  {
    if i > 0 {
      assert s[0] in s[..i];
      assert s[1..][..i - 1] == s[..i][1..];
      FindCharAt(s[1..], c, i - 1);
    }
  }

  /** `s.split(sep)` for a one-character separator. */
  function Split(s: string, sep: char): (parts: seq<string>)
    ensures |parts| >= 1
    ensures forall i :: 0 <= i < |parts| ==> sep !in parts[i]
    decreases |s|
  {
    match FindChar(s, sep)
    case None => [s]
    case Some(i) => [s[..i]] + Split(s[i + 1..], sep)
  }

  /** `parts.join(sep)`. */
  function Join(parts: seq<string>, sep: char): string
    decreases |parts|
  {
    if |parts| == 0 then ""
    else if |parts| == 1 then parts[0]
    else parts[0] + [sep] + Join(parts[1..], sep)
  }

  /** Joining the pieces of a split gives back the string. */
  lemma {:induction false} JoinSplit(s: string, sep: char)
    ensures Join(Split(s, sep), sep) == s
    decreases |s|
  {
    match FindChar(s, sep)
    case None =>
    case Some(i) =>
      var rest := Split(s[i + 1..], sep);
      assert Split(s, sep) == [s[..i]] + rest;
      assert Join(Split(s, sep), sep) == s[..i] + [sep] + Join(rest, sep);
      JoinSplit(s[i + 1..], sep);
      assert s == s[..i] + [sep] + s[i + 1..];
  }

  /** Splitting a join of separator-free pieces gives back the pieces. */
  lemma {:induction false} SplitJoin(parts: seq<string>, sep: char)
    requires |parts| >= 1
    requires forall i :: 0 <= i < |parts| ==> sep !in parts[i]
    ensures Split(Join(parts, sep), sep) == parts
    decreases |parts|
  {
    if |parts| > 1 {
      var p := parts[0];
      var rest := Join(parts[1..], sep);
      var s := p + [sep] + rest;
      assert s[|p|] == sep && s[..|p|] == p;
      FindCharAt(s, sep, |p|);
      assert s[|p| + 1..] == rest;
      SplitJoin(parts[1..], sep);
    }
  }

  /** The part at `index`, or `None` when the split has fewer parts
      (destructuring `const [a, b] = s.split(sep)` past the end). */
  function PartAt(parts: seq<string>, index: nat): Option<string>
  {
    if index < |parts| then Some(parts[index]) else None
  }

  // ---------------------------------------------------------------------------
  // Character replacement
  // ---------------------------------------------------------------------------

  /** `s.replace(/x/g, y)` for single characters `x` and `y`. */
  function ReplaceAll(s: string, from: char, to: char): (r: string)
    ensures |r| == |s|
    ensures forall i :: 0 <= i < |s| ==> r[i] == (if s[i] == from then to else s[i])
  {
    seq(|s|, i requires 0 <= i < |s| => if s[i] == from then to else s[i])
  }

  // ---------------------------------------------------------------------------
  // Decimal numbers
  // ---------------------------------------------------------------------------

  predicate IsDigit(c: char)
  {
    '0' <= c <= '9'
  }

  predicate AllDigits(s: string)
  {
    forall i :: 0 <= i < |s| ==> IsDigit(s[i])
  }

  lemma AllDigitsConcat(a: string, b: string)
    requires AllDigits(a) && AllDigits(b)
    ensures AllDigits(a + b)
  {
    assert forall i :: 0 <= i < |a + b| ==> (a + b)[i] == if i < |a| then a[i] else b[i - |a|];
  }

  function DigitChar(d: nat): (c: char)
    requires d < 10
    ensures IsDigit(c)
  {
    ('0' as int + d) as char
  }

  function DigitValue(c: char): (d: nat)
    requires IsDigit(c)
    ensures d < 10
  {
    c as int - '0' as int
  }

  /** `String(n)` for a non-negative integer: its decimal digits. */
  function NatToString(n: nat): (s: string)
    ensures |s| >= 1 && AllDigits(s)
    ensures |s| > 1 ==> s[0] != '0'
    ensures n < 10 <==> |s| == 1
    decreases n
  {
    if n < 10 then [DigitChar(n)] else NatToString(n / 10) + [DigitChar(n % 10)]
  }

  /** The value of a string of decimal digits (the empty string counts as 0,
      as in `Number("")`). */
  function DigitsValue(s: string): nat
    requires AllDigits(s)
    decreases |s|
  {
    if |s| == 0 then 0 else DigitsValue(s[..|s| - 1]) * 10 + DigitValue(s[|s| - 1])
  }

  /** Printing a number and reading it back gives the number. */
  lemma {:induction false} DigitsValueOfNatToString(n: nat)
    ensures DigitsValue(NatToString(n)) == n
    decreases n
  {
    if n >= 10 {
      var s := NatToString(n);
      assert s[..|s| - 1] == NatToString(n / 10);
      DigitsValueOfNatToString(n / 10);
    }
  }

  /** Distinct numbers print differently. */
  lemma NatToStringInjective(a: nat, b: nat)
    requires NatToString(a) == NatToString(b)
    ensures a == b
  {
    DigitsValueOfNatToString(a);
    DigitsValueOfNatToString(b);
  }

  /** `s.padStart(width, fill)` for a one-character fill. */
  function PadStart(s: string, width: nat, fill: char): (r: string)
    ensures |r| == if |s| >= width then |s| else width
    ensures r[|r| - |s|..] == s
    ensures forall i :: 0 <= i < |r| - |s| ==> r[i] == fill
  {
    if |s| >= width then s else seq(width - |s|, _ => fill) + s
  }

  /** `v.toString(16)` for one digit: `0`-`9` then `a`-`f`; reading it back
      gives `v`. */
  function HexDigit(v: nat): (c: char)
    requires v < 16
    ensures IsLowerHex(c) && HexValue(c) == v
  {
    if v < 10 then ('0' as int + v) as char else ('a' as int + v - 10) as char
  }

  predicate IsLowerHex(c: char)
  {
    ('0' <= c <= '9') || ('a' <= c <= 'f')
  }

  /** The value of a lower-case hexadecimal digit. */
  function HexValue(c: char): (v: nat)
    requires IsLowerHex(c)
    ensures v < 16
  {
    if '0' <= c <= '9' then c as int - '0' as int else c as int - 'a' as int + 10
  }
}

=== FILE: user_routes.dfy ===
/**
  The user routes of `backend/routes/users.js` as transitions of an abstract
  user/memo store. Mongoose queries become lookups in sequences, and
  `mongoose.Types.ObjectId.isValid` is an oracle passed in as `isValidId`.
  The store keeps `_id`s and emails pairwise distinct (the unique index on
  `email` in `backend/models/User.js`); every route preserves that.
 */
module UserRoutes {
  import opened Optional
  import opened Strings

  datatype User = User(id: string, email: string)

  /** A stored memo; only its owner matters to these routes. */
  datatype MemoDoc = MemoDoc(id: string, userId: string)

  datatype Db = Db(users: seq<User>, memos: seq<MemoDoc>)

  /** An HTTP reply: status, error message (empty on success) and the user
      document sent back, if any. */
  datatype Reply = Reply(status: nat, message: string, user: Option<User>)

  const MsgEmailRequired := "이메일은 필수입니다."
  const MsgBadEmail := "올바른 이메일 형식이 아닙니다."
  const MsgDuplicate := "이미 존재하는 이메일입니다."
  const MsgBadId := "잘못된 사용자 ID입니다."
  const MsgNoUser := "사용자를 찾을 수 없습니다."

  /** User ids and emails are pairwise distinct. */
  predicate Distinct(users: seq<User>)
  {
    forall i, j :: 0 <= i < j < |users| ==> users[i].id != users[j].id && users[i].email != users[j].email
  }

  predicate Valid(db: Db)
  {
    Distinct(db.users)
  }

  // ---------------------------------------------------------------------------
  // The email format check
  // ---------------------------------------------------------------------------

  /** Every character is in the class `[^\s@]`. */
  predicate NoSpaceOrAt(s: string)
  {
    forall k :: 0 <= k < |s| ==> s[k] != '@' && !IsWhitespace(s[k])
  }

  /** Reference reading of `/^[^\s@]+@[^\s@]+\.[^\s@]+$/`: the string splits as
      a non-empty run, `@`, a non-empty run, `.`, a non-empty run, each run
      free of whitespace and `@` (the middle and last runs may hold dots). */
  ghost predicate RegexAccepts(s: string)
  {
    exists i, j :: 0 < i && i + 1 < j && j + 1 < |s| && s[i] == '@' && s[j] == '.'
      && NoSpaceOrAt(s[..i]) && NoSpaceOrAt(s[i + 1..j]) && NoSpaceOrAt(s[j + 1..])
  }

  /** A dot with text on both sides. */
  predicate HasInnerDot(d: string)
  {
    exists p :: 0 < p < |d| - 1 && d[p] == '.'
  }

  /** The check as the route performs it: no whitespace, exactly one `@` with
      text before it, and a domain with a dot that is neither its first nor its
      last character. */
  predicate IsEmail(s: string)
  {
    && (forall k :: 0 <= k < |s| ==> !IsWhitespace(s[k]))
    && match FindChar(s, '@')
       case None => false
       case Some(i) => 0 < i && '@' !in s[i + 1..] && HasInnerDot(s[i + 1..])
  }

  lemma SliceNoSpaceOrAt(s: string, lo: nat, hi: nat)
    requires lo <= hi <= |s|
    requires forall k :: lo <= k < hi ==> s[k] != '@' && !IsWhitespace(s[k])
    ensures NoSpaceOrAt(s[lo..hi])
  {
    forall k | 0 <= k < hi - lo ensures s[lo..hi][k] != '@' && !IsWhitespace(s[lo..hi][k]) {
      assert s[lo..hi][k] == s[lo + k];
    }
  }

  lemma IsEmailIsRegex(s: string)
    requires IsEmail(s)
    ensures RegexAccepts(s)
  {
    var i := FindChar(s, '@').value;
    var d := s[i + 1..];
    var p :| 0 < p < |d| - 1 && d[p] == '.';
    var j := i + 1 + p;
    assert s[j] == d[p];
    forall k | 0 <= k < |s| && k != i ensures s[k] != '@' {
      if k < i {
        assert s[k] == s[..i][k];
      } else {
        assert s[k] == d[k - i - 1];
      }
    }
    SliceNoSpaceOrAt(s, 0, i);
    SliceNoSpaceOrAt(s, i + 1, j);
    SliceNoSpaceOrAt(s, j + 1, |s|);
    assert s[..i] == s[0..i] && s[j + 1..] == s[j + 1..|s|];
  }

  /** The characters of three runs around an `@` and a `.`. */
  lemma RunsCharacters(s: string, i: nat, j: nat)
    requires 0 < i && i + 1 < j && j + 1 < |s| && s[i] == '@' && s[j] == '.'
    requires NoSpaceOrAt(s[..i]) && NoSpaceOrAt(s[i + 1..j]) && NoSpaceOrAt(s[j + 1..])
    ensures forall k :: 0 <= k < |s| ==> !IsWhitespace(s[k]) && (k != i ==> s[k] != '@')
  {
    forall k | 0 <= k < |s| ensures !IsWhitespace(s[k]) && (k != i ==> s[k] != '@') {
      if k < i {
        assert s[k] == s[..i][k];
      } else if i < k < j {
        assert s[k] == s[i + 1..j][k - i - 1];
      } else if k > j {
        assert s[k] == s[j + 1..][k - j - 1];
      }
    }
  }

  lemma RegexIsIsEmail(s: string)
    requires RegexAccepts(s)
    ensures IsEmail(s)
  {
    var i, j :| 0 < i && i + 1 < j && j + 1 < |s| && s[i] == '@' && s[j] == '.'
      && NoSpaceOrAt(s[..i]) && NoSpaceOrAt(s[i + 1..j]) && NoSpaceOrAt(s[j + 1..]);
    RunsCharacters(s, i, j);
    assert '@' !in s[..i] by {
      forall k | 0 <= k < i ensures s[..i][k] != '@' {
        assert s[..i][k] == s[k];
      }
    }
    FindCharAt(s, '@', i);
    var d := s[i + 1..];
    assert '@' !in d by {
      forall k | 0 <= k < |d| ensures d[k] != '@' {
        assert d[k] == s[i + 1 + k];
      }
    }
    assert d[j - i - 1] == '.';
    assert HasInnerDot(d);
  }

  /** The check accepts exactly the strings the regular expression matches. */
  lemma IsEmailMatchesRegex(s: string)
    ensures IsEmail(s) <==> RegexAccepts(s)
  {
    if IsEmail(s) {
      IsEmailIsRegex(s);
    }
    if RegexAccepts(s) {
      RegexIsIsEmail(s);
    }
  }

  // ---------------------------------------------------------------------------
  // Store lookups
  // ---------------------------------------------------------------------------

  /** `User.findOne({ email })`. */
  function FindByEmail(users: seq<User>, email: string): (r: Option<User>)
    ensures r.Some? ==> r.value in users && r.value.email == email
    ensures r.None? ==> forall u :: u in users ==> u.email != email
  {
    if |users| == 0 then None
    else if users[0].email == email then Some(users[0])
    else FindByEmail(users[1..], email)
  }

  /** `User.findById(id)`. */
  function FindById(users: seq<User>, id: string): (r: Option<User>)
    ensures r.Some? ==> r.value in users && r.value.id == id
    ensures r.None? ==> forall u :: u in users ==> u.id != id
  {
    if |users| == 0 then None
    else if users[0].id == id then Some(users[0])
    else FindById(users[1..], id)
  }

  /** Some user other than `id` has this email: `findOne({ email, _id: { $ne: id } })`. */
  predicate TakenByOther(users: seq<User>, email: string, id: string)
  {
    exists u :: u in users && u.email == email && u.id != id
  }

  /** `!email || !email.trim()`: the body has no usable email. */
  predicate MissingEmail(email: Option<string>)
  {
    email.None? || IsBlank(email.value)
  }

  // ---------------------------------------------------------------------------
  // Routes
  // ---------------------------------------------------------------------------

  /** `GET /:identifier`: by id when the identifier is a valid ObjectId,
      otherwise by exact email. */
  function GetUser(db: Db, identifier: string, isValidId: string -> bool): (r: Reply)
    ensures r.status == 200 || r.status == 404
    ensures r.status == 404 <==>
      (if isValidId(identifier) then forall u :: u in db.users ==> u.id != identifier
       else forall u :: u in db.users ==> u.email != identifier)
    ensures r.status == 200 ==>
      (&& r.user.Some? && r.user.value in db.users
       && if isValidId(identifier) then r.user.value.id == identifier else r.user.value.email == identifier)
  {
    var found := if isValidId(identifier) then FindById(db.users, identifier) else FindByEmail(db.users, identifier);
    match found
    case None => Reply(404, MsgNoUser, None)
    case Some(u) => Reply(200, "", Some(u))
  }

  /** `POST /`: emptiness, then format, then duplicate; on success the trimmed
      email is stored under the id the database assigns (`newId`). */
  function CreateUser(db: Db, email: Option<string>, newId: string): (r: (Reply, Db))
    ensures MissingEmail(email) ==> r == (Reply(400, MsgEmailRequired, None), db)
    ensures !MissingEmail(email) && !IsEmail(Trim(email.value)) ==> r == (Reply(400, MsgBadEmail, None), db)
    ensures (!MissingEmail(email) && IsEmail(Trim(email.value)) &&
             exists u :: u in db.users && u.email == Trim(email.value)) ==> r == (Reply(409, MsgDuplicate, None), db)
    ensures r.0.status == 201 <==>
      !MissingEmail(email) && IsEmail(Trim(email.value)) && forall u :: u in db.users ==> u.email != Trim(email.value)
    ensures r.0.status == 201 ==>
      r.1 == Db(db.users + [User(newId, Trim(email.value))], db.memos) && r.0.user == Some(User(newId, Trim(email.value)))
    ensures r.0.status != 201 ==> r.1 == db
  {
    if MissingEmail(email) then (Reply(400, MsgEmailRequired, None), db)
    else
      var e := Trim(email.value);
      if !IsEmail(e) then (Reply(400, MsgBadEmail, None), db)
      else if FindByEmail(db.users, e).Some? then (Reply(409, MsgDuplicate, None), db)
      else
        var u := User(newId, e);
        (Reply(201, "", Some(u)), Db(db.users + [u], db.memos))
  }

  /** The users with `id`'s email replaced (`findByIdAndUpdate`). */
  function SetEmail(users: seq<User>, id: string, email: string): (r: seq<User>)
    ensures |r| == |users|
    ensures forall k :: 0 <= k < |users| ==>
      r[k] == if users[k].id == id then User(id, email) else users[k]
  {
    seq(|users|, k requires 0 <= k < |users| => if users[k].id == id then User(id, email) else users[k])
  }

  /** `PUT /:id`: id validity, emptiness, format, a duplicate held by another
      user, and only then whether the user exists. */
  function UpdateUser(db: Db, id: string, email: Option<string>, isValidId: string -> bool): (r: (Reply, Db))
    ensures !isValidId(id) ==> r == (Reply(400, MsgBadId, None), db)
    ensures isValidId(id) && MissingEmail(email) ==> r == (Reply(400, MsgEmailRequired, None), db)
    ensures isValidId(id) && !MissingEmail(email) && !IsEmail(Trim(email.value)) ==> r == (Reply(400, MsgBadEmail, None), db)
    ensures (isValidId(id) && !MissingEmail(email) && IsEmail(Trim(email.value)) &&
             TakenByOther(db.users, Trim(email.value), id)) ==> r == (Reply(409, MsgDuplicate, None), db)
    ensures r.0.status == 404 <==>
      isValidId(id) && !MissingEmail(email) && IsEmail(Trim(email.value)) &&
      !TakenByOther(db.users, Trim(email.value), id) && forall u :: u in db.users ==> u.id != id
    ensures r.0.status == 200 ==>
      r.1 == Db(SetEmail(db.users, id, Trim(email.value)), db.memos) && r.0.user == Some(User(id, Trim(email.value)))
    ensures r.0.status != 200 ==> r.1 == db
  {
    if !isValidId(id) then (Reply(400, MsgBadId, None), db)
    else if MissingEmail(email) then (Reply(400, MsgEmailRequired, None), db)
    else
      var e := Trim(email.value);
      if !IsEmail(e) then (Reply(400, MsgBadEmail, None), db)
      else if TakenByOther(db.users, e, id) then (Reply(409, MsgDuplicate, None), db)
      else if FindById(db.users, id).None? then (Reply(404, MsgNoUser, None), db)
      else (Reply(200, "", Some(User(id, e))), Db(SetEmail(db.users, id, e), db.memos))
  }

  function WithoutUser(users: seq<User>, id: string): (r: seq<User>)
    ensures forall u :: u in r <==> u in users && u.id != id
    decreases |users|
  {
    if |users| == 0 then []
    else (if users[0].id == id then [] else [users[0]]) + WithoutUser(users[1..], id)
  }

  /** `Memo.deleteMany({ userId: id })`. */
  function WithoutMemosOf(memos: seq<MemoDoc>, id: string): (r: seq<MemoDoc>)
    ensures forall m :: m in r <==> m in memos && m.userId != id
    decreases |memos|
  {
    if |memos| == 0 then []
    else (if memos[0].userId == id then [] else [memos[0]]) + WithoutMemosOf(memos[1..], id)
  }

  /** `DELETE /:id`: 400 for an invalid id, 404 for an unknown user; otherwise
      the user and every memo they own are removed and the reply is 204. */
  function DeleteUser(db: Db, id: string, isValidId: string -> bool): (r: (Reply, Db))
    ensures !isValidId(id) ==> r == (Reply(400, MsgBadId, None), db)
    ensures isValidId(id) && (forall u :: u in db.users ==> u.id != id) ==> r == (Reply(404, MsgNoUser, None), db)
    ensures r.0.status == 204 <==> isValidId(id) && exists u :: u in db.users && u.id == id
    ensures r.0.status == 204 ==>
      (forall u :: u in r.1.users <==> u in db.users && u.id != id) &&
      (forall m :: m in r.1.memos <==> m in db.memos && m.userId != id)
  {
    if !isValidId(id) then (Reply(400, MsgBadId, None), db)
    else if FindById(db.users, id).None? then (Reply(404, MsgNoUser, None), db)
    else (Reply(204, "", None), Db(WithoutUser(db.users, id), WithoutMemosOf(db.memos, id)))
  }

  // ---------------------------------------------------------------------------
  // The uniqueness invariant
  // ---------------------------------------------------------------------------

  /** Creating a user keeps ids and emails distinct, given that the database
      assigns an id no stored user has. */
  lemma CreateKeepsValid(db: Db, email: Option<string>, newId: string)
    requires Valid(db)
    requires forall u :: u in db.users ==> u.id != newId
    ensures Valid(CreateUser(db, email, newId).1)
  {
    var r := CreateUser(db, email, newId);
    if r.0.status == 201 {
      var users := r.1.users;
      forall i, j | 0 <= i < j < |users|
        ensures users[i].id != users[j].id && users[i].email != users[j].email
      {
        if j == |users| - 1 {
          assert users[i] in db.users;
        }
      }
    }
  }

  /** Changing an email keeps ids and emails distinct. */
  lemma UpdateKeepsValid(db: Db, id: string, email: Option<string>, isValidId: string -> bool)
    requires Valid(db)
    ensures Valid(UpdateUser(db, id, email, isValidId).1)
  {
    var r := UpdateUser(db, id, email, isValidId);
    if r.0.status == 200 {
      var e := Trim(email.value);
      var users := r.1.users;
      forall i, j | 0 <= i < j < |users|
        ensures users[i].id != users[j].id && users[i].email != users[j].email
      {
        var a, b := db.users[i], db.users[j];
        if a.id == id {
          assert b.id != id;
          assert !(b in db.users && b.email == e && b.id != id);
        } else if b.id == id {
          assert !(a in db.users && a.email == e && a.id != id);
        }
      }
    }
  }

  /** A user whose id and email no listed user has can be put in front. */
  lemma ConsDistinct(x: User, rest: seq<User>)
    requires Distinct(rest)
    requires forall u :: u in rest ==> u.id != x.id && u.email != x.email
    ensures Distinct([x] + rest)
  {
    var r := [x] + rest;
    forall i, j | 0 <= i < j < |r| ensures r[i].id != r[j].id && r[i].email != r[j].email {
      assert r[j] == rest[j - 1];
      if i == 0 {
        assert rest[j - 1] in rest;
      } else {
        assert r[i] == rest[i - 1];
      }
    }
  }

  lemma {:induction false} WithoutUserKeepsDistinct(users: seq<User>, id: string)
    requires Distinct(users)
    ensures Distinct(WithoutUser(users, id))
    decreases |users|
  {
    if |users| > 0 {
      var tail := users[1..];
      WithoutUserKeepsDistinct(tail, id);
      var rest := WithoutUser(tail, id);
      if users[0].id != id {
        forall u | u in rest ensures u.id != users[0].id && u.email != users[0].email {
          assert u in tail;
          var k :| 0 <= k < |tail| && tail[k] == u;
          assert users[k + 1] == u;
        }
        ConsDistinct(users[0], rest);
        assert WithoutUser(users, id) == [users[0]] + rest;
      } else {
        assert WithoutUser(users, id) == rest;
      }
    }
  }

  /** Deleting a user keeps ids and emails distinct. */
  lemma DeleteKeepsValid(db: Db, id: string, isValidId: string -> bool)
    requires Valid(db)
    ensures Valid(DeleteUser(db, id, isValidId).1)
  {
    var r := DeleteUser(db, id, isValidId);
    if r.0.status == 204 {
      assert r.1.users == WithoutUser(db.users, id);
      WithoutUserKeepsDistinct(db.users, id);
    }
  }
}
